=== FILE: README.md ===
# AI Companion core, modelled in Dafny

AI Companion is a VS Code chat extension. This project models the logic at the centre of it:

- **Conversation history.** This covers:
  - the newline-delimited history file grouped by `chat_id`;
  - the in-memory map that each save appends to;
  - the generator that draws chat ids until it finds one not yet in use.
- **The chat request.** The user message is saved and the context window is read. The system prompt and the window go to the model. The reply is saved, with a fixed apology on any failure.
- **The settings record.** Stored settings are laid over the defaults, with a per-provider merge. Updates and resets are covered too.
- **Images and binary attachments.**
  - An image file's data URL is built from its MIME type.
  - The `saveImage` header parse recovers the image format and the payload from that data URL, and the stored file name is built from them.
  - Image files can be deleted again.
  - Extracted PDF text is capped at 20000 characters.
- **The model-list request of the settings panel.** This covers endpoint normalisation, the request URL, the per-provider filters and sorting of model ids, and the CSP nonce.
- **The two webviews' script logic.**
  - Settings panel: the prompt-chain list (add, move, delete, renumber, sort, render), the model dropdowns, the provider switch and the field edits.
  - Chat view: HTML escaping and the attached-context message parser. The regular expression `/File:\s*(.*?)\n```(\w*)\n([\s\S]*?)```/g` is modelled with its backtracking made explicit.
  - Chat view, composer: attachment removal by button index, de-duplicated file contexts, the image-file filter and the send guard.

Everything runs on immutable values: strings are `seq<char>`, records are datatypes, maps and sequences. Parameters stand in for the outside world:

- the file system, `globalState`, the HTTP request and the language model are outcomes passed in;
- `JSON.parse`, pdf-parse and the markdown highlighter are functions passed in;
- `Date.now()` and `Math.random()` are values passed in.

Each module follows one source file. `Text`, `Lists`, `Html` and `Base64` hold the string, list, escaping and encoding definitions they share.

## Model

| member | source | states |
|---|---|---|
| ChatUtils.NonBlankLines | src/chat/chat-utils.ts:26 | `split('\n')` followed by the blank-line filter: no kept line is blank or holds a line break. |
| ChatUtils.KeepNonBlank | src/chat/chat-utils.ts:26 | The kept lines are the array filter with the `trim() !== ''` test: the non-blank lines in their order and with their repeats, and nothing else. |
| ChatUtils.ParseLines | src/chat/chat-utils.ts:27-28 | Parsing succeeds iff every line parses. The entries are then the parsed lines, one per line, in order. |
| ChatUtils.AddToGroup | src/chat/chat-utils.ts:29-33 | One loop step adds the entry's key to the key set and nothing else. |
| ChatUtils.GroupEntries | src/chat/chat-utils.ts:29-33 | The grouping loop, entries taken left to right: each step creates the entry's group when missing and pushes the entry. Its keys and groups are characterised by GroupKeysIff and GroupsAreFilters. |
| ChatUtils.GroupKeyIff | src/chat/chat-utils.ts:29-33 | A key names a group iff some entry carries that key value. |
| ChatUtils.GroupKeysIff | src/chat/chat-utils.ts:29-33 | The group keys are exactly the key values that occur among the entries. |
| ChatUtils.GroupIsFilter | src/chat/chat-utils.ts:27-33 | Each group equals the independent reference definition: the entries with that key value, in input order. |
| ChatUtils.GroupsAreFilters | src/chat/chat-utils.ts:27-33 | Every group is the order-preserving filter of the entries by its key. |
| ChatUtils.EmptyFilterWhenAbsent | src/chat/chat-utils.ts:29-33 | A key value no entry carries filters to nothing. |
| ChatUtils.GroupsAreHomogeneousAndNonEmpty | src/chat/chat-utils.ts:29-33 | Every entry of group g carries key value g, and no group is empty. |
| ChatUtils.FilterFacts | src/chat/chat-utils.ts:29-33 | When some entry carries key value g, the filter for g is non-empty and all of it carries g. |
| ChatUtils.FilterKeys | src/chat/chat-utils.ts:29-33 | Every element of the filter for key value g carries g. |
| ChatUtils.TotalSizeRemove | src/chat/chat-utils.ts:30-33 | Removing one group lowers the total entry count by exactly that group's size. |
| ChatUtils.RemoveKeyShrinks | src/chat/chat-utils.ts:30-33 | Removing a present key leaves one key fewer. |
| ChatUtils.TotalSizeAdd | src/chat/chat-utils.ts:30-33 | Each loop step adds exactly one entry to the total. |
| ChatUtils.GroupSizesAddUp | src/chat/chat-utils.ts:26-34 | Together, the groups hold exactly as many entries as there were lines. |
| ChatUtils.NdJsonParse | src/chat/chat-utils.ts:23-36 | The parse fails iff some non-blank line fails to parse or has a key value naming an inherited `Object` member, whose `push` throws. So no partial map is returned. No group of a result is empty or named after an inherited member. |
| ChatUtils.NdJsonParseGroups | src/chat/chat-utils.ts:23-36 | On success, the groups hold one entry per non-blank line. Each group is the key-filtered, order-preserving list of parsed lines, and every entry carries its group's key. |
| ChatUtils.ChatIdOf | src/chat/chat-utils.ts:10 | The id template `${Date.now()}-${suffix}` for one draw. Its shape is stated by ChatIdOfShape. |
| ChatUtils.ChatIdOfShape | src/chat/chat-utils.ts:10 | An id is the decimal timestamp, a `-`, then at most seven base-36 characters. |
| ChatUtils.GenerateChatId | src/chat/chat-utils.ts:6-17 | With no history loaded, the first draw is used. Otherwise the id is the first draw that is not a key of the history, so the result is fresh, and every earlier draw was taken. The id always has the timestamp-suffix shape. |
| ChatHistory.ReadChatHistory | src/chat/chat-history.ts:31-63 | The map is reset and the path recorded on every call. A failed directory creation, a failed read or empty content leaves the map empty. Otherwise the map is the ndJSON grouping of the file by `chat_id`, or empty when the parse throws. The returned map is the stored one. Its groups are non-empty, keyed by chat id, and never named after an inherited `Object` member. |
| ChatHistory.Rest | src/chat/chat-history.ts:74 | `{chat_id, ...rest}`: every field but `chat_id`, with its value. |
| ChatHistory.SaveMessageToHistory | src/chat/chat-history.ts:71-87 | An unset path, a failed write or an unloaded map changes nothing. A chat id naming an inherited `Object` member also changes nothing, because its `push` throws after the line is written. Otherwise the chat's list grows by one, or a one-element list is created, and its last entry is the message without `chat_id`. Every other chat stays as it was. |
| ChatHistory.SaveAppends | src/chat/chat-history.ts:79-83 | One successful save appends the message's rest to its chat's list. When the chat id names an inherited `Object` member, the store is unchanged. |
| ChatHistory.SavesAppendInOrder | src/chat/chat-history.ts:79-83 | Successive saves for one chat append their messages, minus `chat_id`, in call order. When the chat id names an inherited `Object` member, nothing changes. |
| ChatHistory.SavesKeepKeysOwn | src/chat/chat-history.ts:80-83 | No run of saves creates a group named after an inherited `Object` member. |
| ChatHistory.SavesKeepOtherChats | src/chat/chat-history.ts:80-83 | Any number of saves for one chat leave every other chat's list unchanged. |
| ChatHistory.SavesKeepGroupsNonEmpty | src/chat/chat-history.ts:80-83 | Saving never produces an empty group, for any run of saves and write outcomes. |
| ChatCore.MaxContext | src/chat/chat-core.ts:49 | An unset or zero `maxContextMessages` falls back to 10. Any other value is used as is. |
| ChatCore.SystemPrompt | src/chat/chat-core.ts:50-51 | The prompt is never empty. A configured non-empty prompt wins, and anything else falls back to the default. |
| ChatCore.AddMessage | src/chat/chat-core.ts:64 | A failed call is reported as a failure. A successful one appends exactly one message with that role and text to that chat only. |
| ChatCore.ContextWindow | src/chat/chat-core.ts:67 | The window is the last min(n, size) messages of the chat, oldest first. It is empty for an unknown chat or a non-positive n. |
| ChatCore.WindowAfterAdd | src/chat/chat-core.ts:64-67 | Reading n messages after an add gives the n-1 messages before it followed by the new message. |
| ChatCore.ProcessChatRequest | src/chat/chat-core.ts:38-100 | The model is asked only after the user message is saved. The payload is the system prompt followed by the window, which ends with that message. On success the reply is saved as one bot message and returned. On any failure in the try block the apology is saved and returned, and the call rejects only when that save fails. What is returned is the chat's last message, and other chats are never touched. |
| SettingsManager.Pick | src/services/settings-manager.ts:70-71 | A spread field takes the stored value when present, else the default. |
| SettingsManager.MergeGeneral | src/services/settings-manager.ts:70 | Each stored general field wins. Each absent one takes its default. |
| SettingsManager.MergeModels | src/services/settings-manager.ts:71-85 | Each stored model field wins. The provider keys are the defaults' plus the stored ones. A stored provider entry replaces the default one whole, and the other defaults stay. |
| SettingsManager.GetSettings | src/services/settings-manager.ts:62-88 | With nothing stored the result is exactly the defaults. Otherwise it is the section-wise merge, with prompts defaulting to empty. The OpenAI and Gemini entries are always present. |
| SettingsManager.UpdateSettings | src/services/settings-manager.ts:90-94 | Each supplied section is stored as given. Each section not supplied is stored as the current merged value. |
| SettingsManager.ResetSettings | src/services/settings-manager.ts:96-98 | After a reset, reading gives the defaults. |
| SettingsManager.GetSettingsIdempotent | src/services/settings-manager.ts:62-93 | Storing the merged settings and reading them again gives the same settings. |
| SettingsManager.EmptyUpdateKeepsSettings | src/services/settings-manager.ts:90-94 | An update supplying no section changes nothing observable. |
| SettingsManager.UpdateThenGet | src/services/settings-manager.ts:62-94 | After an update, each supplied section reads back merged with the defaults, and the others read back unchanged. |
| ImageStorage.PayloadOk | src/chat/image-storage.ts:27 | The check is exactly what `(.+)$` accepts. |
| ImageStorage.IsDataUrl | src/chat/image-storage.ts:27 | The match of `^data:image\/([a-z]+);base64,(.+)$`: the prefix, a non-empty run of lower-case letters, the marker, and a non-empty payload with no line terminator. |
| ImageStorage.ParseDataUrl | src/chat/image-storage.ts:27-30 | A string matching `^data:image\/([a-z]+);base64,(.+)$` yields exactly its two groups. Any other string yields `png` and the whole string. |
| ImageStorage.NoMatchWithoutPrefix | src/chat/image-storage.ts:27 | Without the `data:image/` prefix nothing matches. |
| ImageStorage.MatchIsUnique | src/chat/image-storage.ts:27 | A matching string determines both groups. |
| ImageStorage.ExtensionIsLetterRun | src/chat/image-storage.ts:27 | In a match, the format is the whole letter run after the prefix, and the payload is everything after the comma. |
| ImageStorage.LettersThenStop | src/chat/image-storage.ts:27 | A letter run ended by a non-letter is exactly the scanned run. |
| ImageStorage.NoMatchWhenScanFails | src/chat/image-storage.ts:27-30 | When the scan finds no letters, no marker or no valid payload, no way of matching exists. |
| ImageStorage.EmptyPayloadNotMatched | src/chat/image-storage.ts:27 | A data URL with nothing after the comma does not match. |
| ImageStorage.ImageFileName | src/chat/image-storage.ts:33 | The file name starts with `img_`. For a dot-free format, the text after its last dot is the format, whatever the suffix. |
| ImageStorage.SaveImage | src/chat/image-storage.ts:25-41 | A successful write stores the parsed payload under a name ending in the parsed format and returns only that name. A failed write rejects and stores nothing. |
| ImageStorage.DeleteImage | src/chat/image-storage.ts:47-57 | A successful delete removes the file. A failed delete or a missing file changes nothing and is never reported, and no other file is touched. |
| Base64.DigitChar | src/chat/binary-handler.ts:55 | Every six-bit value is written as a base64 alphabet character. |
| Base64.DigitValue | src/chat/binary-handler.ts:55 | Every alphabet character reads back as a six-bit value. |
| Base64.DigitRoundTrip | src/chat/binary-handler.ts:55 | Reading a written digit gives back its value. |
| Base64.EncodeGroup | src/chat/binary-handler.ts:55 | One to three bytes become four characters, with `=` padding exactly for the missing bytes. |
| Base64.Encode | src/chat/binary-handler.ts:55 | `buffer.toString('base64')`: four characters per started group of three bytes, each an alphabet character or `=`. The text is empty iff there are no bytes. |
| Base64.GroupRoundTrip | src/chat/binary-handler.ts:55 | Decoding an encoded group gives back its bytes. |
| Base64.OneByteRoundTrip | src/chat/binary-handler.ts:55 | A final one-byte group, padded with `==`, decodes back to its byte. |
| Base64.TwoBytesRoundTrip | src/chat/binary-handler.ts:55 | A final two-byte group, padded with `=`, decodes back to its bytes. |
| Base64.ThreeBytesRoundTrip | src/chat/binary-handler.ts:55 | A full group of four digits decodes back to its three bytes. |
| Base64.DecodeFullGroup | src/chat/binary-handler.ts:55 | An unpadded group in front of a non-empty canonical text keeps it canonical. The result decodes to the group's bytes followed by the text's bytes. |
| Base64.DecodeEncode | src/chat/binary-handler.ts:55 | Decoding the encoding of any byte string gives back those bytes. |
| BinaryHandler.Extension | src/chat/binary-handler.ts:5 | The extension is the text after the last dot, lower-cased. It has no dot, and a path without a dot is its own extension. |
| BinaryHandler.MimeType | src/chat/binary-handler.ts:62-72 | A type is known iff the extension is png, jpg, jpeg, gif or webp. It is then `image/` plus the extension, with jpg written as jpeg. |
| BinaryHandler.ImageDataUrl | src/chat/binary-handler.ts:47-60 | A failed read or an unknown type gives null. Otherwise the URL is `data:<mime>;base64,` followed by canonical base64 that decodes to the file's bytes. |
| BinaryHandler.FormatIsExtension | src/chat/binary-handler.ts:62-72 | Every known image format is a non-empty run of lower-case letters. |
| BinaryHandler.ImageDataUrlShape | src/chat/binary-handler.ts:55 | An image's data URL is the `saveImage` prefix, the format, the base64 marker and the encoded bytes. |
| BinaryHandler.ImageHeaderShape | src/chat/binary-handler.ts:55 | The header `data:` + `image/<format>` + `;base64,` is the prefix `saveImage` expects. |
| BinaryHandler.ImageDataUrlIsSaved | src/chat/binary-handler.ts:55 | Round trip: for a non-empty image, `saveImage` recovers the format (jpg as jpeg) and a payload that decodes to the file's bytes. |
| BinaryHandler.EncodedIsPayload | src/chat/binary-handler.ts:55 | The base64 text of a non-empty file is a non-empty single line, as `(.+)$` needs. |
| BinaryHandler.EmptyImageIsNotRecognised | src/chat/binary-handler.ts:55 | An empty image file's data URL is not recognised by `saveImage`, which falls back to `png` with the whole URL as payload. |
| BinaryHandler.TruncatePdfText | src/chat/binary-handler.ts:27-31 | Text up to 20000 characters is kept. Longer text becomes its first 20000 characters plus the marker, so the length never exceeds 20000 plus the marker. Characters are code points here, not UTF-16 code units. |
| BinaryHandler.TruncateIdempotent | src/chat/binary-handler.ts:27-31 | Truncating twice is truncating once. |
| BinaryHandler.ProcessBinaryFile | src/chat/binary-handler.ts:4-41 | A failed read or a failed extraction gives the one fixed error. A non-PDF gives null. A PDF gives its truncated text. |
| SettingsView.StripTrailingSlashes | src/settings/settings-view.ts:129 | The result is a prefix of the input that does not end in `/`, with only slashes removed. |
| SettingsView.StripIsUnique | src/settings/settings-view.ts:129 | Stripping text-plus-slashes gives back exactly that text, for any number of slashes. |
| SettingsView.StripIdempotent | src/settings/settings-view.ts:129 | Stripping twice is stripping once. |
| SettingsView.Endpoint | src/settings/settings-view.ts:127-129 | The base URL, or the default when it is empty, with no trailing slash. |
| SettingsView.ModelsUrl | src/settings/settings-view.ts:122-158 | Only OpenAI and Gemini are asked. The URL is endpoint + `/models`, or endpoint + `/models?key=` + key for Gemini. |
| SettingsView.UrlIgnoresTrailingSlashes | src/settings/settings-view.ts:127-130 | Adding trailing slashes to the base URL leaves the request URL unchanged. |
| SettingsView.GeminiId | src/settings/settings-view.ts:167 | A name without `models/` is kept. Otherwise exactly one seven-character occurrence is removed. |
| SettingsView.GeminiIdOfPrefixed | src/settings/settings-view.ts:167 | `models/<id>` gives back `<id>`. |
| SettingsView.OpenAiImageModel | src/settings/settings-view.ts:190-196 | An OpenAI id is an image model iff it starts with `gpt-3.5`, `gpt-4` or `gpt-5` and contains `gpt-4o`, `gpt-4-turbo`, `vision` or `gpt-5`. |
| SettingsView.OpenAiTextModel | src/settings/settings-view.ts:199-211 | An OpenAI id is a text model iff it starts with `gpt-3.5`, `gpt-4` or `gpt-5` and contains neither `vision` nor `audio`. |
| SettingsView.GeminiImageModel | src/settings/settings-view.ts:218-224 | A Gemini id is an image model iff its lower-cased form lacks `embedding` and it contains `gemini` and either `1.5` or `vision`. |
| SettingsView.GeminiTextModel | src/settings/settings-view.ts:218-230 | A Gemini id is a text model iff its lower-cased form lacks `embedding` and it contains `gemini`. |
| SettingsView.FilterModels | src/settings/settings-view.ts:171-235 | Each list holds exactly the fetched ids its provider rule keeps, with their multiplicities, in string order. |
| SettingsView.ListedIdsAreKept | src/settings/settings-view.ts:190-230 | Every listed id was fetched and satisfies its list's rule. |
| SettingsView.OpenAiRules | src/settings/settings-view.ts:179-211 | OpenAI text models have an allowed prefix and mention neither vision nor audio. Image models have an allowed prefix and a vision marker. |
| SettingsView.GeminiRules | src/settings/settings-view.ts:218-230 | No Gemini id mentions embedding in any letter case, and the image list is a sub-multiset of the text list. |
| SettingsView.UnknownProviderKeepsAll | src/settings/settings-view.ts:231-235 | Any other provider gets every fetched id, sorted, in both lists. |
| SettingsView.FetchedIds | src/settings/settings-view.ts:150-167 | OpenAI ids are taken as given. Gemini names lose their `models/`. |
| SettingsView.HandleFetchModels | src/settings/settings-view.ts:116-249 | A failed request reports failure. An unknown provider, an absent list or an empty list gives the warning only. Otherwise the filtered lists are posted, and only for OpenAI or Gemini. |
| SettingsView.AlphabetChar | src/settings/settings-view.ts:255 | Every character of `possible` is an ASCII letter or digit. |
| SettingsView.DrawIndex | src/settings/settings-view.ts:257 | `Math.floor(draw * 62)` is an index into `possible`. |
| SettingsView.NonceChar | src/settings/settings-view.ts:257 | Each drawn character is an ASCII letter or digit. |
| SettingsView.NonceCharIsAlphabetChar | src/settings/settings-view.ts:255-257 | The drawn character is `possible.charAt` at the drawn index. |
| SettingsView.GetNonce | src/settings/settings-view.ts:253-260 | The nonce has 32 characters, character i being the one draw i picks from `possible`. |
| SettingsView.NonceAlphabetIsAlphanumeric | src/settings/settings-view.ts:255 | `possible` holds exactly the ASCII letters and digits. |
| SettingsView.NonceCharReachesAll | src/settings/settings-view.ts:257 | Every character of `possible` can be drawn. |
| SettingsWebview.Unordered | webview/settings/settings.js:309 | The prompts with their order keys blanked and all else kept. |
| SettingsWebview.Renumber | webview/settings/settings.js:309-330 | The order keys become 1..n in list position, and nothing else changes. |
| SettingsWebview.AddPrompt | webview/settings/settings.js:171-180 | One prompt is appended: the id is the time, the name is `New Agent`, it is active, and its order is the old length + 1. The list before it is unchanged. |
| SettingsWebview.Swap | webview/settings/settings.js:306-308 | Two positions exchange their elements, and the rest and the multiset stay. |
| SettingsWebview.MoveUp | webview/settings/settings.js:303-312 | Row 0 is unchanged. Otherwise the prompt trades places with the one above, everything else stays put, and the list is renumbered. |
| SettingsWebview.MoveDown | webview/settings/settings.js:315-324 | The last row is unchanged. Otherwise the prompt trades places with the one below, everything else stays put, and the list is renumbered. |
| SettingsWebview.MoveIsPermutation | webview/settings/settings.js:303-324 | A move rearranges the same prompts. |
| SettingsWebview.UnorderedSwap | webview/settings/settings.js:306-309 | Blanking keys commutes with a swap. |
| SettingsWebview.MoveDownThenUp | webview/settings/settings.js:303-324 | Moving down and then up from the new row restores the list, renumbered. |
| SettingsWebview.DeletePrompt | webview/settings/settings.js:327-332 | Every prompt with the id goes, the rest keep their relative order, and keys are renumbered. |
| SettingsWebview.UnorderedFilter | webview/settings/settings.js:329 | Blanking keys does not change what an id filter keeps. |
| SettingsWebview.UnorderedAppend | webview/settings/settings.js:329 | Blanking keys distributes over concatenation. |
| SettingsWebview.DeleteUndoesAdd | webview/settings/settings.js:171-332 | Deleting a just-added prompt with a fresh id gives back the old list, renumbered. |
| SettingsWebview.FilterKeepsAll | webview/settings/settings.js:329 | A filter every prompt passes keeps the list. |
| SettingsWebview.SortByOrder | webview/settings/settings.js:255 | The same prompts in ascending key order, stable for equal keys. |
| SettingsWebview.SortKeepsNumberedList | webview/settings/settings.js:255 | A list numbered 1..n is left as it is by the sort. |
| SettingsWebview.EditsKeepRenderOrder | webview/settings/settings.js:171-332 | After add, move or delete, rendering shows the prompts in exactly the order the edit produced. |
| SettingsWebview.RenderPrompts | webview/settings/settings.js:246-348 | An empty list shows the placeholder. Otherwise the prompts are sorted by `order`, stably: prompts with equal keys keep their relative order. There is one row per sorted prompt, with its 1-based position and the top and bottom move buttons disabled. The name and content hold no `<` or `>` and un-escape to the prompt's own. The sorted list becomes the state. |
| SettingsWebview.Or | webview/settings/settings.js:78-79 | `v \|\| fallback` keeps a non-empty string and replaces anything else. |
| SettingsWebview.DefaultModels | webview/settings/settings.js:14-23 | The default text and image lists are non-empty and duplicate-free. |
| SettingsWebview.Offer | webview/settings/settings.js:364-369 | The list stays as a prefix, and a truthy selection is added once when missing. Nothing else is added, and the list is unchanged when there is nothing to add. Uniqueness is kept. |
| SettingsWebview.OfferIsIdempotent | webview/settings/settings.js:364-369 | Offering a model twice is offering it once. |
| SettingsWebview.PopulateModelDropdowns | webview/settings/settings.js:358-375 | The provider's defaults (OpenAI's for an unknown provider) stay as a prefix. Each truthy selection is offered, nothing but the defaults and the selections is offered, and a list whose selection is falsy or already listed is exactly the defaults. The lists stay duplicate-free. |
| SettingsWebview.Reselect | webview/settings/settings.js:207-216 | The previous model stays selected when still offered. |
| SettingsWebview.Preset | webview/settings/settings.js:67-72 | The base URL is preset only for a known provider whose entry has neither URL nor key. |
| SettingsWebview.SwitchProvider | webview/settings/settings.js:53-95 | The saved entry (a blank one when missing) is loaded and preset, and only a saved entry is written back. Empty models fall back to the provider's fallback models. The chosen models are non-empty and are offered in the dropdowns. |
| SettingsWebview.SwitchTwiceIsSwitchOnce | webview/settings/settings.js:53-95 | Switching to the same provider again changes nothing. |
| SettingsWebview.PresetIsIdempotent | webview/settings/settings.js:67-72 | The preset applied twice is applied once. |
| SettingsWebview.SwitchKeepsOtherProviders | webview/settings/settings.js:53-95 | Only the entry of the provider switched to can change. |
| SettingsWebview.SetField | webview/settings/settings.js:110-113 | Writes the typed value into the one field of the provider entry that the input names, leaving the other three. |
| SettingsWebview.EditField | webview/settings/settings.js:98-121 | The typed value goes into the current provider's entry, created when missing, and into the top-level field. No other provider changes. |
| SettingsWebview.EditedModelSurvivesSwitch | webview/settings/settings.js:53-121 | A typed model comes back after switching away and back. |
| SettingsWebview.EditedKeySurvivesSwitch | webview/settings/settings.js:53-121 | A typed key comes back, and the preset no longer overwrites the saved URL. |
| Html.Entity | webview/chatbox/chatbox.js:117-124 | Each special character's entity starts with `&` and ends with `;`. It contains no `<`, `>` or quote. |
| Html.EscapeHtml | webview/chatbox/chatbox.js:117-124 | The chat view's escape equals escaping each character on its own. |
| Html.EscapeHtmlBasic | webview/settings/settings.js:350-356 | The settings view's escape equals escaping each character on its own, quotes excluded. An empty value gives "". |
| Html.EscapeChar | webview/chatbox/chatbox.js:117-124 | An escaped character contains no `<` or `>`, and in full mode no quote. |
| Html.EscapeHtmlIsPerCharacter | webview/chatbox/chatbox.js:117-124 | The chain of five replacements, `&` first, escapes each character independently. |
| Html.EscapeHtmlBasicIsPerCharacter | webview/settings/settings.js:350-356 | The three-step chain escapes each character independently. |
| Html.UnescapeEscapeEach | webview/chatbox/chatbox.js:117-124 | Un-escaping escaped text gives back the input. |
| Html.EscapedAmpersands | webview/chatbox/chatbox.js:117-124 | Every `&` of escaped text starts an entity. |
| Html.EscapeEachOmits | webview/chatbox/chatbox.js:117-124 | Escaped text has no `<` or `>`, and in full mode no quotes. |
| Html.EscapeHtmlFacts | webview/chatbox/chatbox.js:117-124 | The output has no `<`, `>`, `"` or `'`, every `&` starts an entity, and un-escaping restores the input. |
| Html.QuotesKept | webview/settings/settings.js:350-356 | The settings escape keeps every quote. |
| Html.EscapeHtmlBasicFacts | webview/settings/settings.js:350-356 | Empty input gives "". Otherwise the output has no `<` or `>`, keeps the quotes, and un-escapes to the input. |
| Chatbox.Br | webview/chatbox/chatbox.js:429 | `.replace(/\n/g, "<br>")`: no line break is left. UnBrBr undoes it on `<`-free text. |
| Chatbox.UnBrBr | webview/chatbox/chatbox.js:429 | On text without `<`, the `<br>` conversion is undone exactly. |
| Chatbox.Display | webview/chatbox/chatbox.js:429 | The output is the per-character escape of the text with each line break as `<br>`. So its only markup is `<br>` tags and entities, with no quotes, and undoing `<br>` and entities gives back exactly the text. |
| Chatbox.DisplayRoundTrip | webview/chatbox/chatbox.js:429-438 | Escaping followed by line-break conversion loses nothing. |
| Chatbox.DisplayIsInert | webview/chatbox/chatbox.js:429 | In escaped text with its line breaks as `<br>`, every `<` opens and every `>` closes a `<br>` tag, every `&` starts an entity, and no quote is left. |
| Chatbox.MarkerParts | webview/chatbox/chatbox.js:433-435 | Part 0 is the text before the first marker. Part 1 is the text after it up to the next marker or the end, and holds no marker. |
| Chatbox.MarkerSplitHolds | webview/chatbox/chatbox.js:433-435 | The split found by searching satisfies the marker-split description. |
| Chatbox.FirstMarker | webview/chatbox/chatbox.js:433 | No marker occurs before the first one found. |
| Chatbox.NoMarkerInContext | webview/chatbox/chatbox.js:433-435 | The scanned segment holds no marker. |
| Chatbox.NoFenceInIff | webview/chatbox/chatbox.js:442 | The recursive no-fence test means no fence starts in the range. |
| Chatbox.MatchText | webview/chatbox/chatbox.js:442 | A match spans `File:`, the whitespace, the name, "\n```", the language, a line break, the code and the fence. |
| Chatbox.LiteralParts | webview/chatbox/chatbox.js:442 | A block's span splits into the pattern's literal parts and its groups. |
| Chatbox.MatchAtSound | webview/chatbox/chatbox.js:442 | What the scan for a given whitespace length finds is a match with that length. |
| Chatbox.NameFromSound | webview/chatbox/chatbox.js:442 | The name scan yields the name, language and code parts of a match. |
| Chatbox.LanguageFromSound | webview/chatbox/chatbox.js:442 | The language scan yields the language and code parts of a match. |
| Chatbox.CodeFromSound | webview/chatbox/chatbox.js:442 | The code ends at a fence, and none starts before it. |
| Chatbox.MatchAtComplete | webview/chatbox/chatbox.js:442 | Every match is the one the scan finds for its whitespace length, so lazy `.*?` and `[\s\S]*?` leave no choice. |
| Chatbox.MatchAtFromParts | webview/chatbox/chatbox.js:442 | The scan is assembled from its name, language and code steps. |
| Chatbox.NameIsRun | webview/chatbox/chatbox.js:442 | In a match, the name is the whole run of non-terminators. |
| Chatbox.LanguageIsRun | webview/chatbox/chatbox.js:442 | In a match, the language is the whole `\w` run. |
| Chatbox.CodeEndsAtFirstFence | webview/chatbox/chatbox.js:442 | In a match, the code ends at the first fence. |
| Chatbox.SpaceWithinRun | webview/chatbox/chatbox.js:442 | A match's whitespace lies inside the whitespace run after `File:`. |
| Chatbox.TryFrom | webview/chatbox/chatbox.js:442 | Backtracking `\s*` from longest to shortest finds the match with the most whitespace, or proves there is none. |
| Chatbox.NoMatchOfWidth | webview/chatbox/chatbox.js:442 | A failed scan rules out every match of that whitespace length. |
| Chatbox.MatchFrom | webview/chatbox/chatbox.js:442 | The match starting at a position, with greedy `\s*`, exists iff any match starts there. |
| Chatbox.AllMatchesWithinRun | webview/chatbox/chatbox.js:442 | Every match at a position has whitespace within the run. |
| Chatbox.Exec | webview/chatbox/chatbox.js:449 | One `exec` returns the leftmost match at or after `lastIndex`, with the most whitespace there, or null iff none exists. |
| Chatbox.MatchIsDetermined | webview/chatbox/chatbox.js:442 | Start and whitespace length determine a match. |
| Chatbox.ScanBlocks | webview/chatbox/chatbox.js:442-470 | The result meets `ScanFrom`: each block is the leftmost match from where the previous block ended (from the start for the first), with the most whitespace at its position, and the loop stops only when no match is left. The blocks are ordered, and there are none iff no match exists. |
| Chatbox.ScanIsLeftmost | webview/chatbox/chatbox.js:442-470 | Block i is at or before every match at or after its resume point (`lastIndex`), no match at its start has more whitespace, and no match starts after the last resume point. |
| Chatbox.ScanIsDetermined | webview/chatbox/chatbox.js:442-470 | Two block sequences that both meet `ScanFrom` are equal, so the loop's result is fixed by the regex alone. |
| Chatbox.ScannedBlockMatches | webview/chatbox/chatbox.js:449 | Each scanned block is a match at or after the start. |
| Chatbox.ScannedBlocksApart | webview/chatbox/chatbox.js:449 | Consecutive scanned blocks do not overlap. |
| Chatbox.ProcessMessageContent | webview/chatbox/chatbox.js:424-478 | Without the marker, the whole text is displayed. With it, the trimmed text before the marker is displayed, plus one card per block of the segment. The message HTML holds no markup but `<br>` tags and entities. A card has the escaped trimmed name (no `<`, `>` or quote, every `&` an entity) and the highlighted code. The container appears iff some block matched. |
| Chatbox.Card | webview/chatbox/chatbox.js:451-463 | The card of one block: its name is escaped (no `<`, `>` or quote, every `&` an entity) and un-escapes to the trimmed file name. ProcessMessageContent states its code. |
| Chatbox.CardNamesRoundTrip | webview/chatbox/chatbox.js:451-463 | Each card's name is escaped and un-escapes to the trimmed file name. |
| Chatbox.Pills | webview/chatbox/chatbox.js:185-211 | The pills are the images, then the files, in order. |
| Chatbox.Splice | webview/chatbox/chatbox.js:227-229 | `splice(i, 1)` removes exactly element i, and nothing when i is past the end. |
| Chatbox.RemoveAttachment | webview/chatbox/chatbox.js:223-231 | Button i removes image i when i is below the image count, otherwise file i minus that count. The other list is unchanged, and the pill under the button is the one removed. |
| Chatbox.RemoveIsPillRemoval | webview/chatbox/chatbox.js:223-231 | Removing by button index removes that button's pill. |
| Chatbox.RemoveImagePill | webview/chatbox/chatbox.js:226-227 | Removing image i removes pill i. |
| Chatbox.RemoveFilePill | webview/chatbox/chatbox.js:228-229 | Removing a file removes its pill. |
| Chatbox.AddFileContext | webview/chatbox/chatbox.js:627-642 | A name already attached is ignored. Otherwise the file is appended with lines = count of line breaks + 1. |
| Chatbox.AddFileContextKeepsNamesUnique | webview/chatbox/chatbox.js:631-639 | Names stay unique, the name is then present, and adding again changes nothing. |
| Chatbox.Attach | webview/chatbox/chatbox.js:244-250 | The attachment record for one image file: the reader's data URL, named after the file when uploaded and "Pasted Image" otherwise. |
| Chatbox.HandleImageFiles | webview/chatbox/chatbox.js:237-256 | The old images stay. One attachment follows per `image/` file, in order, named after the file on upload and `Pasted Image` otherwise. |
| Chatbox.AddedComeFromImages | webview/chatbox/chatbox.js:239-250 | Every added attachment comes from a picked image file. |
| Chatbox.NonImagesAreIgnored | webview/chatbox/chatbox.js:239 | Files of other types are never attached. |
| Chatbox.Send | webview/chatbox/chatbox.js:385-418 | A request is sent iff the trimmed text is non-empty or something is attached. It carries the trimmed text and both lists, after which the composer is cleared; otherwise nothing changes. |
| Chatbox.SentMessageIsTrimmed | webview/chatbox/chatbox.js:386-389 | The sent text has no surrounding whitespace, and an empty text is sent only with attachments. |
| Text.IndexOf | webview/chatbox/chatbox.js:428 | What is found is an occurrence at or after the start. |
| Text.IndexOfIsFirst | webview/chatbox/chatbox.js:428 | No occurrence is skipped. |
| Text.IndexOfFirst | webview/chatbox/chatbox.js:428 | The first occurrence is the one found. |
| Text.ContainsIff | webview/chatbox/chatbox.js:428 | `includes` holds iff the pattern occurs somewhere. |
| Text.Run | src/chat/image-storage.ts:27 | The run is the longest prefix of characters in the class. |
| Text.RunCovers | src/chat/image-storage.ts:27 | Any in-class stretch lies within the run. |
| Text.RunIsUnique | src/chat/image-storage.ts:27 | An in-class stretch ended by an out-of-class character is the run. |
| Text.Trim | src/chat/chat-utils.ts:26 | `trim()` never lengthens the text, and a non-empty result neither starts nor ends with whitespace. |
| Text.TrimFacts | webview/chatbox/chatbox.js:386-434 | Trim removes exactly the surrounding whitespace. Its result is empty iff the text is all whitespace. |
| Text.Split | src/chat/chat-utils.ts:26 | `split` gives at least one piece, and no piece contains the separator. |
| Text.SplitJoin | src/chat/chat-utils.ts:26 | Joining the pieces gives back the text. |
| Text.SplitLength | webview/chatbox/chatbox.js:638 | There is one piece more than there are separators. |
| Text.AfterLast | src/chat/binary-handler.ts:63 | `split('.').pop()` is the dot-free suffix after the last dot. |
| Text.LastPieceIsSuffix | src/chat/binary-handler.ts:63 | The last split piece is that suffix. |
| Text.AfterLastOfSuffix | src/chat/image-storage.ts:33 | Text after a final dot-free part is that part. |
| Text.ReplaceFirst | src/settings/settings-view.ts:167 | `replace` with a string pattern replaces only the first occurrence. |
| Text.ToLowerAscii | src/chat/binary-handler.ts:63 | Lower-casing acts character by character. |
| Text.NatToString | src/chat/chat-utils.ts:10 | A decimal numeral without leading zeros. |
| Text.NatToStringRoundTrip | src/chat/chat-utils.ts:10 | The numeral reads back as the number. |
| Lists.Filter | webview/settings/settings.js:329 | A filter is never longer than the list it filters. |
| Lists.FilterMembers | webview/settings/settings.js:329 | The kept elements are exactly the passing members. |
| Lists.FilterCounts | src/settings/settings-view.ts:190-230 | A passing element keeps its multiplicity, and a failing one drops to zero. |
| Lists.FilterNone | webview/chatbox/chatbox.js:239 | When nothing passes, nothing is kept. |
| Lists.StrLeIsTotalPreorder | src/settings/settings-view.ts:196 | The string order used by `sort()` is total and transitive. |
| Lists.StrLeTotal | src/settings/settings-view.ts:196 | Any two strings are comparable in the `sort()` order. |
| Lists.StrLeTransitive | src/settings/settings-view.ts:196 | The `sort()` order is transitive. |
| Lists.StrLeAntisymmetric | src/settings/settings-view.ts:196 | Strings that each precede the other are equal, so ties are exact duplicates. |
| Lists.InsertCounts | webview/settings/settings.js:255 | One insertion step adds exactly its element to the list. |
| Lists.InsertSorted | webview/settings/settings.js:255 | Inserting into a sorted list keeps it sorted. |
| Lists.SortedStringsAreUnique | src/settings/settings-view.ts:233-234 | Two sorted lists with the same elements are equal. |
| Lists.SortStrings | src/settings/settings-view.ts:196-230 | `sort()` returns the same multiset in order. |
| Lists.SortBy | webview/settings/settings.js:255 | The sort returns the same multiset, ordered by the comparator. |
| Lists.SortSortedIsIdentity | webview/settings/settings.js:255 | Sorting a sorted list changes nothing. |
| Lists.SortIsStable | webview/settings/settings.js:255 | Elements with equal keys keep their relative order. |

## Left out

- File system, `globalState`, network and model calls are not performed. Their outcomes are parameters: success or failure, the read content, the HTTP response, the reply text.
- `JSON.parse`, pdf-parse and the markdown highlighter are parameters. History records are flat maps from field name to string, so nested or non-string JSON values are not modelled.
- `Date.now()`, `Math.random()` and `crypto.randomUUID()` are values passed in. `ChatCoreService.generateChatID` (one `randomUUID` call) is not modelled.
- The history service behind `addMessage` and `getContextWindow` is not part of this model's source files. ChatCore models it abstractly as an append-only map of stored messages whose window is the last n messages.
- ChatCore.ContextWindow: a non-positive window size gives an empty window. The service's real behaviour for it is not visible.
- The temperature is carried as an opaque real. `parseFloat`, `parseInt`, the slider and the `\|\| 0.5` default are not modelled, and neither are the `populateForm` and `collectSettings` DOM copies.
- ImageStorage.SaveImage: the payload is stored as text. The `Buffer.from(..., 'base64')` decoding of the write is not modelled.
- `getWebviewUri`, `getImagePath`, `init` and the directory creation in `image-storage.ts` are host path glue.
- BinaryHandler.Extension and Text.ToLowerAscii lower-case ASCII letters only. JavaScript's full Unicode `toLowerCase` is not modelled.
- Lists.SortStrings orders strings by Unicode code point. JavaScript's `sort()` compares UTF-16 code units, which differ only for characters outside the Basic Multilingual Plane.
- Chatbox.HandleImageFiles takes the `FileReader` callbacks to finish in list order. Their real completion order is not modelled.
- SettingsWebview.Reselect takes the browser to select the first option when the previous value is gone.
- SettingsWebview.DefaultModels treats every provider other than Gemini as OpenAI. A provider named after an `Object` prototype property (such as `constructor`) would make the script fail instead.
- BinaryHandler.TruncatePdfText counts Unicode code points. JavaScript's `length` and `substring` count UTF-16 code units, so for text with characters outside the Basic Multilingual Plane the source cuts earlier than the model. It can even split a surrogate pair, which a Dafny character cannot represent.
- The `if (!providerSettings)` guards in settings.js (lines 60-62, 104 and 190-192) are not modelled: the panel model always holds a provider map.
- The webview HTML templates, DOM rendering, `addAllCopyButtons`, view switching, `showHistoryView`, the loading indicator and the paste-text escaping in the chat view are not modelled. Neither is the settings panel's message switch or `_getHtmlForWebview`.
- The inline `onclick="removeImage(...)"` handlers name functions the chat view does not define. Only the listeners `addRemoveListeners` attaches are modelled.
- `getNonce`'s result is computed but never injected, since the CSP line is commented out. Only the nonce itself is modelled.
- `src/chat/chat-message-listener.ts` calls `ChatCore` methods that `chat-core.ts` does not define, and `chat-history.ts` imports a type `chat-constants.ts` does not export. This wiring is not modelled.
- Prompt chains are edited in the settings panel but never executed by `processChatRequest`, so chaining is not modelled.
- `GenerateChatId`: the source loops for ever when every draw collides. The model asks for a finite list of draws that contains a fresh id.

=== FILE: base64.dfy ===
/** Base64 as Node's `Buffer.toString('base64')` writes it (RFC 4648,
    section 4: the standard alphabet, `=` padding), and its inverse on the
    strings it writes. */
module Base64 {
  import opened Text

  type Byte = x: int | 0 <= x < 256

  /** The character for a six-bit value: `A-Z`, `a-z`, `0-9`, `+`, `/`. */
  function DigitChar(v: int): (c: char)
    requires 0 <= v < 64
    ensures IsBase64Digit(c)
  {
    if v < 26 then ('A' as int + v) as char
    else if v < 52 then ('a' as int + v - 26) as char
    else if v < 62 then ('0' as int + v - 52) as char
    else if v == 62 then '+'
    else '/'
  }

  predicate IsBase64Digit(c: char) {
    ('A' <= c <= 'Z') || ('a' <= c <= 'z') || IsDigit(c) || c == '+' || c == '/'
  }

  /** The six-bit value of an alphabet character. */
  function DigitValue(c: char): (v: int)
    requires IsBase64Digit(c)
    ensures 0 <= v < 64
  {
    if 'A' <= c <= 'Z' then c as int - 'A' as int
    else if 'a' <= c <= 'z' then c as int - 'a' as int + 26
    else if IsDigit(c) then c as int - '0' as int + 52
    else if c == '+' then 62
    else 63
  }

  lemma {:induction false} DigitRoundTrip(v: int)
    requires 0 <= v < 64
    ensures DigitValue(DigitChar(v)) == v
  {
  }

  /** A character the encoder can write: an alphabet character or `=`. */
  predicate IsBase64Char(c: char) {
    IsBase64Digit(c) || c == '='
  }

  /** The encoding of at most three bytes: four characters, `=`-padded. */
  function EncodeGroup(b: seq<Byte>): (r: string)
    requires 1 <= |b| <= 3
    ensures |r| == 4
    ensures IsBase64Digit(r[0]) && IsBase64Digit(r[1])
    ensures |b| == 1 <==> r[2] == '='
    ensures |b| < 3 <==> r[3] == '='
    ensures r[2] != '=' ==> IsBase64Digit(r[2])
    ensures r[3] != '=' ==> IsBase64Digit(r[3])
  {
    if |b| == 1 then
      [DigitChar(b[0] / 4), DigitChar((b[0] % 4) * 16), '=', '=']
    else if |b| == 2 then
      [DigitChar(b[0] / 4), DigitChar((b[0] % 4) * 16 + b[1] / 16), DigitChar((b[1] % 16) * 4), '=']
    else
      [DigitChar(b[0] / 4), DigitChar((b[0] % 4) * 16 + b[1] / 16),
       DigitChar((b[1] % 16) * 4 + b[2] / 64), DigitChar(b[2] % 64)]
  }

  /** `Buffer.from(bytes).toString('base64')`. */
  function Encode(b: seq<Byte>): (r: string)
    ensures |r| == 4 * ((|b| + 2) / 3)
    ensures forall i :: 0 <= i < |r| ==> IsBase64Char(r[i])
    ensures r == [] <==> b == []
    decreases |b|
  {
    if |b| == 0 then []
    else if |b| <= 3 then EncodeGroup(b)
    else
      var head := EncodeGroup(b[..3]);
      var tail := Encode(b[3..]);
      assert (|b| + 2) / 3 == 1 + (|b[3..]| + 2) / 3;
      assert forall i :: 0 <= i < |tail| ==> (head + tail)[4 + i] == tail[i];
      head + tail
  }

  /** The bytes of one four-character group. */
  function DecodeGroup(g: string): (r: seq<Byte>)
    requires |g| == 4 && IsBase64Digit(g[0]) && IsBase64Digit(g[1])
    requires g[2] != '=' ==> IsBase64Digit(g[2])
    requires g[3] != '=' ==> IsBase64Digit(g[3])
    requires g[2] == '=' ==> g[3] == '='
  {
    var v0 := DigitValue(g[0]);
    var v1 := DigitValue(g[1]);
    var b0 := v0 * 4 + v1 / 16;
    if g[2] == '=' then [b0]
    else
      var v2 := DigitValue(g[2]);
      var b1 := (v1 % 16) * 16 + v2 / 4;
      if g[3] == '=' then [b0, b1]
      else [b0, b1, (v2 % 4) * 64 + DigitValue(g[3])]
  }

  /** A string the encoder could have written: whole groups, with padding
      only at the end of the last one. */
  predicate IsCanonical(s: string)
    decreases |s|
  {
    if s == [] then true
    else
      && |s| >= 4 && IsBase64Digit(s[0]) && IsBase64Digit(s[1])
      && (s[2] != '=' ==> IsBase64Digit(s[2]))
      && (s[3] != '=' ==> IsBase64Digit(s[3]))
      && (s[2] == '=' ==> s[3] == '=')
      && (|s| > 4 ==> s[3] != '=' && IsCanonical(s[4..]))
  }

  /** The inverse of `Encode` on the strings it writes. */
  function Decode(s: string): seq<Byte>
    requires IsCanonical(s)
    decreases |s|
  {
    if s == [] then [] else DecodeGroup(s[..4]) + (if |s| > 4 then Decode(s[4..]) else [])
  }

  lemma {:induction false} GroupRoundTrip(b: seq<Byte>)
    requires 1 <= |b| <= 3
    ensures DecodeGroup(EncodeGroup(b)) == b
  {
    if |b| == 1 {
      OneByteRoundTrip(b[0]);
      assert b == [b[0]];
    } else if |b| == 2 {
      TwoBytesRoundTrip(b[0], b[1]);
      assert b == [b[0], b[1]];
    } else {
      ThreeBytesRoundTrip(b[0], b[1], b[2]);
      assert b == [b[0], b[1], b[2]];
    }
  }

  lemma {:induction false} OneByteRoundTrip(x: Byte)
    ensures DecodeGroup(EncodeGroup([x])) == [x]
  {
    DigitRoundTrip(x / 4);
    DigitRoundTrip((x % 4) * 16);
  }

  lemma {:induction false} TwoBytesRoundTrip(x: Byte, y: Byte)
    ensures DecodeGroup(EncodeGroup([x, y])) == [x, y]
  {
    var v1 := (x % 4) * 16 + y / 16;
    DigitRoundTrip(x / 4);
    DigitRoundTrip(v1);
    DigitRoundTrip((y % 16) * 4);
    NibbleSplit(x % 4, y / 16);
    assert (x / 4) * 4 + v1 / 16 == x;
    assert (v1 % 16) * 16 + ((y % 16) * 4) / 4 == y;
  }

  lemma {:induction false} ThreeBytesRoundTrip(x: Byte, y: Byte, z: Byte)
    ensures DecodeGroup(EncodeGroup([x, y, z])) == [x, y, z]
  {
    var v1 := (x % 4) * 16 + y / 16;
    var v2 := (y % 16) * 4 + z / 64;
    var g := EncodeGroup([x, y, z]);
    assert g == [DigitChar(x / 4), DigitChar(v1), DigitChar(v2), DigitChar(z % 64)];
    DigitRoundTrip(x / 4);
    DigitRoundTrip(v1);
    DigitRoundTrip(v2);
    DigitRoundTrip(z % 64);
    DecodeFullGroup4(g);
    NibbleSplit(x % 4, y / 16);
    QuarterSplit(y % 16, z / 64);
    assert (x / 4) * 4 + v1 / 16 == x;
    assert (v1 % 16) * 16 + v2 / 4 == y;
    assert (v2 % 4) * 64 + z % 64 == z;
  }

  /** The three bytes of an unpadded group. */
  lemma {:induction false} DecodeFullGroup4(g: string)
    requires |g| == 4 && forall i :: 0 <= i < 4 ==> IsBase64Digit(g[i])
    ensures g[2] != '=' && g[3] != '='
    ensures DecodeGroup(g) == [
      DigitValue(g[0]) * 4 + DigitValue(g[1]) / 16,
      (DigitValue(g[1]) % 16) * 16 + DigitValue(g[2]) / 4,
      (DigitValue(g[2]) % 4) * 64 + DigitValue(g[3])]
  {
  }

  /** Two four-bit halves join into a byte and divide back into them. */
  lemma {:induction false} NibbleSplit(hi: nat, lo: nat)
    requires lo < 16
    ensures (hi * 16 + lo) / 16 == hi
    ensures (hi * 16 + lo) % 16 == lo
  {
  }

  /** A two-bit head in front of four bits divides back likewise. */
  lemma {:induction false} QuarterSplit(hi: nat, lo: nat)
    requires lo < 4
    ensures (hi * 4 + lo) / 4 == hi
    ensures (hi * 4 + lo) % 4 == lo
  {
  }

  /** A full group in front of a canonical non-empty string. */
  lemma {:induction false} DecodeFullGroup(g: string, rest: string)
    requires |g| == 4 && forall i :: 0 <= i < 4 ==> IsBase64Digit(g[i])
    requires IsCanonical(rest) && rest != []
    ensures IsCanonical(g + rest)
    ensures Decode(g + rest) == DecodeGroup(g) + Decode(rest)
  {
    var s := g + rest;
    assert s[..4] == g;
    assert s[4..] == rest;
  }

  /** Everything the encoder writes is canonical and decodes back to the
      bytes it came from. */
  lemma {:induction false} DecodeEncode(b: seq<Byte>)
    ensures IsCanonical(Encode(b))
    ensures Decode(Encode(b)) == b
    decreases |b|
  {
    if 0 < |b| <= 3 {
      GroupRoundTrip(b);
      var s := Encode(b);
      assert s[..4] == s;
    } else if |b| > 3 {
      DecodeEncode(b[3..]);
      GroupRoundTrip(b[..3]);
      var g := EncodeGroup(b[..3]);
      var rest := Encode(b[3..]);
      assert Encode(b) == g + rest;
      DecodeFullGroup(g, rest);
      assert b == b[..3] + b[3..];
    }
  }
}

=== FILE: binary_handler.dfy ===
/** src/chat/binary-handler.ts: attaching a workspace file that is not plain
    text. Images become base64 data URLs; PDFs have their text extracted.
    A file read is its outcome (`None` when `readFile` throws); the PDF text
    extractor is a function parameter (`None` when it throws). */
module BinaryHandler {
  import opened Text
  import opened Base64
  import ImageStorage

  /** `path.split('.').pop()?.toLowerCase()`: the text after the last dot,
      lower-cased; the whole path when it has no dot. */
  function Extension(path: string): (r: string)
    ensures |r| <= |path|
    ensures '.' !in r
    ensures '.' !in path ==> r == ToLowerAscii(path)
  {
    var last := AfterLast(path, '.');
    assert '.' !in path ==> last == path;
    ToLowerAscii(last)
  }

  /** `getMimeType(filePath)`. */
  function MimeType(path: string): (r: Option<string>)
    ensures r.Some? <==> Extension(path) in ["png", "jpg", "jpeg", "gif", "webp"]
    ensures r.Some? ==> r.value == "image/" + (if Extension(path) == "jpg" then "jpeg" else Extension(path))
  {
    match Extension(path)
    case "png" => assert "image/png" == "image/" + "png"; Some("image/png")
    case "jpg" => assert "image/jpeg" == "image/" + "jpeg"; Some("image/jpeg")
    case "jpeg" => assert "image/jpeg" == "image/" + "jpeg"; Some("image/jpeg")
    case "gif" => assert "image/gif" == "image/" + "gif"; Some("image/gif")
    case "webp" => assert "image/webp" == "image/" + "webp"; Some("image/webp")
    case _ => None
  }

  /** `getImageDataUrl(uri)`: the file is read before its type is looked at,
      and a failed read or an unknown type both give `null`. */
  function ImageDataUrl(path: string, contents: Option<seq<Byte>>): (r: Option<string>)
    ensures r.Some? <==> contents.Some? && MimeType(path).Some?
    ensures r.Some? ==>
              var header := "data:" + MimeType(path).value + ";base64,";
              && StartsWith(r.value, header)
              && IsCanonical(r.value[|header|..])
              && Decode(r.value[|header|..]) == contents.value
  {
    match contents
    case None => None
    case Some(bytes) =>
      match MimeType(path)
      case None => None
      case Some(mime) =>
        var header := "data:" + mime + ";base64,";
        var url := header + Encode(bytes);
        assert url[|header|..] == Encode(bytes);
        DecodeEncode(bytes);
        Some(url)
  }

  /** The image format a MIME type names: `jpg` files are `image/jpeg`. */
  function Format(path: string): string {
    if Extension(path) == "jpg" then "jpeg" else Extension(path)
  }

  /** Every known image type is named by a run of lower-case letters. */
  lemma {:induction false} FormatIsExtension(path: string)
    requires MimeType(path).Some?
    ensures ImageStorage.IsExtension(Format(path))
  {
    var ext := Format(path);
    assert ext == "png" || ext == "jpeg" || ext == "gif" || ext == "webp";
  }

  /** The data URL of an image file, in the terms `saveImage` parses. */
  lemma {:induction false} ImageDataUrlShape(path: string, bytes: seq<Byte>)
    requires MimeType(path).Some?
    ensures ImageDataUrl(path, Some(bytes)).value
            == ImageStorage.DataUrlPrefix + Format(path) + ImageStorage.Base64Marker + Encode(bytes)
  {
    var f := Format(path);
    var e := Encode(bytes);
    assert MimeType(path).value == "image/" + f;
    ImageHeaderShape(f, e);
  }

  lemma {:induction false} ImageHeaderShape(f: string, e: string)
    ensures "data:" + ("image/" + f) + ";base64," + e
            == ImageStorage.DataUrlPrefix + f + ImageStorage.Base64Marker + e
  {
    assert "data:" + ("image/" + f) == ("data:" + "image/") + f;
  }

  /** A data URL of a non-empty image file is one `saveImage` recognises:
      its header names the image format and its payload decodes to the
      file's bytes. */
  lemma {:induction false} ImageDataUrlIsSaved(path: string, bytes: seq<Byte>)
    requires MimeType(path).Some? && bytes != []
    ensures var h := ImageStorage.ParseDataUrl(ImageDataUrl(path, Some(bytes)).value);
            && h.ext == Format(path)
            && IsCanonical(h.rawData)
            && Decode(h.rawData) == bytes
  {
    var url := ImageDataUrl(path, Some(bytes)).value;
    var payload := Encode(bytes);
    ImageDataUrlShape(path, bytes);
    FormatIsExtension(path);
    EncodedIsPayload(bytes);
    assert ImageStorage.IsDataUrl(url, Format(path), payload);
    assert ImageStorage.ParseDataUrl(url) == ImageStorage.Header(Format(path), payload);
    DecodeEncode(bytes);
  }

  /** Base64 text of a non-empty file is a non-empty single line. */
  lemma {:induction false} EncodedIsPayload(bytes: seq<Byte>)
    requires bytes != []
    ensures ImageStorage.IsPayload(Encode(bytes))
  {
    var e := Encode(bytes);
    forall i | 0 <= i < |e| ensures !IsLineTerminator(e[i]) {
      assert IsBase64Char(e[i]);
    }
  }

  /** An empty image file gives a data URL with nothing after the comma,
      which `saveImage` does not recognise: it falls back to `png` and
      stores the whole URL as the payload. */
  lemma {:induction false} EmptyImageIsNotRecognised(path: string)
    requires MimeType(path).Some?
    ensures var url := ImageDataUrl(path, Some([])).value;
            ImageStorage.ParseDataUrl(url) == ImageStorage.Header(ImageStorage.FallbackExt, url)
  {
    ImageDataUrlShape(path, []);
    FormatIsExtension(path);
    assert Encode([]) == [];
    assert ImageDataUrl(path, Some([])).value
           == ImageStorage.DataUrlPrefix + Format(path) + ImageStorage.Base64Marker;
    ImageStorage.EmptyPayloadNotMatched(Format(path));
  }

  const MaxPdfText: nat := 20000
  const TruncationMarker: string := "\n...[Content Truncated]"

  /** The length cap on extracted PDF text: text longer than the cap keeps
      its first `MaxPdfText` characters and gains the marker. Characters are
      code points here; JavaScript's `length` counts UTF-16 code units. */
  function TruncatePdfText(text: string): (r: string)
    ensures |r| <= MaxPdfText + |TruncationMarker|
    ensures |text| <= MaxPdfText ==> r == text
    ensures |text| > MaxPdfText ==> |r| == MaxPdfText + |TruncationMarker|
    ensures |text| > MaxPdfText ==> StartsWith(text, r[..MaxPdfText]) && EndsWith(r, TruncationMarker)
  {
    if |text| > MaxPdfText then text[..MaxPdfText] + TruncationMarker else text
  }

  /** Truncating twice is truncating once. */
  lemma {:induction false} TruncateIdempotent(text: string)
    ensures TruncatePdfText(TruncatePdfText(text)) == TruncatePdfText(text)
  {
    var r := TruncatePdfText(text);
    if |text| > MaxPdfText {
      assert r[..MaxPdfText] == text[..MaxPdfText];
    }
  }

  const ExtractFailure: string := "Failed to extract text from binary file."

  /** The settled `processBinaryFile` promise: the extracted text (`null`
      for a type it cannot read), or a rejection with the fixed message. */
  datatype Extraction = Extracted(text: Option<string>) | ExtractError(message: string)

  /** `processBinaryFile(uri)`: the file is read first, so a failed read is
      an error even for unsupported types; only PDFs are extracted. */
  function ProcessBinaryFile(path: string, contents: Option<seq<Byte>>, pdfText: seq<Byte> -> Option<string>)
    : (r: Extraction)
    ensures contents.None? ==> r == ExtractError(ExtractFailure)
    ensures contents.Some? && Extension(path) != "pdf" ==> r == Extracted(None)
    ensures contents.Some? && Extension(path) == "pdf" ==>
              match pdfText(contents.value)
              case None => r == ExtractError(ExtractFailure)
              case Some(t) => r.Extracted? && r.text == Some(TruncatePdfText(t))
    ensures r.ExtractError? ==> r.message == ExtractFailure
    ensures r.Extracted? && r.text.Some? ==> |r.text.value| <= MaxPdfText + |TruncationMarker|
  {
    match contents
    case None => ExtractError(ExtractFailure)
    case Some(bytes) =>
      if Extension(path) != "pdf" then Extracted(None)
      else
        match pdfText(bytes)
        case None => ExtractError(ExtractFailure)
        case Some(t) => Extracted(Some(TruncatePdfText(t)))
  }
}

=== FILE: chat_constants.dfy ===
/** Message shapes shared by the chat modules (src/chat/chat-constants.ts). */
module ChatConstants {

  /** The two senders a stored message can have. */
  datatype Role = User | Bot

  /** The string each role is written as in history records. */
  function RoleName(r: Role): string {
    match r
    case User => "user"
    case Bot => "bot"
  }

  /** Name of the newline-delimited history file. */
  const HistoryFilename: string := "chat_history.json"

  /** A flat JSON object: field name to (string-coerced) value. History lines
      on disk and the entries held in memory are such objects. */
  type Record = map<string, string>

  /** The object key that groups history lines into conversations. */
  const ChatIdField: string := "chat_id"

  /** A message as the history service stores it. */
  datatype StoredMessage = StoredMessage(
    messageId: string,
    role: Role,
    message: string,
    timestamp: string,
    images: seq<string>,
    imageDescriptions: seq<string>
  )
}

=== FILE: chat_core.dfy ===
/** `ChatCoreService.processChatRequest` (src/chat/chat-core.ts): save the
    user message, read the context window, send the system prompt plus the
    window to the model, save and return the reply, and fall back to a fixed
    apology on any failure.

    The history service it calls (`addMessage`, `getContextWindow`) is not
    part of this model's source files; it is modelled as a map from chat id
    to stored messages, whose `addMessage` either stamps the message with an
    id and a timestamp and appends it, or fails. The model call is a
    function from the payload to a reply, or to `None` when it throws. */
module ChatCore {
  import opened Text
  import opened ChatConstants

  const DefaultSystemPrompt: string := "You are an expert code assistant. Answer coding relevant topics only."
  const DefaultMaxContext: int := 10
  const Apology: string := "Sorry, I could not process your request at this time."

  /** The configuration values the request reads; `None` when unset. */
  datatype Config = Config(maxContextMessages: Option<int>, systemPrompt: Option<string>)

  /** `config.get('maxContextMessages') || 10`: unset and 0 fall back to 10. */
  function MaxContext(c: Config): (n: int)
    ensures c.maxContextMessages.None? || c.maxContextMessages == Some(0) ==> n == DefaultMaxContext
    ensures c.maxContextMessages.Some? && c.maxContextMessages.value != 0 ==> n == c.maxContextMessages.value
  {
    match c.maxContextMessages
    case Some(n) => if n != 0 then n else DefaultMaxContext
    case None => DefaultMaxContext
  }

  /** `config.get('systemPrompt') || default`: unset and "" fall back. */
  function SystemPrompt(c: Config): (p: string)
    ensures p != []
    ensures c.systemPrompt.Some? && c.systemPrompt.value != [] ==> p == c.systemPrompt.value
  {
    match c.systemPrompt
    case Some(p) => if p != [] then p else DefaultSystemPrompt
    case None => DefaultSystemPrompt
  }

  /** The history service's state: chat id to that chat's messages. */
  type Conversations = map<string, seq<StoredMessage>>

  /** What one `addMessage` call does: store the message under the given id
      and timestamp, or throw. */
  datatype AddOutcome = Added(messageId: string, timestamp: string) | AddFailed

  /** `addMessage(chatId, role, text)`; `None` when the call throws. */
  function AddMessage(h: Conversations, chatId: string, role: Role, text: string, o: AddOutcome)
    : (r: Option<Conversations>)
    ensures o.AddFailed? <==> r.None?
    ensures r.Some? ==> AppendedOne(h, r.value, chatId, role, text)
  {
    match o
    case AddFailed => None
    case Added(id, ts) =>
      var prior := if chatId in h then h[chatId] else [];
      Some(h[chatId := prior + [StoredMessage(id, role, text, ts, [], [])]])
  }

  /** `after` is `before` with exactly one message appended to `chatId`'s
      list, sent by `role` with text `text`; every other chat is untouched. */
  predicate AppendedOne(before: Conversations, after: Conversations, chatId: string, role: Role, text: string) {
    var prior := if chatId in before then before[chatId] else [];
    && after.Keys == before.Keys + {chatId}
    && |after[chatId]| == |prior| + 1
    && after[chatId][..|prior|] == prior
    && after[chatId][|prior|].role == role
    && after[chatId][|prior|].message == text
    && (forall g :: g in before && g != chatId ==> after[g] == before[g])
  }

  /** One entry of the context window, as sent to the model. */
  datatype ContextEntry = ContextEntry(role: Role, content: string)

  /** `getContextWindow(chatId, n)`: the last `n` messages of the chat,
      oldest first; an unknown chat gives an empty window. */
  function ContextWindow(h: Conversations, chatId: string, n: int): (w: seq<ContextEntry>)
    ensures chatId !in h || n <= 0 ==> w == []
    ensures chatId in h && n > 0 ==>
              && |w| == (if n < |h[chatId]| then n else |h[chatId]|)
              && forall k :: 0 <= k < |w| ==>
                   var m := h[chatId][|h[chatId]| - |w| + k];
                   w[k] == ContextEntry(m.role, m.message)
  {
    if chatId !in h || n <= 0 then []
    else
      var msgs := h[chatId];
      var count := if n < |msgs| then n else |msgs|;
      seq(count, k requires 0 <= k < count => ContextEntry(msgs[|msgs| - count + k].role, msgs[|msgs| - count + k].message))
  }

  /** Adding a message and then reading a window of `n` gives the window of
      `n - 1` read before, followed by the new message: the window slides
      by one. */
  lemma {:induction false} WindowAfterAdd(h: Conversations, chatId: string, role: Role, text: string,
                                          o: AddOutcome, n: int)
    requires o.Added? && n > 0
    ensures ContextWindow(AddMessage(h, chatId, role, text, o).value, chatId, n)
            == ContextWindow(h, chatId, n - 1) + [ContextEntry(role, text)]
  {
    var h1 := AddMessage(h, chatId, role, text, o).value;
    var w1 := ContextWindow(h1, chatId, n);
    var w0 := ContextWindow(h, chatId, n - 1);
    var prior := if chatId in h then h[chatId] else [];
    assert |w1| == |w0| + 1;
    forall k | 0 <= k < |w0| ensures w1[k] == w0[k] {
      assert h1[chatId][|h1[chatId]| - |w1| + k] == prior[|prior| - |w0| + k];
    }
  }

  /** One element of the payload sent to the model. */
  datatype ApiMessage = SystemMessage(content: string) | FromHistory(entry: ContextEntry)

  /** The chat request received from the view. */
  datatype Request = Request(message: string, chatId: string, timestamp: string)

  /** Outcomes of the three `addMessage` calls the request can make. */
  datatype SaveOutcomes = SaveOutcomes(user: AddOutcome, bot: AddOutcome, apology: AddOutcome)

  /** The settled promise: the reply text, or a rejection when even the
      apology could not be saved (that call sits outside the `try`). */
  datatype Reply = Replied(text: string) | Rejected

  method ProcessChatRequest(h: Conversations, req: Request, config: Config,
                            model: seq<ApiMessage> -> Option<string>, saves: SaveOutcomes)
    returns (reply: Reply, after: Conversations, payload: Option<seq<ApiMessage>>)
    // the model is called only once the user message is saved
    ensures payload.Some? <==> saves.user.Added?
    // the payload is the system prompt, then the window read after the user message was saved
    ensures payload.Some? ==>
              var h1 := AddMessage(h, req.chatId, User, req.message, saves.user).value;
              && |payload.value| >= 1
              && payload.value[0] == SystemMessage(SystemPrompt(config))
              && payload.value[1..] == seq(|ContextWindow(h1, req.chatId, MaxContext(config))|,
                   k requires 0 <= k < |ContextWindow(h1, req.chatId, MaxContext(config))| =>
                     FromHistory(ContextWindow(h1, req.chatId, MaxContext(config))[k]))
    // so the window ends with the message just saved
    ensures payload.Some? && MaxContext(config) > 0 ==>
              payload.value[|payload.value| - 1] == FromHistory(ContextEntry(User, req.message))
    // success: the model's reply is saved as one bot message and returned
    ensures saves.user.Added? && model(payload.value).Some? && saves.bot.Added? ==>
              var h1 := AddMessage(h, req.chatId, User, req.message, saves.user).value;
              && reply == Replied(model(payload.value).value)
              && AppendedOne(h1, after, req.chatId, Bot, reply.text)
    // failure inside the try: the apology is saved and returned
    ensures !(saves.user.Added? && model(payload.value).Some? && saves.bot.Added?) && saves.apology.Added? ==>
              var atFailure := if saves.user.Added? then AddMessage(h, req.chatId, User, req.message, saves.user).value else h;
              && reply == Replied(Apology)
              && AppendedOne(atFailure, after, req.chatId, Bot, Apology)
    ensures reply.Rejected? <==>
              !(saves.user.Added? && model(payload.value).Some? && saves.bot.Added?) && saves.apology.AddFailed?
    // whatever is returned is the last message of the chat, sent by the bot
    ensures reply.Replied? ==>
              && req.chatId in after
              && |after[req.chatId]| > 0
              && after[req.chatId][|after[req.chatId]| - 1].role == Bot
              && after[req.chatId][|after[req.chatId]| - 1].message == reply.text
    // other chats are never touched
    ensures forall g :: g in h && g != req.chatId ==> g in after && after[g] == h[g]
  {
    var current := h;
    var failed := false;
    var text := "";
    payload := None;
    var saved := AddMessage(current, req.chatId, User, req.message, saves.user);
    if saved.None? {
      failed := true;
    } else {
      current := saved.value;
      var window := ContextWindow(current, req.chatId, MaxContext(config));
      var p := [SystemMessage(SystemPrompt(config))]
               + seq(|window|, k requires 0 <= k < |window| => FromHistory(window[k]));
      payload := Some(p);
      var response := model(p);
      if response.None? {
        failed := true;
      } else {
        text := response.value;
        var botSaved := AddMessage(current, req.chatId, Bot, text, saves.bot);
        if botSaved.None? {
          failed := true;
        } else {
          current := botSaved.value;
        }
      }
    }
    if failed {
      var apologySaved := AddMessage(current, req.chatId, Bot, Apology, saves.apology);
      if apologySaved.None? {
        return Rejected, current, payload;
      }
      current := apologySaved.value;
      text := Apology;
    }
    return Replied(text), current, payload;
  }
}

=== FILE: chat_history.dfy ===
/** The in-memory side of `ChatHistory` (src/chat/chat-history.ts): the map
    from chat id to that conversation's history entries, reloaded from the
    newline-delimited history file and appended to on every save. File
    system calls are replaced by their outcomes. */
module ChatHistory {
  import opened Text
  import opened ChatConstants
  import opened ChatUtils

  /** The two static fields of the class. `history` is `None` until the
      first read, as the static field starts out undefined. */
  datatype Store = Store(filePath: Option<string>, history: Option<Groups>)

  /** The store before `readChatHistory` has ever run. */
  const Initial: Store := Store(None, None)

  /** Outcomes of the file system calls `readChatHistory` makes:
      creating the storage directory, reading the file (`None` when the read
      throws), and writing the empty file that replaces a missing one. */
  datatype ReadIo = ReadIo(dirCreated: bool, fileContent: Option<string>, emptyFileWritten: bool)

  /** Every group holds at least one entry. */
  predicate NoEmptyGroups(m: Groups) {
    forall g :: g in m ==> |m[g]| > 0
  }

  /** No chat id is a name the map object inherits. */
  predicate NoInheritedKeys(m: Groups) {
    forall g :: g in m ==> g !in InheritedNames
  }

  /** Every entry of group `g` carries `chat_id` value `g`. */
  predicate KeyedByChatId(m: Groups) {
    forall g :: g in m ==> forall e :: e in m[g] ==> GroupKey(e, ChatIdField) == g
  }

  /** `readChatHistory`: resets the map, records the history file path, and
      loads the file when it has content. Any failure leaves the map empty;
      the map is returned in every case, as the `finally` block does. */
  function ReadChatHistory(store: Store, filePath: string, io: ReadIo, parse: string -> Option<Record>)
    : (r: (Store, Groups))
    ensures r.0.filePath == Some(filePath)
    ensures r.0.history == Some(r.1)
    ensures !io.dirCreated ==> r.1 == map[]
    ensures io.fileContent.None? || io.fileContent == Some("") ==> r.1 == map[]
    ensures io.dirCreated && io.fileContent.Some? && io.fileContent.value != [] ==>
              match NdJsonParse(io.fileContent.value, ChatIdField, parse)
              case Some(m) => r.1 == m
              case None => r.1 == map[]
    ensures NoEmptyGroups(r.1) && KeyedByChatId(r.1) && NoInheritedKeys(r.1)
  {
    var reset := Store(Some(filePath), Some(map[]));
    if !io.dirCreated then (reset, map[])
    else
      var content := if io.fileContent.Some? then io.fileContent.value else "";
      if io.fileContent.None? && !io.emptyFileWritten then (reset, map[])
      else if content == [] then (reset, map[])
      else match NdJsonParse(content, ChatIdField, parse)
        case None => (reset, map[])
        case Some(m) =>
          NdJsonParseGroups(content, ChatIdField, parse);
          (Store(Some(filePath), Some(m)), m)
  }

  /** The entry `saveMessageToHistory` keeps in memory: the message without
      its `chat_id` field (the full message goes to the file). */
  function Rest(data: Record): (r: Record)
    ensures ChatIdField !in r
    ensures r.Keys == data.Keys - {ChatIdField}
    ensures forall k :: k in r ==> r[k] == data[k]
  {
    data - {ChatIdField}
  }

  /** `saveMessageToHistory(data)`: the file append comes before the push,
      so an unset path or a failed write leaves the map as it was; with no
      map loaded yet, or a `chat_id` that names an inherited member, the
      push throws after the write. Errors are caught and logged, never
      rethrown. */
  function SaveMessageToHistory(store: Store, data: Record, writeOk: bool): (r: Store)
    ensures r.filePath == store.filePath
    ensures store.filePath.None? || !writeOk || store.history.None? ==> r == store
    ensures GroupKey(data, ChatIdField) in InheritedNames ==> r == store
    ensures store.history.Some? ==> r.history.Some?
    ensures store.filePath.Some? && writeOk && store.history.Some? && GroupKey(data, ChatIdField) !in InheritedNames ==>
              var id := GroupKey(data, ChatIdField);
              var before := store.history.value;
              var after := r.history.value;
              && after.Keys == before.Keys + {id}
              && (id in before ==> |after[id]| == |before[id]| + 1 && after[id][..|before[id]|] == before[id])
              && (id !in before ==> |after[id]| == 1)
              && after[id][|after[id]| - 1] == Rest(data)
              && ChatIdField !in after[id][|after[id]| - 1]
              && (forall g :: g in before && g != id ==> after[g] == before[g])
  {
    var id := GroupKey(data, ChatIdField);
    if store.filePath.None? || !writeOk || store.history.None? || id in InheritedNames then store
    else
      var m := store.history.value;
      var list := if id in m then m[id] else [];
      Store(store.filePath, Some(m[id := list + [Rest(data)]]))
  }

  /** Saving never empties or removes a group, so the loaded map keeps
      having no empty groups however many messages are saved. */
  lemma {:induction false} SavesKeepGroupsNonEmpty(store: Store, saves: seq<(Record, bool)>)
    requires store.history.Some? ==> NoEmptyGroups(store.history.value)
    decreases |saves|
    ensures var r := SaveAll(store, saves);
            r.history.Some? ==> NoEmptyGroups(r.history.value)
  {
    if saves != [] {
      var next := SaveMessageToHistory(store, saves[0].0, saves[0].1);
      SavesKeepGroupsNonEmpty(next, saves[1..]);
    }
  }

  /** Saving never adds an inherited name as a chat id, so a map loaded by
      `readChatHistory` keeps having none, whatever is saved. */
  lemma {:induction false} SavesKeepKeysOwn(store: Store, saves: seq<(Record, bool)>)
    requires store.history.Some? ==> NoInheritedKeys(store.history.value)
    decreases |saves|
    ensures var r := SaveAll(store, saves);
            r.history.Some? ==> NoInheritedKeys(r.history.value)
  {
    if saves != [] {
      var next := SaveMessageToHistory(store, saves[0].0, saves[0].1);
      SavesKeepKeysOwn(next, saves[1..]);
    }
  }

  /** Several saves in a row, each with its write outcome. */
  function SaveAll(store: Store, saves: seq<(Record, bool)>): Store
    decreases |saves|
  {
    if saves == [] then store
    else SaveAll(SaveMessageToHistory(store, saves[0].0, saves[0].1), saves[1..])
  }

  /** The same messages, each saved with a successful write. */
  function AllWritten(msgs: seq<Record>): seq<(Record, bool)> {
    if msgs == [] then [] else [(msgs[0], true)] + AllWritten(msgs[1..])
  }

  /** The in-memory entries for these messages, in order. */
  function Rests(msgs: seq<Record>): seq<Record> {
    if msgs == [] then [] else [Rest(msgs[0])] + Rests(msgs[1..])
  }

  /** The loaded list of one conversation; empty when it has none. */
  function Chat(store: Store, id: string): seq<Record> {
    if store.history.Some? && id in store.history.value then store.history.value[id] else []
  }

  /** Saves for one chat id append to its list in call order: after a run of
      successful saves the list is the old list followed by the saved
      messages, minus their `chat_id` fields. Saves under an inherited name
      all throw and change nothing. */
  lemma {:induction false} SavesAppendInOrder(store: Store, id: string, msgs: seq<Record>)
    requires store.filePath.Some? && store.history.Some?
    requires forall k :: 0 <= k < |msgs| ==> GroupKey(msgs[k], ChatIdField) == id
    decreases |msgs|
    ensures var r := SaveAll(store, AllWritten(msgs));
            && r.history.Some?
            && (id in InheritedNames ==> r == store)
            && (id !in InheritedNames ==>
                  && (msgs != [] ==> id in r.history.value)
                  && Chat(r, id) == Chat(store, id) + Rests(msgs))
  {
    if msgs == [] {
      assert Chat(store, id) + Rests(msgs) == Chat(store, id);
    } else {
      var next := SaveMessageToHistory(store, msgs[0], true);
      SaveAppends(store, msgs[0]);
      var tail := msgs[1..];
      var saves := AllWritten(msgs);
      assert saves[0] == (msgs[0], true) && saves[1..] == AllWritten(tail);
      assert SaveAll(store, saves) == SaveAll(next, AllWritten(tail));
      SavesAppendInOrder(next, id, tail);
      assert Rests(msgs) == [Rest(msgs[0])] + Rests(tail);
      assert Chat(store, id) + [Rest(msgs[0])] + Rests(tail) == Chat(store, id) + Rests(msgs);
    }
  }

  /** One successful save appends to its chat's list, unless the chat id
      is an inherited name. */
  lemma {:induction false} SaveAppends(store: Store, data: Record)
    requires store.filePath.Some? && store.history.Some?
    ensures var id := GroupKey(data, ChatIdField);
            var r := SaveMessageToHistory(store, data, true);
            && r.filePath.Some? && r.history.Some?
            && (id in InheritedNames ==> r == store)
            && (id !in InheritedNames ==> id in r.history.value && Chat(r, id) == Chat(store, id) + [Rest(data)])
  {
  }

  /** Saves for one chat id leave every other conversation as it was. */
  lemma {:induction false} SavesKeepOtherChats(store: Store, id: string, msgs: seq<Record>)
    requires store.filePath.Some? && store.history.Some?
    requires forall k :: 0 <= k < |msgs| ==> GroupKey(msgs[k], ChatIdField) == id
    decreases |msgs|
    ensures var r := SaveAll(store, AllWritten(msgs));
            && r.history.Some?
            && (forall g :: g in store.history.value && g != id ==>
                  && g in r.history.value
                  && r.history.value[g] == store.history.value[g])
  {
    if msgs != [] {
      var next := SaveMessageToHistory(store, msgs[0], true);
      var saves := AllWritten(msgs);
      assert saves[0] == (msgs[0], true) && saves[1..] == AllWritten(msgs[1..]);
      SavesKeepOtherChats(next, id, msgs[1..]);
    }
  }
}

=== FILE: chat_utils.dfy ===
/** `ndJSONParse` and `generateChatID` (src/chat/chat-utils.ts). */
module ChatUtils {
  import opened Text
  import opened ChatConstants
  import Lists

  /** Conversations grouped by a key: key value to the entries carrying it. */
  type Groups = map<string, seq<Record>>

  /** `entry[key]` used as an object key: a missing field reads as
      `undefined`, which JavaScript turns into the key "undefined". */
  function GroupKey(entry: Record, key: string): string {
    if key in entry then entry[key] else "undefined"
  }

  /** The names every plain object inherits from `Object.prototype`. Reading
      one of them from an object literal finds the inherited member, which
      is truthy and has no `push`, so pushing onto it throws a TypeError. */
  const InheritedNames: set<string> := {
    "constructor", "__proto__", "__defineGetter__", "__defineSetter__", "__lookupGetter__",
    "__lookupSetter__", "hasOwnProperty", "isPrototypeOf", "propertyIsEnumerable",
    "toLocaleString", "toString", "valueOf"}

  /** The lines `data.split('\n').filter(line => line.trim() !== '')` keeps. */
  function NonBlankLines(data: string): (r: seq<string>)
    ensures forall k :: 0 <= k < |r| ==> Trim(r[k]) != [] && '\n' !in r[k]
  {
    KeepNonBlank(Split(data, '\n'))
  }

  /** The test of the `filter` call: the trimmed line is not empty. */
  predicate IsNonBlank(line: string) {
    Trim(line) != []
  }

  /** The blank-line filter; it is the array `filter` with the trim test,
      so the kept lines keep their order and their multiplicity. */
  function KeepNonBlank(lines: seq<string>): (r: seq<string>)
    ensures r == Lists.Filter(lines, IsNonBlank)
    ensures forall k :: 0 <= k < |r| ==> Trim(r[k]) != []
    ensures forall k :: 0 <= k < |r| ==> r[k] in lines
    ensures forall l :: l in lines && Trim(l) != [] ==> l in r
  {
    if lines == [] then []
    else if Trim(lines[0]) != [] then [lines[0]] + KeepNonBlank(lines[1..])
    else KeepNonBlank(lines[1..])
  }

  /** `JSON.parse` over every line, in order; the first line that does not
      parse aborts the whole run. */
  function ParseLines(lines: seq<string>, parse: string -> Option<Record>): (r: Option<seq<Record>>)
    ensures r.Some? <==> forall k :: 0 <= k < |lines| ==> parse(lines[k]).Some?
    ensures r.Some? ==> |r.value| == |lines|
    ensures r.Some? ==> forall k :: 0 <= k < |lines| ==> r.value[k] == parse(lines[k]).value
  {
    if lines == [] then Some([])
    else match (parse(lines[0]), ParseLines(lines[1..], parse))
      case (Some(e), Some(rest)) => Some([e] + rest)
      case _ => None
  }

  /** Reference definition of one group: the entries with key value `g`,
      in input order. */
  function EntriesWithKey(entries: seq<Record>, key: string, g: string): seq<Record> {
    if entries == [] then []
    else
      var prefix := EntriesWithKey(entries[..|entries| - 1], key, g);
      if GroupKey(entries[|entries| - 1], key) == g then prefix + [entries[|entries| - 1]] else prefix
  }

  /** The loop body of `ndJSONParse`: create the group if missing, then push. */
  function AddToGroup(m: Groups, entry: Record, key: string): (r: Groups)
    ensures r.Keys == m.Keys + {GroupKey(entry, key)}
  {
    var g := GroupKey(entry, key);
    if g in m then m[g := m[g] + [entry]] else m[g := [entry]]
  }

  /** The grouping loop of `ndJSONParse`, entries processed left to right. */
  function GroupEntries(entries: seq<Record>, key: string): Groups {
    if entries == [] then map[]
    else AddToGroup(GroupEntries(entries[..|entries| - 1], key), entries[|entries| - 1], key)
  }

  /** The groups are exactly the key values that occur among the entries. */
  lemma {:induction false} GroupKeysIff(entries: seq<Record>, key: string)
    ensures forall g :: g in GroupEntries(entries, key) <==>
              exists k :: 0 <= k < |entries| && GroupKey(entries[k], key) == g
  {
    forall g ensures g in GroupEntries(entries, key) <==> exists k :: 0 <= k < |entries| && GroupKey(entries[k], key) == g {
      GroupKeyIff(entries, key, g);
    }
  }

  lemma {:induction false} GroupKeyIff(entries: seq<Record>, key: string, g: string)
    ensures g in GroupEntries(entries, key) <==> exists k :: 0 <= k < |entries| && GroupKey(entries[k], key) == g
  {
    if entries != [] {
      var front := entries[..|entries| - 1];
      var last := |entries| - 1;
      GroupKeyIff(front, key, g);
      if g in GroupEntries(front, key) {
        var k :| 0 <= k < |front| && GroupKey(front[k], key) == g;
        assert entries[k] == front[k];
      } else if GroupKey(entries[last], key) != g {
        forall k | 0 <= k < |entries| ensures GroupKey(entries[k], key) != g {
          if k < last {
            assert entries[k] == front[k];
          }
        }
      }
    }
  }

  /** Each group is exactly the entries with that key value, in input order. */
  lemma {:induction false} GroupsAreFilters(entries: seq<Record>, key: string)
    ensures forall g :: g in GroupEntries(entries, key) ==>
              GroupEntries(entries, key)[g] == EntriesWithKey(entries, key, g)
  {
    forall g | g in GroupEntries(entries, key)
      ensures GroupEntries(entries, key)[g] == EntriesWithKey(entries, key, g)
    {
      GroupIsFilter(entries, key, g);
    }
  }

  lemma {:induction false} GroupIsFilter(entries: seq<Record>, key: string, g: string)
    requires g in GroupEntries(entries, key)
    ensures GroupEntries(entries, key)[g] == EntriesWithKey(entries, key, g)
  {
    var front := entries[..|entries| - 1];
    var last := entries[|entries| - 1];
    var m := GroupEntries(front, key);
    var before := EntriesWithKey(front, key, g);
    assert EntriesWithKey(entries, key, g) == if GroupKey(last, key) == g then before + [last] else before;
    if g in m {
      GroupIsFilter(front, key, g);
    } else {
      EmptyFilterWhenAbsent(front, key, g);
    }
  }

  lemma {:induction false} EmptyFilterWhenAbsent(entries: seq<Record>, key: string, g: string)
    requires g !in GroupEntries(entries, key)
    ensures EntriesWithKey(entries, key, g) == []
  {
    if entries != [] {
      var front := entries[..|entries| - 1];
      assert forall k :: 0 <= k < |front| ==> front[k] == entries[k];
      EmptyFilterWhenAbsent(front, key, g);
    }
  }

  /** Every entry of group `g` has key value `g`, and no group is empty. */
  lemma {:induction false} GroupsAreHomogeneousAndNonEmpty(entries: seq<Record>, key: string)
    ensures forall g :: g in GroupEntries(entries, key) ==>
              |GroupEntries(entries, key)[g]| > 0
              && forall e :: e in GroupEntries(entries, key)[g] ==> GroupKey(e, key) == g
  {
    GroupsAreFilters(entries, key);
    GroupKeysIff(entries, key);
    forall g | g in GroupEntries(entries, key)
      ensures |EntriesWithKey(entries, key, g)| > 0
      ensures forall e :: e in EntriesWithKey(entries, key, g) ==> GroupKey(e, key) == g
    {
      var k :| 0 <= k < |entries| && GroupKey(entries[k], key) == g;
      FilterFacts(entries, key, g, k);
    }
  }

  lemma {:induction false} FilterFacts(entries: seq<Record>, key: string, g: string, k: nat)
    requires k < |entries| && GroupKey(entries[k], key) == g
    ensures |EntriesWithKey(entries, key, g)| > 0
    ensures forall e :: e in EntriesWithKey(entries, key, g) ==> GroupKey(e, key) == g
  {
    FilterKeys(entries, key, g);
    var front := entries[..|entries| - 1];
    if k < |entries| - 1 {
      assert front[k] == entries[k];
      FilterFacts(front, key, g, k);
    }
  }

  lemma {:induction false} FilterKeys(entries: seq<Record>, key: string, g: string)
    ensures forall e :: e in EntriesWithKey(entries, key, g) ==> GroupKey(e, key) == g
  {
    if entries != [] {
      FilterKeys(entries[..|entries| - 1], key, g);
    }
  }

  /** Total number of entries over all groups. */
  ghost function TotalSize(m: Groups): nat
    decreases |m.Keys|
  {
    if m.Keys == {} then 0
    else
      var k :| k in m.Keys;
      |m[k]| + TotalSize(m - {k})
  }

  lemma {:induction false} TotalSizeRemove(m: Groups, k: string)
    requires k in m
    ensures TotalSize(m) == |m[k]| + TotalSize(m - {k})
    decreases |m.Keys|
  {
    var j :| j in m.Keys && TotalSize(m) == |m[j]| + TotalSize(m - {j});
    if j != k {
      var mj := m - {j};
      var mk := m - {k};
      RemoveKeyShrinks(m, j);
      RemoveKeyShrinks(m, k);
      assert k in mj && mj[k] == m[k];
      assert j in mk && mk[j] == m[j];
      TotalSizeRemove(mj, k);
      TotalSizeRemove(mk, j);
      assert mj - {k} == mk - {j};
    }
  }

  lemma {:induction false} RemoveKeyShrinks(m: Groups, k: string)
    requires k in m
    ensures (m - {k}).Keys == m.Keys - {k}
    ensures |(m - {k}).Keys| == |m.Keys| - 1
  {
    assert (m - {k}).Keys == m.Keys - {k};
  }

  lemma {:induction false} TotalSizeAdd(m: Groups, entry: Record, key: string)
    ensures TotalSize(AddToGroup(m, entry, key)) == TotalSize(m) + 1
  {
    var g := GroupKey(entry, key);
    var r := AddToGroup(m, entry, key);
    TotalSizeRemove(r, g);
    assert r - {g} == m - {g};
    if g in m {
      TotalSizeRemove(m, g);
    } else {
      assert m - {g} == m;
    }
  }

  /** Every entry lands in exactly one group: the group sizes add up to the
      number of entries. */
  lemma {:induction false} GroupSizesAddUp(entries: seq<Record>, key: string)
    ensures TotalSize(GroupEntries(entries, key)) == |entries|
  {
    if entries != [] {
      var front := entries[..|entries| - 1];
      GroupSizesAddUp(front, key);
      TotalSizeAdd(GroupEntries(front, key), entries[|entries| - 1], key);
    }
  }

  /** The line of the input whose parse makes `ndJSONParse` throw: it is
      malformed, or its key value names an inherited member. */
  predicate Throws(line: string, key: string, parse: string -> Option<Record>) {
    parse(line).None? || GroupKey(parse(line).value, key) in InheritedNames
  }

  /** `ndJSONParse(data, key)`: None stands for an exception, thrown by
      `JSON.parse` on a malformed line or by the push onto an inherited
      member; no partial map is returned then. */
  function NdJsonParse(data: string, key: string, parse: string -> Option<Record>): (r: Option<Groups>)
    ensures r.None? <==> exists l :: l in NonBlankLines(data) && Throws(l, key, parse)
    ensures r.Some? ==> forall g :: g in r.value ==> |r.value[g]| > 0 && g !in InheritedNames
  {
    var lines := NonBlankLines(data);
    match ParseLines(lines, parse)
    case None => None
    case Some(entries) =>
      if exists k :: 0 <= k < |entries| && GroupKey(entries[k], key) in InheritedNames then
        var k :| 0 <= k < |entries| && GroupKey(entries[k], key) in InheritedNames;
        assert lines[k] in lines && Throws(lines[k], key, parse);
        None
      else
        assert forall l :: l in lines ==> !Throws(l, key, parse) by {
          forall l | l in lines ensures !Throws(l, key, parse) {
            var k :| 0 <= k < |lines| && lines[k] == l;
            assert entries[k] == parse(l).value;
          }
        }
        GroupsAreHomogeneousAndNonEmpty(entries, key);
        GroupKeysIff(entries, key);
        Some(GroupEntries(entries, key))
  }

  /** The full contract of `ndJSONParse` on well-formed input: groups are
      the key-filtered, order-preserving sublists of the parsed lines, and
      together they hold one entry per non-blank line. */
  lemma {:induction false} NdJsonParseGroups(data: string, key: string, parse: string -> Option<Record>)
    requires NdJsonParse(data, key, parse).Some?
    ensures ParseLines(NonBlankLines(data), parse).Some?
    ensures var entries := ParseLines(NonBlankLines(data), parse).value;
            var m := NdJsonParse(data, key, parse).value;
            && TotalSize(m) == |NonBlankLines(data)|
            && (forall g :: g in m ==> m[g] == EntriesWithKey(entries, key, g))
            && (forall g :: g in m ==> forall e :: e in m[g] ==> GroupKey(e, key) == g)
  {
    var entries := ParseLines(NonBlankLines(data), parse).value;
    GroupSizesAddUp(entries, key);
    GroupsAreFilters(entries, key);
    GroupsAreHomogeneousAndNonEmpty(entries, key);
  }

  /** One draw of the two nondeterministic inputs of an id: `Date.now()` and
      `Math.random().toString(36).slice(2, 9)`. */
  datatype Draw = Draw(now: nat, suffix: string)

  /** What `Math.random().toString(36).slice(2, 9)` can produce. */
  predicate IsRandomSuffix(s: string) {
    |s| <= 7 && forall i :: 0 <= i < |s| ==> IsBase36Char(s[i])
  }

  function ChatIdOf(d: Draw): string {
    NatToString(d.now) + "-" + d.suffix
  }

  /** `<decimal timestamp>-<up to seven base-36 characters>`. */
  predicate IsChatIdShape(id: string) {
    exists i :: 0 < i < |id| && id[i] == '-'
      && (forall k :: 0 <= k < i ==> IsDigit(id[k]))
      && IsRandomSuffix(id[i + 1..])
  }

  lemma {:induction false} ChatIdOfShape(d: Draw)
    requires IsRandomSuffix(d.suffix)
    ensures IsChatIdShape(ChatIdOf(d))
  {
    var id := ChatIdOf(d);
    var i := |NatToString(d.now)|;
    assert id[i] == '-';
    assert id[i + 1..] == d.suffix;
    assert forall k :: 0 <= k < i ==> id[k] == NatToString(d.now)[k];
  }

  /** `generateChatID`: with no history loaded the first draw is used as is;
      otherwise draws are taken until one is not a key of the history. The
      source loops for ever when every draw collides, so the draws offered
      must contain a fresh one. */
  method GenerateChatId(history: Option<Groups>, draws: seq<Draw>) returns (id: string, used: nat)
    requires |draws| > 0
    requires forall k :: 0 <= k < |draws| ==> IsRandomSuffix(draws[k].suffix)
    requires history.Some? ==> exists k :: 0 <= k < |draws| && ChatIdOf(draws[k]) !in history.value
    ensures used < |draws| && id == ChatIdOf(draws[used])
    ensures IsChatIdShape(id)
    ensures history.None? ==> used == 0
    ensures history.Some? ==> id !in history.value
    ensures history.Some? ==> forall k :: 0 <= k < used ==> ChatIdOf(draws[k]) in history.value
  {
    if history.None? {
      ChatIdOfShape(draws[0]);
      return ChatIdOf(draws[0]), 0;
    }
    var taken := history.value;
    used := 0;
    id := ChatIdOf(draws[0]);
    while id in taken
      invariant used < |draws| && id == ChatIdOf(draws[used])
      invariant forall k :: 0 <= k < used ==> ChatIdOf(draws[k]) in taken
      invariant exists k :: used <= k < |draws| && ChatIdOf(draws[k]) !in taken
      decreases |draws| - used
    {
      used := used + 1;
      id := ChatIdOf(draws[used]);
    }
    ChatIdOfShape(draws[used]);
  }
}

=== FILE: chatbox.dfy ===
/** The pure logic of the chat view (webview/chatbox/chatbox.js): how a
    message is displayed, how the "attached context" part of a user
    message is cut into file blocks, and the composer's attachment lists
    (remove, de-duplicated add, image filter) and send guard. The DOM, the
    markdown highlighter and `FileReader` are replaced by parameters and
    plain values. */
module Chatbox {
  import opened Text
  import Html
  import Lists

  /* ---------------------------------------------------------------
     Displaying text
     --------------------------------------------------------------- */

  /** `.replace(/\n/g, "<br>")`. */
  function Br(s: string): (r: string)
    ensures '\n' !in r
  {
    ReplaceAllLeavesOut(s, '\n', "<br>", '\n');
    ReplaceAll(s, '\n', "<br>")
  }

  /** Reads `<br>` tags back as line breaks. */
  function UnBr(t: string): string
    decreases |t|
  {
    if t == [] then []
    else if StartsWith(t, "<br>") then "\n" + UnBr(t[4..])
    else [t[0]] + UnBr(t[1..])
  }

  /** Text without `<` survives the line-break conversion. */
  lemma {:induction false} UnBrBr(s: string)
    requires '<' !in s
    ensures UnBr(Br(s)) == s
  {
    if s != [] {
      UnBrBr(s[1..]);
      var rest := Br(s[1..]);
      if s[0] == '\n' {
        var t := "<br>" + rest;
        assert Br(s) == t;
        assert t[..4] == "<br>" && t[4..] == rest;
      } else {
        var t := [s[0]] + rest;
        assert Br(s) == t;
        assert t[1..] == rest;
      }
      assert s == [s[0]] + s[1..];
    }
  }

  /** Markup that renders as text and line breaks only: every `<` opens
      and every `>` closes a `<br>` tag, every `&` starts an entity, and
      there are no quotes. */
  predicate OnlyLineBreakTags(t: string) {
    && (forall i :: 0 <= i < |t| && t[i] == '<' ==> OccursAt(t, "<br>", i))
    && (forall i :: 0 <= i < |t| && t[i] == '>' ==> 3 <= i && OccursAt(t, "<br>", i - 3))
    && (forall i :: 0 <= i < |t| ==> t[i] != '"' && t[i] != '\'')
    && Html.AmpersandsStartEntities(t)
  }

  /** How the chat view shows a piece of plain text: each character escaped
      on its own, then each line break turned into `<br>`. */
  function Display(s: string): (t: string)
    ensures t == Br(Html.EscapeEach(s, true))
    ensures OnlyLineBreakTags(t)
    ensures Html.Unescape(UnBr(t)) == s
  {
    DisplayRoundTrip(s);
    DisplayIsInert(s);
    Br(Html.EscapeHtml(s))
  }

  /** `.replace(/\n/g, "<br>")` of one escaped character. */
  lemma {:induction false} BrOfEscapedChar(c: char)
    ensures Br(Html.EscapeChar(c, true)) == if c == '\n' then "<br>" else Html.EscapeChar(c, true)
  {
    var e := Html.EscapeChar(c, true);
    if c == '\n' {
      assert e == "\n" && e[1..] == [];
      assert Br(e) == "<br>" + ReplaceAll(e[1..], '\n', "<br>");
    } else {
      assert '\n' !in e;
      Html.ReplaceAllAbsent(e, '\n', "<br>");
    }
  }

  /** Safe markup stays safe when two pieces are put together. */
  lemma {:induction false} InertAppend(a: string, b: string)
    requires OnlyLineBreakTags(a) && OnlyLineBreakTags(b)
    ensures OnlyLineBreakTags(a + b)
  {
    var t := a + b;
    forall i | |a| <= i < |t| ensures t[i] == b[i - |a|] { }
    forall i | 0 <= i < |t| && t[i] == '<' ensures OccursAt(t, "<br>", i) {
      if i < |a| { Html.OccursAtPrefix(a, b, "<br>", i); } else { Html.OccursAtShift(a, b, "<br>", i - |a|); }
    }
    forall i | 0 <= i < |t| && t[i] == '>' ensures 3 <= i && OccursAt(t, "<br>", i - 3) {
      if i < |a| { Html.OccursAtPrefix(a, b, "<br>", i - 3); } else { Html.OccursAtShift(a, b, "<br>", i - |a| - 3); }
    }
    forall i | 0 <= i < |t| && t[i] == '&' ensures Html.EntityAt(t, i) {
      if i < |a| { Html.EntityAtPrefix(a, b, i); } else { Html.EntityAtShift(a, b, i - |a|); }
    }
  }

  lemma {:induction false} BrTagIsInert()
    ensures OnlyLineBreakTags("<br>")
  {
    OccursAtIff("<br>", "<br>", 0);
  }

  lemma {:induction false} EscapedCharIsInert(c: char)
    ensures OnlyLineBreakTags(Html.EscapeChar(c, true))
  {
    var e := Html.EscapeChar(c, true);
    forall i | 0 <= i < |e| && e[i] == '&' ensures Html.EntityAt(e, i) {
      Html.EscapeCharAmpersand(c, true, i);
    }
  }

  /** The escaped text with its line breaks as `<br>` holds no other
      markup. */
  lemma {:induction false} DisplayIsInert(s: string)
    ensures OnlyLineBreakTags(Br(Html.EscapeEach(s, true)))
  {
    if s == [] {
      assert Br(Html.EscapeEach(s, true)) == [];
    } else {
      DisplayIsInert(s[1..]);
      var c := s[0];
      var e := Html.EscapeChar(c, true);
      assert Html.EscapeEach(s, true) == e + Html.EscapeEach(s[1..], true);
      Html.ReplaceAllAppend(e, Html.EscapeEach(s[1..], true), '\n', "<br>");
      BrOfEscapedChar(c);
      if c == '\n' { BrTagIsInert(); } else { EscapedCharIsInert(c); }
      InertAppend(Br(e), Br(Html.EscapeEach(s[1..], true)));
    }
  }

  /** What is displayed is the text itself: undoing the `<br>` tags and
      then the entities gives back exactly the input. */
  lemma {:induction false} DisplayRoundTrip(s: string)
    ensures Html.Unescape(UnBr(Br(Html.EscapeHtml(s)))) == s
  {
    Html.EscapeHtmlFacts(s);
    var e := Html.EscapeHtml(s);
    assert '<' !in e;
    UnBrBr(e);
  }

  /* ---------------------------------------------------------------
     The attached-context marker
     --------------------------------------------------------------- */

  const SplitMarker: string := "--- ATTACHED CONTEXT ---"

  /** `rawText.split(splitMarker)`, parts 0 and 1, for a text holding the
      marker: the text before the first marker, and the text from there to
      the next marker or the end. */
  function MarkerParts(raw: string): (r: (string, string))
    requires Contains(raw, SplitMarker)
    ensures MarkerSplit(raw, r.0, r.1)
  {
    var i := IndexOf(raw, SplitMarker, 0).value;
    var from := i + |SplitMarker|;
    var context := match IndexOf(raw, SplitMarker, from)
      case Some(j) => raw[from..j]
      case None => raw[from..];
    MarkerSplitHolds(raw, i, context);
    (raw[..i], context)
  }

  /** `before` is the text ahead of the first marker of `raw`, and
      `context` the text from that marker to the next one or the end. */
  ghost predicate MarkerSplit(raw: string, before: string, context: string) {
    var i := |before|;
    && OccursAt(raw, SplitMarker, i)
    && raw[..i] == before
    && !Contains(before, SplitMarker)
    && OccursAt(raw, context, i + |SplitMarker|)
    && (forall k :: !OccursAt(context, SplitMarker, k))
    && (i + |SplitMarker| + |context| == |raw| || OccursAt(raw, SplitMarker, i + |SplitMarker| + |context|))
  }

  lemma {:induction false} MarkerSplitHolds(raw: string, i: nat, context: string)
    requires IndexOf(raw, SplitMarker, 0) == Some(i)
    requires var from := i + |SplitMarker|;
             match IndexOf(raw, SplitMarker, from)
             case Some(j) => context == raw[from..j]
             case None => context == raw[from..]
    ensures MarkerSplit(raw, raw[..i], context)
  {
    var from := i + |SplitMarker|;
    FirstMarker(raw, i);
    NoMarkerInContext(raw, from, context);
    assert |raw[..i]| == i;
  }

  lemma {:induction false} FirstMarker(raw: string, i: nat)
    requires IndexOf(raw, SplitMarker, 0) == Some(i)
    ensures !Contains(raw[..i], SplitMarker)
  {
    var before := raw[..i];
    if Contains(before, SplitMarker) {
      var k := IndexOf(before, SplitMarker, 0).value;
      IndexOfIsFirst(raw, SplitMarker, 0);
      OccursSlice(raw, 0, i);
      assert raw[0..i] == before;
      OccursWithin(raw, before, 0, SplitMarker, k);
      assert false;
    }
  }

  lemma {:induction false} NoMarkerInContext(raw: string, from: nat, context: string)
    requires from <= |raw|
    requires match IndexOf(raw, SplitMarker, from)
             case Some(j) => context == raw[from..j]
             case None => context == raw[from..]
    ensures OccursAt(raw, context, from)
    ensures forall k :: !OccursAt(context, SplitMarker, k)
  {
    IndexOfIsFirst(raw, SplitMarker, from);
    var to := match IndexOf(raw, SplitMarker, from)
      case Some(j) => j
      case None => |raw|;
    assert context == raw[from..to];
    OccursSlice(raw, from, to);
    forall k | OccursAt(context, SplitMarker, k) ensures false {
      OccursWithin(raw, context, from, SplitMarker, k);
    }
  }

  /* ---------------------------------------------------------------
     File blocks: /File:\s*(.*?)\n```(\w*)\n([\s\S]*?)```/g
     --------------------------------------------------------------- */

  const FileTag: string := "File:"
  const Fence: string := "```"
  const NameEnd: string := "\n```"

  /** One match of the file-block pattern, by position: `File:` at
      `start`, the name over `nameStart..nameEnd`, "\n```" at `nameEnd`,
      the language up to `languageEnd`, a line break there, and the code up
      to the fence at `codeEnd`. */
  datatype Block = Block(start: nat, nameStart: nat, nameEnd: nat, languageEnd: nat, codeEnd: nat)

  function LanguageStart(b: Block): nat {
    b.nameEnd + |NameEnd|
  }

  function CodeStart(b: Block): nat {
    b.languageEnd + 1
  }

  function End(b: Block): nat {
    b.codeEnd + |Fence|
  }

  /** Length of the `\s*` part. */
  function SpaceLength(b: Block): int {
    b.nameStart - b.start - |FileTag|
  }

  predicate Ordered(s: string, b: Block) {
    && b.start + |FileTag| <= b.nameStart <= b.nameEnd
    && LanguageStart(b) <= b.languageEnd < CodeStart(b) <= b.codeEnd
    && End(b) <= |s|
  }

  /** `b` is a way the pattern matches `s`: `File:`, whitespace (`\s*`), a
      name without line terminators (`.*?`), "\n```", word characters
      (`\w*`), a line break, then code in which no fence starts
      (`[\s\S]*?`), then the fence. */
  predicate IsMatch(s: string, b: Block) {
    && Ordered(s, b)
    && OccursAt(s, FileTag, b.start)
    && AllIn(s, b.start + |FileTag|, b.nameStart, Space)
    && AllIn(s, b.nameStart, b.nameEnd, NonTerminator)
    && OccursAt(s, NameEnd, b.nameEnd)
    && AllIn(s, LanguageStart(b), b.languageEnd, Word)
    && s[b.languageEnd] == '\n'
    && NoFenceIn(s, CodeStart(b), b.codeEnd)
    && OccursAt(s, Fence, b.codeEnd)
  }

  /** No fence starts at any index of `lo..hi`. */
  predicate NoFenceIn(s: string, lo: nat, hi: nat)
    requires lo <= hi <= |s|
    decreases hi - lo
  {
    lo == hi || (!OccursAt(s, Fence, lo) && NoFenceIn(s, lo + 1, hi))
  }

  lemma {:induction false} NoFenceInIff(s: string, lo: nat, hi: nat)
    requires lo <= hi <= |s|
    ensures NoFenceIn(s, lo, hi) <==> forall i :: lo <= i < hi ==> !OccursAt(s, Fence, i)
    decreases hi - lo
  {
    if lo < hi {
      NoFenceInIff(s, lo + 1, hi);
      if forall i :: lo <= i < hi ==> !OccursAt(s, Fence, i) {
        assert !OccursAt(s, Fence, lo);
      }
      if OccursAt(s, Fence, lo) {
        assert !NoFenceIn(s, lo, hi);
        assert exists i :: lo <= i < hi && OccursAt(s, Fence, i);
      }
    }
  }

  /** The capture groups of a block. */
  function Name(s: string, b: Block): string
    requires Ordered(s, b)
  {
    s[b.nameStart..b.nameEnd]
  }

  function Language(s: string, b: Block): string
    requires Ordered(s, b)
  {
    s[LanguageStart(b)..b.languageEnd]
  }

  function Code(s: string, b: Block): string
    requires Ordered(s, b)
  {
    s[CodeStart(b)..b.codeEnd]
  }

  /** The text a match spans is the pattern's literal parts around its
      groups. */
  lemma {:induction false} MatchText(s: string, b: Block)
    requires IsMatch(s, b)
    ensures s[b.start..End(b)]
            == FileTag + s[b.start + |FileTag|..b.nameStart] + Name(s, b) + NameEnd + Language(s, b) + "\n" + Code(s, b) + Fence
  {
    LiteralParts(s, b);
  }

  lemma {:induction false} LiteralParts(s: string, b: Block)
    requires Ordered(s, b)
    requires OccursAt(s, FileTag, b.start) && OccursAt(s, NameEnd, b.nameEnd) && OccursAt(s, Fence, b.codeEnd)
    requires s[b.languageEnd] == '\n'
    ensures s[b.start..End(b)]
            == FileTag + s[b.start + |FileTag|..b.nameStart] + Name(s, b) + NameEnd + Language(s, b) + "\n" + Code(s, b) + Fence
  {
    var p := b.start;
    OccursAtIff(s, FileTag, p);
    OccursAtIff(s, NameEnd, b.nameEnd);
    OccursAtIff(s, Fence, b.codeEnd);
    SliceConcat(s, p, p + |FileTag|, b.nameStart);
    var t0 := s[p..b.nameStart];
    assert t0 == FileTag + s[p + |FileTag|..b.nameStart];
    SliceConcat(s, p, b.nameStart, b.nameEnd);
    var t1 := s[p..b.nameEnd];
    assert t1 == t0 + Name(s, b);
    SliceConcat(s, p, b.nameEnd, LanguageStart(b));
    var t2 := s[p..LanguageStart(b)];
    assert t2 == t1 + NameEnd;
    SliceConcat(s, p, LanguageStart(b), b.languageEnd);
    var t3 := s[p..b.languageEnd];
    assert t3 == t2 + Language(s, b);
    SliceConcat(s, p, b.languageEnd, CodeStart(b));
    assert s[b.languageEnd..CodeStart(b)] == "\n";
    var t4 := s[p..CodeStart(b)];
    assert t4 == t3 + "\n";
    SliceConcat(s, p, CodeStart(b), b.codeEnd);
    var t5 := s[p..b.codeEnd];
    assert t5 == t4 + Code(s, b);
    SliceConcat(s, p, b.codeEnd, End(b));
    assert s[p..End(b)] == t5 + Fence;
  }

  /** The match that uses exactly `k` characters of whitespace after the
      `File:` at `p`, if any. The name stops at the first line terminator,
      the language is the longest word run, and the code ends at the next
      fence: with `k` fixed, the lazy and greedy groups leave no choice. */
  function MatchAt(s: string, p: nat, k: nat): Option<Block>
    requires p + |FileTag| + k <= |s|
  {
    NameFrom(s, p, p + |FileTag| + k)
  }

  /** The name runs from `q` to the first line terminator, where "\n```"
      must follow. */
  function NameFrom(s: string, p: nat, q: nat): Option<Block>
    requires q <= |s|
  {
    var j := q + Run(s, q, NonTerminator);
    if OccursAt(s, NameEnd, j) then LanguageFrom(s, p, q, j) else None
  }

  /** The language is the word run after "\n```", and a line break must
      follow it. */
  function LanguageFrom(s: string, p: nat, q: nat, j: nat): Option<Block>
    requires j + |NameEnd| <= |s|
  {
    var le := j + |NameEnd| + Run(s, j + |NameEnd|, Word);
    if le < |s| && s[le] == '\n' then CodeFrom(s, p, q, j, le) else None
  }

  /** The code runs to the first fence after the line break. */
  function CodeFrom(s: string, p: nat, q: nat, j: nat, le: nat): Option<Block> {
    match IndexOf(s, Fence, le + 1)
    case None => None
    case Some(e) => Some(Block(p, q, j, le, e))
  }

  /** What `MatchAt` returns is a match with that much whitespace. */
  lemma {:induction false} MatchAtSound(s: string, p: nat, k: nat)
    requires OccursAt(s, FileTag, p)
    requires k <= Run(s, p + |FileTag|, Space)
    requires MatchAt(s, p, k).Some?
    ensures var b := MatchAt(s, p, k).value;
            IsMatch(s, b) && b.start == p && SpaceLength(b) == k
  {
    var q := p + |FileTag| + k;
    NameFromSound(s, p, q);
    var b := MatchAt(s, p, k).value;
    AllInPrefix(s, p + |FileTag|, q, p + |FileTag| + Run(s, p + |FileTag|, Space), Space);
  }

  /** What `NameFrom` returns has the name, language and code of a match. */
  lemma {:induction false} NameFromSound(s: string, p: nat, q: nat)
    requires q <= |s|
    requires NameFrom(s, p, q).Some?
    ensures var b := NameFrom(s, p, q).value;
            && b.start == p && b.nameStart == q && b.nameStart <= b.nameEnd
            && LanguageStart(b) <= b.languageEnd < CodeStart(b) <= b.codeEnd && End(b) <= |s|
            && AllIn(s, b.nameStart, b.nameEnd, NonTerminator)
            && OccursAt(s, NameEnd, b.nameEnd)
            && AllIn(s, LanguageStart(b), b.languageEnd, Word)
            && s[b.languageEnd] == '\n'
            && NoFenceIn(s, CodeStart(b), b.codeEnd)
            && OccursAt(s, Fence, b.codeEnd)
  {
    var j := q + Run(s, q, NonTerminator);
    assert AllIn(s, q, j, NonTerminator);
    assert OccursAt(s, NameEnd, j);
    assert NameFrom(s, p, q) == LanguageFrom(s, p, q, j);
    LanguageFromSound(s, p, q, j);
  }

  lemma {:induction false} LanguageFromSound(s: string, p: nat, q: nat, j: nat)
    requires j + |NameEnd| <= |s|
    requires LanguageFrom(s, p, q, j).Some?
    ensures var b := LanguageFrom(s, p, q, j).value;
            && b.start == p && b.nameStart == q && b.nameEnd == j
            && LanguageStart(b) <= b.languageEnd < CodeStart(b) <= b.codeEnd && End(b) <= |s|
            && AllIn(s, LanguageStart(b), b.languageEnd, Word)
            && s[b.languageEnd] == '\n'
            && NoFenceIn(s, CodeStart(b), b.codeEnd)
            && OccursAt(s, Fence, b.codeEnd)
  {
    var le := j + |NameEnd| + Run(s, j + |NameEnd|, Word);
    assert AllIn(s, j + |NameEnd|, le, Word);
    assert le < |s| && s[le] == '\n';
    assert LanguageFrom(s, p, q, j) == CodeFrom(s, p, q, j, le);
    CodeFromSound(s, p, q, j, le);
  }

  lemma {:induction false} CodeFromSound(s: string, p: nat, q: nat, j: nat, le: nat)
    requires CodeFrom(s, p, q, j, le).Some?
    ensures var b := CodeFrom(s, p, q, j, le).value;
            && b == Block(p, q, j, le, b.codeEnd)
            && CodeStart(b) <= b.codeEnd && End(b) <= |s|
            && NoFenceIn(s, CodeStart(b), b.codeEnd)
            && OccursAt(s, Fence, b.codeEnd)
  {
    IndexOfIsFirst(s, Fence, le + 1);
    var e := IndexOf(s, Fence, le + 1).value;
    NoFenceInIff(s, le + 1, e);
  }

  /** Every match is what `MatchAt` finds for its whitespace length. */
  lemma {:induction false} MatchAtComplete(s: string, b: Block)
    requires IsMatch(s, b)
    ensures b.start + |FileTag| + SpaceLength(b) <= |s|
    ensures MatchAt(s, b.start, SpaceLength(b)) == Some(b)
  {
    NameIsRun(s, b);
    LanguageIsRun(s, b);
    CodeEndsAtFirstFence(s, b);
    MatchAtFromParts(s, b);
  }

  /** `MatchAt` put together from the three scans it makes. */
  lemma {:induction false} MatchAtFromParts(s: string, b: Block)
    requires Ordered(s, b)
    requires Run(s, b.nameStart, NonTerminator) == b.nameEnd - b.nameStart
    requires OccursAt(s, NameEnd, b.nameEnd)
    requires Run(s, LanguageStart(b), Word) == b.languageEnd - LanguageStart(b)
    requires s[b.languageEnd] == '\n'
    requires IndexOf(s, Fence, CodeStart(b)) == Some(b.codeEnd)
    ensures MatchAt(s, b.start, SpaceLength(b)) == Some(b)
  {
    CodeFromFound(s, b);
    LanguageFromFound(s, b);
    NameFromFound(s, b);
    assert b.start + |FileTag| + SpaceLength(b) == b.nameStart;
    assert MatchAt(s, b.start, SpaceLength(b)) == NameFrom(s, b.start, b.nameStart);
  }

  lemma {:induction false} CodeFromFound(s: string, b: Block)
    requires IndexOf(s, Fence, CodeStart(b)) == Some(b.codeEnd)
    ensures CodeFrom(s, b.start, b.nameStart, b.nameEnd, b.languageEnd) == Some(b)
  {
  }

  lemma {:induction false} LanguageFromFound(s: string, b: Block)
    requires Ordered(s, b)
    requires Run(s, LanguageStart(b), Word) == b.languageEnd - LanguageStart(b)
    requires s[b.languageEnd] == '\n'
    ensures LanguageFrom(s, b.start, b.nameStart, b.nameEnd)
            == CodeFrom(s, b.start, b.nameStart, b.nameEnd, b.languageEnd)
  {
  }

  lemma {:induction false} NameFromFound(s: string, b: Block)
    requires Ordered(s, b)
    requires Run(s, b.nameStart, NonTerminator) == b.nameEnd - b.nameStart
    requires OccursAt(s, NameEnd, b.nameEnd)
    ensures NameFrom(s, b.start, b.nameStart) == LanguageFrom(s, b.start, b.nameStart, b.nameEnd)
  {
  }

  /** In a match the name is the whole run of non-terminators after the
      whitespace: the "\n" that follows ends it. */
  lemma {:induction false} NameIsRun(s: string, b: Block)
    requires IsMatch(s, b)
    ensures Run(s, b.nameStart, NonTerminator) == b.nameEnd - b.nameStart
  {
    assert s[b.nameEnd] == s[b.nameEnd..LanguageStart(b)][0];
    RunIsUnique(s, b.nameStart, NonTerminator, b.nameEnd - b.nameStart);
  }

  /** In a match the language is the whole run of word characters. */
  lemma {:induction false} LanguageIsRun(s: string, b: Block)
    requires IsMatch(s, b)
    ensures Run(s, LanguageStart(b), Word) == b.languageEnd - LanguageStart(b)
  {
    RunIsUnique(s, LanguageStart(b), Word, b.languageEnd - LanguageStart(b));
  }

  /** In a match the code ends at the first fence after it starts. */
  lemma {:induction false} CodeEndsAtFirstFence(s: string, b: Block)
    requires IsMatch(s, b)
    ensures IndexOf(s, Fence, CodeStart(b)) == Some(b.codeEnd)
  {
    NoFenceInIff(s, CodeStart(b), b.codeEnd);
    IndexOfFirst(s, Fence, CodeStart(b), b.codeEnd);
  }

  /** The whitespace of a match lies inside the whitespace run after `File:`. */
  lemma {:induction false} SpaceWithinRun(s: string, b: Block)
    requires IsMatch(s, b)
    ensures b.start + |FileTag| <= |s|
    ensures SpaceLength(b) <= Run(s, b.start + |FileTag|, Space)
  {
    RunCovers(s, b.start + |FileTag|, Space, SpaceLength(b));
  }

  /** `\s*` backtracking: whitespace lengths `k`, `k - 1`, ..., 0 in turn. */
  function TryFrom(s: string, p: nat, k: nat): (r: Option<Block>)
    requires OccursAt(s, FileTag, p)
    requires k <= Run(s, p + |FileTag|, Space)
    ensures r.Some? ==> IsMatch(s, r.value) && r.value.start == p && SpaceLength(r.value) <= k
    ensures r.Some? ==> forall b :: IsMatch(s, b) && b.start == p && SpaceLength(b) <= k ==> SpaceLength(b) <= SpaceLength(r.value)
    ensures r.None? ==> forall b :: IsMatch(s, b) && b.start == p ==> SpaceLength(b) > k
    decreases k
  {
    var m := MatchAt(s, p, k);
    if m.Some? then
      MatchAtSound(s, p, k);
      m
    else
      NoMatchOfWidth(s, p, k);
      if k == 0 then None else TryFrom(s, p, k - 1)
  }

  lemma {:induction false} NoMatchOfWidth(s: string, p: nat, k: nat)
    requires p + |FileTag| + k <= |s|
    requires MatchAt(s, p, k).None?
    ensures forall b :: IsMatch(s, b) && b.start == p ==> SpaceLength(b) != k
  {
    forall b | IsMatch(s, b) && b.start == p && SpaceLength(b) == k ensures false {
      MatchAtComplete(s, b);
    }
  }

  /** The match at position `p`, if one starts there: the one with the
      most whitespace after `File:`, as greedy `\s*` prefers. */
  function MatchFrom(s: string, p: nat): (r: Option<Block>)
    ensures r.Some? ==> IsMatch(s, r.value) && r.value.start == p
    ensures r.Some? ==> forall b :: IsMatch(s, b) && b.start == p ==> SpaceLength(b) <= SpaceLength(r.value)
    ensures r.None? ==> forall b :: IsMatch(s, b) ==> b.start != p
  {
    if OccursAt(s, FileTag, p) then
      AllMatchesWithinRun(s, p);
      TryFrom(s, p, Run(s, p + |FileTag|, Space))
    else
      None
  }

  lemma {:induction false} AllMatchesWithinRun(s: string, p: nat)
    requires p + |FileTag| <= |s|
    ensures forall b :: IsMatch(s, b) && b.start == p ==> SpaceLength(b) <= Run(s, p + |FileTag|, Space)
  {
    forall b | IsMatch(s, b) && b.start == p {
      SpaceWithinRun(s, b);
    }
  }

  /** One `fileRegex.exec(s)` with `lastIndex == from`: the leftmost match
      starting at or after `from`, and among matches there the one with
      the longest whitespace. */
  function Exec(s: string, from: nat): (r: Option<Block>)
    decreases |s| - from
    ensures r.Some? ==> IsMatch(s, r.value) && from <= r.value.start
    ensures r.Some? ==> forall b :: IsMatch(s, b) && from <= b.start ==> r.value.start <= b.start
    ensures r.Some? ==> forall b :: IsMatch(s, b) && b.start == r.value.start ==> SpaceLength(b) <= SpaceLength(r.value)
    ensures r.None? ==> forall b :: IsMatch(s, b) ==> b.start < from
  {
    if from >= |s| then None
    else
      var m := MatchFrom(s, from);
      if m.Some? then m else Exec(s, from + 1)
  }

  /** The two criteria of `Exec` pick out one block. */
  lemma {:induction false} MatchIsDetermined(s: string, b: Block, c: Block)
    requires IsMatch(s, b) && IsMatch(s, c)
    requires b.start == c.start && SpaceLength(b) == SpaceLength(c)
    ensures b == c
  {
    MatchAtComplete(s, b);
    MatchAtComplete(s, c);
  }

  /** `r` is a sequence of matches, each starting at or after the end of
      the one before it, the first at or after `from`. */
  predicate MatchesFrom(s: string, r: seq<Block>, from: nat)
    decreases |r|
  {
    r == [] || (IsMatch(s, r[0]) && from <= r[0].start && MatchesFrom(s, r[1..], End(r[0])))
  }

  /** `m` is what `exec` returns when searching from `from`: the leftmost
      match there, with the most whitespace among matches at its start. */
  ghost predicate FirstMatchFrom(s: string, m: Block, from: nat) {
    && IsMatch(s, m) && from <= m.start
    && (forall b :: IsMatch(s, b) && from <= b.start ==> m.start <= b.start)
    && (forall b :: IsMatch(s, b) && b.start == m.start ==> SpaceLength(b) <= SpaceLength(m))
  }

  /** `r` is the sequence of matches the `g`-flag loop finds from `from`:
      each block is the first match from where the previous one ended, and
      the loop stops only when no match is left. */
  ghost predicate ScanFrom(s: string, r: seq<Block>, from: nat)
    decreases |r|
  {
    if r == [] then forall b :: IsMatch(s, b) ==> b.start < from
    else FirstMatchFrom(s, r[0], from) && ScanFrom(s, r[1..], End(r[0]))
  }

  /** The `while ((match = fileRegex.exec(contextBlock)) !== null)` loop:
      every match from `from` on, left to right, each search resuming at the
      end of the previous match. */
  function ScanBlocks(s: string, from: nat): (r: seq<Block>)
    decreases |s| - from
    ensures ScanFrom(s, r, from)
    ensures MatchesFrom(s, r, from)
    ensures forall i :: 0 <= i < |r| ==> Ordered(s, r[i])
    ensures r == [] <==> forall b :: IsMatch(s, b) ==> b.start < from
  {
    match Exec(s, from)
    case None => []
    case Some(b) =>
      var rest := ScanBlocks(s, End(b));
      var r := [b] + rest;
      assert r[1..] == rest;
      assert forall i :: 0 < i < |r| ==> r[i] == rest[i - 1];
      r
  }

  /** Where the search for block `i` of a scan from `from` starts: `from`
      itself, or the end of the block before (the regex's `lastIndex`). */
  function ResumeAt(r: seq<Block>, from: nat, i: nat): nat
    requires i <= |r|
  {
    if i == 0 then from else End(r[i - 1])
  }

  /** Block `i` of the scan is the leftmost match at or after its resume
      point, with the most whitespace there, and no match is left after the
      last resume point. */
  lemma {:induction false} ScanIsLeftmost(s: string, r: seq<Block>, from: nat)
    requires ScanFrom(s, r, from)
    ensures forall i, b :: 0 <= i < |r| && IsMatch(s, b) && ResumeAt(r, from, i) <= b.start ==> r[i].start <= b.start
    ensures forall i, b :: 0 <= i < |r| && IsMatch(s, b) && b.start == r[i].start ==> SpaceLength(b) <= SpaceLength(r[i])
    ensures forall b :: IsMatch(s, b) ==> b.start < ResumeAt(r, from, |r|)
    decreases |r|
  {
    if r != [] {
      var rest := r[1..];
      var next := End(r[0]);
      assert FirstMatchFrom(s, r[0], from) && ScanFrom(s, rest, next);
      ScanIsLeftmost(s, rest, next);
      forall i, b | 0 <= i < |r| && IsMatch(s, b) && ResumeAt(r, from, i) <= b.start
        ensures r[i].start <= b.start
      {
        if i > 0 {
          assert ResumeAt(r, from, i) == ResumeAt(rest, next, i - 1) && r[i] == rest[i - 1];
        }
      }
      forall i, b | 0 <= i < |r| && IsMatch(s, b) && b.start == r[i].start
        ensures SpaceLength(b) <= SpaceLength(r[i])
      {
        if i > 0 {
          assert r[i] == rest[i - 1];
        }
      }
      assert ResumeAt(r, from, |r|) == ResumeAt(rest, next, |rest|);
    }
  }

  /** The loop's result is determined: two sequences that both meet
      `ScanFrom` are equal. */
  lemma {:induction false} ScanIsDetermined(s: string, r: seq<Block>, q: seq<Block>, from: nat)
    requires ScanFrom(s, r, from) && ScanFrom(s, q, from)
    ensures r == q
    decreases |r|
  {
    if r != [] && q != [] {
      assert r[0].start == q[0].start;
      assert SpaceLength(r[0]) == SpaceLength(q[0]);
      MatchIsDetermined(s, r[0], q[0]);
      ScanIsDetermined(s, r[1..], q[1..], End(r[0]));
      assert r == [r[0]] + r[1..] && q == [q[0]] + q[1..];
    }
  }

  /** Each block of the scan is a match at or after `from`. */
  lemma {:induction false} ScannedBlockMatches(s: string, r: seq<Block>, from: nat, i: nat)
    requires MatchesFrom(s, r, from) && i < |r|
    ensures IsMatch(s, r[i]) && from <= r[i].start
    decreases i
  {
    if i > 0 {
      ScannedBlockMatches(s, r[1..], End(r[0]), i - 1);
      assert r[1..][i - 1] == r[i];
    }
  }

  /** Consecutive blocks of the scan do not overlap. */
  lemma {:induction false} ScannedBlocksApart(s: string, r: seq<Block>, from: nat, i: nat)
    requires MatchesFrom(s, r, from) && i + 1 < |r|
    ensures End(r[i]) <= r[i + 1].start
    decreases i
  {
    if i == 0 {
      ScannedBlockMatches(s, r[1..], End(r[0]), 0);
    } else {
      ScannedBlocksApart(s, r[1..], End(r[0]), i - 1);
      assert r[1..][i - 1] == r[i] && r[1..][i] == r[i + 1];
    }
  }

  /* ---------------------------------------------------------------
     processMessageContent
     --------------------------------------------------------------- */

  /** One file attachment of a rendered message: the escaped file name and
      the highlighter's output for the code. */
  datatype FileCard = FileCard(name: string, code: string)

  /** A rendered message: the HTML of the user's own text, and the file
      cards of the attachments container, which is emitted only when there
      is at least one card. */
  datatype Rendered = Rendered(messageHtml: string, cards: seq<FileCard>)

  function Card(s: string, b: Block, highlight: string -> string): (r: FileCard)
    requires Ordered(s, b)
    ensures Html.IsEscaped(r.name) && Html.Unescape(r.name) == Trim(Name(s, b))
  {
    Html.EscapeHtmlFacts(Trim(Name(s, b)));
    FileCard(Html.EscapeHtml(Trim(Name(s, b))), highlight(Fence + Trim(Language(s, b)) + "\n" + Code(s, b) + Fence))
  }

  /** `processMessageContent(rawText)`, with the markdown highlighter as the
      parameter `highlight`. */
  function ProcessMessageContent(raw: string, highlight: string -> string): (r: Rendered)
    ensures OnlyLineBreakTags(r.messageHtml)
    ensures forall i :: 0 <= i < |r.cards| ==> Html.IsEscaped(r.cards[i].name)
    ensures !Contains(raw, SplitMarker) ==> Html.Unescape(UnBr(r.messageHtml)) == raw && r.cards == []
    ensures Contains(raw, SplitMarker) ==>
              var (before, context) := MarkerParts(raw);
              var blocks := ScanBlocks(context, 0);
              && Html.Unescape(UnBr(r.messageHtml)) == Trim(before)
              && |r.cards| == |blocks|
              && (r.cards != [] <==> exists b :: IsMatch(context, b))
              && forall i :: 0 <= i < |r.cards| ==>
                   && Html.Unescape(r.cards[i].name) == Trim(Name(context, blocks[i]))
                   && r.cards[i].code
                      == highlight(Fence + Trim(Language(context, blocks[i])) + "\n" + Code(context, blocks[i]) + Fence)
  {
    if !Contains(raw, SplitMarker) then
      Rendered(Display(raw), [])
    else
      var (before, context) := MarkerParts(raw);
      var blocks := ScanBlocks(context, 0);
      var cards := Lists.Map(blocks, b requires Ordered(context, b) => Card(context, b, highlight));
      CardNamesRoundTrip(context, blocks, cards, highlight);
      Rendered(Display(Trim(before)), cards)
  }

  lemma {:induction false} CardNamesRoundTrip(s: string, blocks: seq<Block>, cards: seq<FileCard>, highlight: string -> string)
    requires forall i :: 0 <= i < |blocks| ==> Ordered(s, blocks[i])
    requires |cards| == |blocks|
    requires forall i :: 0 <= i < |blocks| ==> cards[i] == Card(s, blocks[i], highlight)
    ensures forall i :: 0 <= i < |cards| ==> Html.Unescape(cards[i].name) == Trim(Name(s, blocks[i]))
    ensures forall i :: 0 <= i < |cards| ==> Html.IsEscaped(cards[i].name)
  {
  }

  /* ---------------------------------------------------------------
     The composer's attachments
     --------------------------------------------------------------- */

  /** An attached image: its data URL and the name shown on its pill. */
  datatype ImageAttachment = ImageAttachment(dataUrl: string, name: string)

  /** An attached file context. */
  datatype FileAttachment = FileAttachment(name: string, content: string, language: string, lines: nat)

  /** The pills in the order they are rendered: images, then files. Button
      `i` of the preview belongs to pill `i`. */
  datatype Pill = ImagePill(image: ImageAttachment) | FilePill(file: FileAttachment)

  function Pills(images: seq<ImageAttachment>, files: seq<FileAttachment>): (r: seq<Pill>)
    ensures |r| == |images| + |files|
    ensures forall k :: 0 <= k < |images| ==> r[k] == ImagePill(images[k])
    ensures forall k :: 0 <= k < |files| ==> r[|images| + k] == FilePill(files[k])
  {
    Lists.Map(images, a => ImagePill(a)) + Lists.Map(files, f => FilePill(f))
  }

  /** `array.splice(i, 1)`: removes element `i`; an index past the end
      removes nothing. */
  function Splice<T>(s: seq<T>, i: nat): (r: seq<T>)
    ensures i < |s| ==> |r| == |s| - 1 && multiset(r) == multiset(s) - multiset{s[i]}
    ensures i < |s| ==> (forall k :: 0 <= k < i ==> r[k] == s[k]) && (forall k :: i <= k < |r| ==> r[k] == s[k + 1])
    ensures i >= |s| ==> r == s
  {
    if i < |s| then
      assert s == s[..i] + [s[i]] + s[i + 1..];
      s[..i] + s[i + 1..]
    else s
  }

  /** The click handler of remove button `i`: an index below the number
      of images removes that image, any other removes file
      `i - |images|`. */
  function RemoveAttachment(images: seq<ImageAttachment>, files: seq<FileAttachment>, i: nat)
    : (r: (seq<ImageAttachment>, seq<FileAttachment>))
    ensures i < |images| ==> r.1 == files
    ensures i >= |images| ==> r.0 == images
    ensures Pills(r.0, r.1) == Splice(Pills(images, files), i)
  {
    var r := if i < |images| then (Splice(images, i), files) else (images, Splice(files, i - |images|));
    RemoveIsPillRemoval(images, files, i);
    r
  }

  /** Removing by button index removes exactly the pill that button sits on. */
  lemma {:induction false} RemoveIsPillRemoval(images: seq<ImageAttachment>, files: seq<FileAttachment>, i: nat)
    ensures var r := if i < |images| then (Splice(images, i), files) else (images, Splice(files, i - |images|));
            Pills(r.0, r.1) == Splice(Pills(images, files), i)
  {
    if i < |images| {
      RemoveImagePill(images, files, i);
    } else {
      RemoveFilePill(images, files, i);
    }
  }

  lemma {:induction false} RemoveImagePill(images: seq<ImageAttachment>, files: seq<FileAttachment>, i: nat)
    requires i < |images|
    ensures Pills(Splice(images, i), files) == Splice(Pills(images, files), i)
  {
    var a := Pills(Splice(images, i), files);
    var b := Splice(Pills(images, files), i);
    assert |a| == |b|;
    forall k | 0 <= k < |a| ensures a[k] == b[k] {
      if k >= |images| - 1 {
        assert a[k] == FilePill(files[k - (|images| - 1)]);
      }
    }
  }

  lemma {:induction false} RemoveFilePill(images: seq<ImageAttachment>, files: seq<FileAttachment>, i: nat)
    requires i >= |images|
    ensures Pills(images, Splice(files, i - |images|)) == Splice(Pills(images, files), i)
  {
    var rest := Splice(files, i - |images|);
    var a := Pills(images, rest);
    var b := Splice(Pills(images, files), i);
    if i < |images| + |files| {
      assert |a| == |b|;
      forall k | 0 <= k < |a| ensures a[k] == b[k] {
        if k >= |images| {
          assert a[k] == FilePill(rest[k - |images|]);
        }
      }
    }
  }

  /** The `fileContextAdded` message: a file chosen in the editor. */
  datatype FileContext = FileContext(name: string, text: string, language: string)

  /** No two attached files share a name. */
  predicate UniqueNames(files: seq<FileAttachment>) {
    forall i, j :: 0 <= i < j < |files| ==> files[i].name != files[j].name
  }

  predicate HasName(files: seq<FileAttachment>, name: string) {
    exists k :: 0 <= k < |files| && files[k].name == name
  }

  /** Adding a file context: ignored when a file of that name is attached,
      otherwise appended with its line count. */
  function AddFileContext(files: seq<FileAttachment>, d: FileContext): (r: seq<FileAttachment>)
    ensures HasName(files, d.name) ==> r == files
    ensures !HasName(files, d.name) ==>
              r == files + [FileAttachment(d.name, d.text, d.language, CountChar(d.text, '\n') + 1)]
  {
    if exists k :: 0 <= k < |files| && files[k].name == d.name then files
    else
      SplitLength(d.text, '\n');
      files + [FileAttachment(d.name, d.text, d.language, |Split(d.text, '\n')|)]
  }

  /** Adding keeps names unique, and adding the same file again changes
      nothing. */
  lemma {:induction false} AddFileContextKeepsNamesUnique(files: seq<FileAttachment>, d: FileContext)
    requires UniqueNames(files)
    ensures UniqueNames(AddFileContext(files, d))
    ensures HasName(AddFileContext(files, d), d.name)
    ensures AddFileContext(AddFileContext(files, d), d) == AddFileContext(files, d)
  {
    var r := AddFileContext(files, d);
    if !HasName(files, d.name) {
      assert r[|files|].name == d.name;
    }
  }

  /** A file picked or pasted in the view, with the data URL `FileReader`
      produces for it. */
  datatype PickedFile = PickedFile(name: string, mimeType: string, dataUrl: string)

  predicate IsImageFile(f: PickedFile) {
    StartsWith(f.mimeType, "image/")
  }

  const PastedName: string := "Pasted Image"

  /** The attachment made for one image file. */
  function Attach(f: PickedFile, source: string): ImageAttachment {
    ImageAttachment(f.dataUrl, if source == "upload" then f.name else PastedName)
  }

  /** `handleImageFiles(fileList, source)`: every file whose type starts
      with `image/` is attached, named after the file when uploaded and
      "Pasted Image" otherwise. The readers are taken to finish in list
      order. */
  function HandleImageFiles(images: seq<ImageAttachment>, picked: seq<PickedFile>, source: string)
    : (r: seq<ImageAttachment>)
    ensures |r| == |images| + |Lists.Filter(picked, IsImageFile)|
    ensures r[..|images|] == images
    ensures forall k :: |images| <= k < |r| ==> r[k] == Attach(Lists.Filter(picked, IsImageFile)[k - |images|], source)
  {
    images + Lists.Map(Lists.Filter(picked, IsImageFile), f => Attach(f, source))
  }

  /** `a` is the attachment made from one of the picked image files. */
  predicate MadeFromImage(a: ImageAttachment, picked: seq<PickedFile>, source: string) {
    exists f :: f in picked && IsImageFile(f) && a == Attach(f, source)
  }

  /** Every attachment added is made from a picked file of an image type. */
  lemma {:induction false} AddedComeFromImages(images: seq<ImageAttachment>, picked: seq<PickedFile>, source: string)
    ensures var r := HandleImageFiles(images, picked, source);
            forall k :: |images| <= k < |r| ==> MadeFromImage(r[k], picked, source)
  {
    var r := HandleImageFiles(images, picked, source);
    var imageFiles := Lists.Filter(picked, IsImageFile);
    Lists.FilterMembers(picked, IsImageFile);
    forall k | |images| <= k < |r| ensures MadeFromImage(r[k], picked, source) {
      assert imageFiles[k - |images|] in imageFiles;
    }
  }

  /** Files of other types are never attached, whatever the source. */
  lemma {:induction false} NonImagesAreIgnored(images: seq<ImageAttachment>, picked: seq<PickedFile>, source: string)
    requires forall f :: f in picked ==> !IsImageFile(f)
    ensures HandleImageFiles(images, picked, source) == images
  {
    Lists.FilterNone(picked, IsImageFile);
  }

  /* ---------------------------------------------------------------
     The send button
     --------------------------------------------------------------- */

  /** The composer: the typed text and both attachment lists. */
  datatype Composer = Composer(text: string, images: seq<ImageAttachment>, files: seq<FileAttachment>)

  /** The payload of a `chatRequest` message. */
  datatype ChatRequest = ChatRequest(
    message: string, images: seq<ImageAttachment>, files: seq<FileAttachment>, chatId: string, timestamp: string)

  /** The send button: a request goes out when the trimmed text is
      non-empty or anything is attached, and the composer is then
      cleared; otherwise nothing happens. */
  function Send(c: Composer, chatId: string, now: string): (r: (Option<ChatRequest>, Composer))
    ensures r.0.Some? <==> !AllWhitespace(c.text) || c.images != [] || c.files != []
    ensures r.0.Some? ==>
              && r.0.value == ChatRequest(Trim(c.text), c.images, c.files, chatId, now)
              && r.1 == Composer("", [], [])
    ensures r.0.None? ==> r.1 == c
  {
    var message := Trim(c.text);
    if message != [] || |c.images| > 0 || |c.files| > 0 then
      (Some(ChatRequest(message, c.images, c.files, chatId, now)), Composer("", [], []))
    else (None, c)
  }

  /** A message that is only whitespace is never sent on its own, and what
      is sent has no surrounding whitespace. */
  lemma {:induction false} SentMessageIsTrimmed(c: Composer, chatId: string, now: string)
    requires Send(c, chatId, now).0.Some?
    ensures var m := Send(c, chatId, now).0.value.message;
            m == [] || (!IsWhitespace(m[0]) && !IsWhitespace(m[|m| - 1]))
    ensures Send(c, chatId, now).0.value.message == [] ==> c.images != [] || c.files != []
  {
  }
}

=== FILE: html.dfy ===
/** The two HTML escapers of the webviews: `escapeHtml` in
    webview/chatbox/chatbox.js replaces `&`, `<`, `>`, `"` and `'`;
    `escapeHtml` in webview/settings/settings.js replaces only `&`, `<` and
    `>`, and maps a missing value to "". Both are chains of global
    one-character replacements with `&` first; each is proved equal to
    escaping character by character, and `Unescape` undoes both. */
module Html {
  import opened Text

  /** The characters the chat view escapes. */
  predicate IsSpecial(c: char) {
    c == '&' || c == '<' || c == '>' || c == '"' || c == '\''
  }

  /** The characters the settings view escapes. */
  predicate IsMarkup(c: char) {
    c == '&' || c == '<' || c == '>'
  }

  /** The entity a special character is written as. */
  function Entity(c: char): (e: string)
    requires IsSpecial(c)
    ensures |e| >= 4 && e[0] == '&' && e[|e| - 1] == ';'
    ensures forall i :: 0 <= i < |e| ==> !(e[i] in "<>\"'")
  {
    match c
    case '&' => "&amp;"
    case '<' => "&lt;"
    case '>' => "&gt;"
    case '"' => "&quot;"
    case '\'' => "&#039;"
  }

  /** One character escaped; `all` selects the chat view's set. */
  function EscapeChar(c: char, all: bool): (e: string)
    ensures forall i :: 0 <= i < |e| ==> e[i] != '<' && e[i] != '>'
    ensures all ==> forall i :: 0 <= i < |e| ==> e[i] != '"' && e[i] != '\''
  {
    if IsMarkup(c) || (all && IsSpecial(c)) then Entity(c) else [c]
  }

  /** The concatenation of `f` applied to every character of `s`. */
  function MapChars(s: string, f: char -> string): string {
    if s == [] then [] else f(s[0]) + MapChars(s[1..], f)
  }

  /** Escaping one character at a time. */
  function EscapeEach(s: string, all: bool): string {
    MapChars(s, c => EscapeChar(c, all))
  }

  /** The chat view's five replacements, `&` first. */
  function ReplaceChain(s: string): string {
    ReplaceAll(ReplaceAll(ReplaceAll(ReplaceAll(ReplaceAll(s, '&', "&amp;"), '<', "&lt;"), '>', "&gt;"),
                          '"', "&quot;"), '\'', "&#039;")
  }

  /** The settings view's three replacements, `&` first. */
  function BasicReplaceChain(s: string): string {
    ReplaceAll(ReplaceAll(ReplaceAll(s, '&', "&amp;"), '<', "&lt;"), '>', "&gt;")
  }

  /** `escapeHtml` of the chat view: the replacement chain escapes each
      character on its own. */
  function EscapeHtml(s: string): (r: string)
    ensures r == EscapeEach(s, true)
  {
    EscapeHtmlIsPerCharacter(s);
    ReplaceChain(s)
  }

  /** `escapeHtml` of the settings view; "" stands for a missing value too. */
  function EscapeHtmlBasic(s: string): (r: string)
    ensures r == EscapeEach(s, false)
  {
    if s == [] then "" else EscapeHtmlBasicIsPerCharacter(s); BasicReplaceChain(s)
  }

  lemma {:induction false} ReplaceAllAppend(a: string, b: string, c: char, rep: string)
    ensures ReplaceAll(a + b, c, rep) == ReplaceAll(a, c, rep) + ReplaceAll(b, c, rep)
  {
    if a == [] {
      assert a + b == b;
    } else {
      assert (a + b)[1..] == a[1..] + b;
      ReplaceAllAppend(a[1..], b, c, rep);
    }
  }

  lemma {:induction false} ReplaceAllAbsent(s: string, c: char, rep: string)
    requires c !in s
    ensures ReplaceAll(s, c, rep) == s
  {
    if s != [] {
      ReplaceAllAbsent(s[1..], c, rep);
    }
  }

  lemma {:induction false} ReplaceAllSingle(d: char, c: char, rep: string)
    ensures ReplaceAll([d], c, rep) == if d == c then rep else [d]
  {
    assert [d][1..] == [];
  }

  /** A replacement applied to a character-wise concatenation acts on each
      piece. */
  lemma {:induction false} ReplaceAllMap(s: string, f: char -> string, c: char, rep: string)
    ensures ReplaceAll(MapChars(s, f), c, rep) == MapChars(s, d => ReplaceAll(f(d), c, rep))
  {
    if s != [] {
      ReplaceAllAppend(f(s[0]), MapChars(s[1..], f), c, rep);
      ReplaceAllMap(s[1..], f, c, rep);
    }
  }

  lemma {:induction false} MapCharsPointwise(s: string, f: char -> string, g: char -> string)
    requires forall i :: 0 <= i < |s| ==> f(s[i]) == g(s[i])
    ensures MapChars(s, f) == MapChars(s, g)
  {
    if s != [] {
      MapCharsPointwise(s[1..], f, g);
    }
  }

  lemma {:induction false} MapCharsIdentity(s: string)
    ensures MapChars(s, d => [d]) == s
  {
    if s != [] {
      MapCharsIdentity(s[1..]);
      assert s == [s[0]] + s[1..];
    }
  }

  /** Replacing `c` in text that holds no `c` changes nothing. */
  lemma {:induction false} Untouched(e: string, c: char, rep: string)
    requires c !in e
    ensures ReplaceAll(e, c, rep) == e
  {
    ReplaceAllAbsent(e, c, rep);
  }

  /** The chat view's chain on a single character gives its escape: `&`
      goes first, so the later steps never meet an ampersand they wrote. */
  lemma {:induction false} ChainOnCharacter(c: char)
    ensures ReplaceChain([c]) == EscapeChar(c, true)
  {
    ReplaceAllSingle(c, '&', "&amp;");
    if c == '&' {
      ChainAfterAmpersand("&amp;");
    } else {
      ChainOnNonAmpersand(c);
    }
  }

  /** The last four steps leave text with no special character other than
      `&` as it is. */
  lemma {:induction false} ChainAfterAmpersand(t: string)
    requires '<' !in t && '>' !in t && '"' !in t && '\'' !in t
    ensures ReplaceAll(ReplaceAll(ReplaceAll(ReplaceAll(t, '<', "&lt;"), '>', "&gt;"), '"', "&quot;"), '\'', "&#039;") == t
  {
    Untouched(t, '<', "&lt;"); Untouched(t, '>', "&gt;");
    Untouched(t, '"', "&quot;"); Untouched(t, '\'', "&#039;");
  }

  lemma {:induction false} ChainOnNonAmpersand(c: char)
    requires c != '&'
    ensures ReplaceAll(ReplaceAll(ReplaceAll(ReplaceAll([c], '<', "&lt;"), '>', "&gt;"), '"', "&quot;"), '\'', "&#039;")
            == EscapeChar(c, true)
  {
    ReplaceAllSingle(c, '<', "&lt;");
    if c == '<' {
      ChainTailKeeps("&lt;");
    } else {
      ChainOnNonMarkup(c);
    }
  }

  /** The last three steps leave text without `>` and quotes as it is. */
  lemma {:induction false} ChainTailKeeps(t: string)
    requires '>' !in t && '"' !in t && '\'' !in t
    ensures ReplaceAll(ReplaceAll(ReplaceAll(t, '>', "&gt;"), '"', "&quot;"), '\'', "&#039;") == t
  {
    Untouched(t, '>', "&gt;"); Untouched(t, '"', "&quot;"); Untouched(t, '\'', "&#039;");
  }

  lemma {:induction false} ChainOnNonMarkup(c: char)
    requires c != '&' && c != '<'
    ensures ReplaceAll(ReplaceAll(ReplaceAll([c], '>', "&gt;"), '"', "&quot;"), '\'', "&#039;") == EscapeChar(c, true)
  {
    ReplaceAllSingle(c, '>', "&gt;");
    if c == '>' {
      Untouched("&gt;", '"', "&quot;"); Untouched("&gt;", '\'', "&#039;");
    } else {
      ReplaceAllSingle(c, '"', "&quot;");
      if c == '"' {
        Untouched("&quot;", '\'', "&#039;");
      } else {
        ReplaceAllSingle(c, '\'', "&#039;");
      }
    }
  }

  /** The settings view's chain on a single character. */
  lemma {:induction false} BasicChainOnCharacter(c: char)
    ensures BasicReplaceChain([c]) == EscapeChar(c, false)
  {
    ReplaceAllSingle(c, '&', "&amp;");
    if c == '&' {
      Untouched("&amp;", '<', "&lt;"); Untouched("&amp;", '>', "&gt;");
    } else {
      ReplaceAllSingle(c, '<', "&lt;");
      if c == '<' {
        Untouched("&lt;", '>', "&gt;");
      } else {
        ReplaceAllSingle(c, '>', "&gt;");
      }
    }
  }

  /** The chat view's chain escapes each character independently. */
  lemma {:induction false} EscapeHtmlIsPerCharacter(s: string)
    ensures ReplaceChain(s) == EscapeEach(s, true)
  {
    var f0: char -> string := d => [d];
    var f1: char -> string := d => ReplaceAll(f0(d), '&', "&amp;");
    var f2: char -> string := d => ReplaceAll(f1(d), '<', "&lt;");
    var f3: char -> string := d => ReplaceAll(f2(d), '>', "&gt;");
    var f4: char -> string := d => ReplaceAll(f3(d), '"', "&quot;");
    var f5: char -> string := d => ReplaceAll(f4(d), '\'', "&#039;");
    MapCharsIdentity(s);
    assert MapChars(s, f0) == s by { MapCharsPointwise(s, f0, d => [d]); }
    ReplaceAllMap(s, f0, '&', "&amp;");
    ReplaceAllMap(s, f1, '<', "&lt;");
    ReplaceAllMap(s, f2, '>', "&gt;");
    ReplaceAllMap(s, f3, '"', "&quot;");
    ReplaceAllMap(s, f4, '\'', "&#039;");
    forall i | 0 <= i < |s| ensures f5(s[i]) == EscapeChar(s[i], true) {
      ChainOnCharacter(s[i]);
    }
    MapCharsPointwise(s, f5, d => EscapeChar(d, true));
  }

  /** The settings view's chain escapes each character independently. */
  lemma {:induction false} EscapeHtmlBasicIsPerCharacter(s: string)
    ensures BasicReplaceChain(s) == EscapeEach(s, false)
  {
    var f0: char -> string := d => [d];
    var f1: char -> string := d => ReplaceAll(f0(d), '&', "&amp;");
    var f2: char -> string := d => ReplaceAll(f1(d), '<', "&lt;");
    var f3: char -> string := d => ReplaceAll(f2(d), '>', "&gt;");
    MapCharsIdentity(s);
    assert MapChars(s, f0) == s by { MapCharsPointwise(s, f0, d => [d]); }
    ReplaceAllMap(s, f0, '&', "&amp;");
    ReplaceAllMap(s, f1, '<', "&lt;");
    ReplaceAllMap(s, f2, '>', "&gt;");
    forall i | 0 <= i < |s| ensures f3(s[i]) == EscapeChar(s[i], false) {
      BasicChainOnCharacter(s[i]);
    }
    MapCharsPointwise(s, f3, d => EscapeChar(d, false));
  }

  /** Reading entities back: the five entities become their characters,
      everything else is kept. */
  function Unescape(t: string): string
    decreases |t|
  {
    if t == [] then []
    else if StartsWith(t, "&amp;") then "&" + Unescape(t[5..])
    else if StartsWith(t, "&lt;") then "<" + Unescape(t[4..])
    else if StartsWith(t, "&gt;") then ">" + Unescape(t[4..])
    else if StartsWith(t, "&quot;") then "\"" + Unescape(t[6..])
    else if StartsWith(t, "&#039;") then "'" + Unescape(t[6..])
    else [t[0]] + Unescape(t[1..])
  }

  lemma {:induction false} UnescapeEntity(c: char, rest: string)
    requires IsSpecial(c)
    ensures Unescape(Entity(c) + rest) == [c] + Unescape(rest)
  {
    var e := Entity(c);
    var t := e + rest;
    assert t[..|e|] == e && t[|e|..] == rest;
    assert t[1] == e[1];
    if c == '"' || c == '\'' {
      assert t[2] == e[2];
    }
  }

  lemma {:induction false} UnescapePlain(c: char, rest: string)
    requires c != '&'
    ensures Unescape([c] + rest) == [c] + Unescape(rest)
  {
    var t := [c] + rest;
    assert t[0] == c;
    assert !StartsWith(t, "&amp;") && !StartsWith(t, "&lt;") && !StartsWith(t, "&gt;");
    assert !StartsWith(t, "&quot;") && !StartsWith(t, "&#039;");
    assert t[1..] == rest;
  }

  /** Escaping loses nothing: un-escaping gives back the original text. */
  lemma {:induction false} UnescapeEscapeEach(s: string, all: bool)
    ensures Unescape(EscapeEach(s, all)) == s
  {
    if s != [] {
      UnescapeEscapeEach(s[1..], all);
      var c := s[0];
      if IsMarkup(c) || (all && IsSpecial(c)) {
        UnescapeEntity(c, EscapeEach(s[1..], all));
      } else {
        UnescapePlain(c, EscapeEach(s[1..], all));
      }
      assert s == [c] + s[1..];
    }
  }

  /** One of the five entities starts at index `i`. */
  predicate EntityAt(t: string, i: int) {
    OccursAt(t, "&amp;", i) || OccursAt(t, "&lt;", i) || OccursAt(t, "&gt;", i)
    || OccursAt(t, "&quot;", i) || OccursAt(t, "&#039;", i)
  }

  predicate AmpersandsStartEntities(t: string) {
    forall i :: 0 <= i < |t| && t[i] == '&' ==> EntityAt(t, i)
  }

  /** Text that renders literally inside an element or an attribute: no
      `<`, `>` or quote, and every `&` starts one of the five entities. */
  predicate IsEscaped(t: string) {
    && (forall i :: 0 <= i < |t| ==> t[i] != '<' && t[i] != '>' && t[i] != '"' && t[i] != '\'')
    && AmpersandsStartEntities(t)
  }

  lemma {:induction false} OccursAtShift(a: string, b: string, pat: string, j: int)
    requires OccursAt(b, pat, j)
    ensures OccursAt(a + b, pat, j + |a|)
  {
    OccursAtIff(b, pat, j);
    OccursAtIff(a + b, pat, j + |a|);
    assert (a + b)[j + |a|..j + |a| + |pat|] == b[j..j + |pat|];
  }

  lemma {:induction false} OccursAtPrefix(a: string, b: string, pat: string, j: int)
    requires OccursAt(a, pat, j)
    ensures OccursAt(a + b, pat, j)
  {
    OccursAtIff(a, pat, j);
    OccursAtIff(a + b, pat, j);
    assert (a + b)[j..j + |pat|] == a[j..j + |pat|];
  }

  lemma {:induction false} EntityAtShift(a: string, b: string, j: int)
    requires EntityAt(b, j)
    ensures EntityAt(a + b, j + |a|)
  {
    if OccursAt(b, "&amp;", j) { OccursAtShift(a, b, "&amp;", j); }
    else if OccursAt(b, "&lt;", j) { OccursAtShift(a, b, "&lt;", j); }
    else if OccursAt(b, "&gt;", j) { OccursAtShift(a, b, "&gt;", j); }
    else if OccursAt(b, "&quot;", j) { OccursAtShift(a, b, "&quot;", j); }
    else { OccursAtShift(a, b, "&#039;", j); }
  }

  lemma {:induction false} EntityAtPrefix(a: string, b: string, j: int)
    requires EntityAt(a, j)
    ensures EntityAt(a + b, j)
  {
    if OccursAt(a, "&amp;", j) { OccursAtPrefix(a, b, "&amp;", j); }
    else if OccursAt(a, "&lt;", j) { OccursAtPrefix(a, b, "&lt;", j); }
    else if OccursAt(a, "&gt;", j) { OccursAtPrefix(a, b, "&gt;", j); }
    else if OccursAt(a, "&quot;", j) { OccursAtPrefix(a, b, "&quot;", j); }
    else { OccursAtPrefix(a, b, "&#039;", j); }
  }

  /** The only ampersand of an escaped character is the first one of its
      entity. */
  lemma {:induction false} EscapeCharAmpersand(c: char, all: bool, i: int)
    requires 0 <= i < |EscapeChar(c, all)| && EscapeChar(c, all)[i] == '&'
    ensures i == 0 && EntityAt(EscapeChar(c, all), 0)
  {
  }

  /** Every ampersand of escaped text starts an entity. */
  lemma {:induction false} EscapedAmpersands(s: string, all: bool)
    ensures AmpersandsStartEntities(EscapeEach(s, all))
  {
    if s != [] {
      EscapedAmpersands(s[1..], all);
      var e := EscapeChar(s[0], all);
      var rest := EscapeEach(s[1..], all);
      var t := e + rest;
      assert EscapeEach(s, all) == t;
      forall i | 0 <= i < |t| && t[i] == '&' ensures EntityAt(t, i) {
        if i < |e| {
          EscapeCharAmpersand(s[0], all, i);
          EntityAtPrefix(e, rest, 0);
        } else {
          assert rest[i - |e|] == t[i];
          EntityAtShift(e, rest, i - |e|);
        }
      }
    }
  }

  lemma {:induction false} EscapeEachOmits(s: string, all: bool)
    ensures var t := EscapeEach(s, all);
            && (forall i :: 0 <= i < |t| ==> t[i] != '<' && t[i] != '>')
            && (all ==> forall i :: 0 <= i < |t| ==> t[i] != '"' && t[i] != '\'')
  {
    if s != [] {
      EscapeEachOmits(s[1..], all);
      var e := EscapeChar(s[0], all);
      var rest := EscapeEach(s[1..], all);
      assert forall i :: |e| <= i < |e + rest| ==> (e + rest)[i] == rest[i - |e|];
    }
  }

  /** What the chat view's `escapeHtml` promises: none of `<`, `>`, `"`,
      `'` is left, every `&` starts an entity, and un-escaping gives the
      text back. */
  lemma {:induction false} EscapeHtmlFacts(s: string)
    ensures var t := EscapeHtml(s);
            && (forall i :: 0 <= i < |t| ==> t[i] != '<' && t[i] != '>' && t[i] != '"' && t[i] != '\'')
            && AmpersandsStartEntities(t)
            && Unescape(t) == s
  {
    EscapeEachOmits(s, true);
    EscapedAmpersands(s, true);
    UnescapeEscapeEach(s, true);
  }

  /** Number of occurrences of `c` in `s`. */
  lemma {:induction false} CountCharAppend(a: string, b: string, c: char)
    ensures CountChar(a + b, c) == CountChar(a, c) + CountChar(b, c)
  {
    if a == [] {
      assert a + b == b;
    } else {
      assert (a + b)[1..] == a[1..] + b;
      CountCharAppend(a[1..], b, c);
    }
  }

  lemma {:induction false} QuotesKept(s: string, q: char)
    requires q == '"' || q == '\''
    ensures CountChar(EscapeEach(s, false), q) == CountChar(s, q)
  {
    if s != [] {
      QuotesKept(s[1..], q);
      var e := EscapeChar(s[0], false);
      CountCharAppend(e, EscapeEach(s[1..], false), q);
      if IsMarkup(s[0]) {
        assert CountChar(e, q) == 0 by { CountCharAbsent(e, q); }
      } else {
        assert e == [s[0]];
        assert CountChar(e, q) == (if s[0] == q then 1 else 0);
      }
    }
  }

  lemma {:induction false} CountCharAbsent(s: string, c: char)
    requires c !in s
    ensures CountChar(s, c) == 0
  {
    if s != [] {
      CountCharAbsent(s[1..], c);
    }
  }

  /** What the settings view's `escapeHtml` promises: "" for an empty
      value, `<` and `>` escaped, quotes left as they are, and un-escaping
      gives the text back. */
  lemma {:induction false} EscapeHtmlBasicFacts(s: string)
    ensures var t := EscapeHtmlBasic(s);
            && (s == [] ==> t == [])
            && (forall i :: 0 <= i < |t| ==> t[i] != '<' && t[i] != '>')
            && CountChar(t, '"') == CountChar(s, '"')
            && CountChar(t, '\'') == CountChar(s, '\'')
            && Unescape(t) == s
  {
    EscapeEachOmits(s, false);
    QuotesKept(s, '"');
    QuotesKept(s, '\'');
    UnescapeEscapeEach(s, false);
  }
}

=== FILE: image_storage.dfy ===
/** `ImageStorageService` (src/chat/image-storage.ts): recovering the format
    and payload of a pasted image's data URL, naming the stored file, and
    deleting it again. The storage directory is a map from file name to the
    stored payload text; base64 decoding of that payload is not modelled. */
module ImageStorage {
  import opened Text

  const DataUrlPrefix: string := "data:image/"
  const Base64Marker: string := ";base64,"
  const FallbackExt: string := "png"

  /** What `[a-z]+` accepts. */
  predicate IsExtension(ext: string) {
    |ext| > 0 && forall i :: 0 <= i < |ext| ==> InClass(ext[i], LowerLetter)
  }

  /** What `(.+)$` accepts: at least one character, no line terminator. */
  predicate IsPayload(p: string) {
    |p| > 0 && forall i :: 0 <= i < |p| ==> !IsLineTerminator(p[i])
  }

  /** `s` matches `^data:image\/([a-z]+);base64,(.+)$` with these groups. */
  predicate IsDataUrl(s: string, ext: string, payload: string) {
    IsExtension(ext) && IsPayload(payload) && s == DataUrlPrefix + ext + Base64Marker + payload
  }

  /** The two values `saveImage` takes from its argument. */
  datatype Header = Header(ext: string, rawData: string)

  function PayloadOk(p: string): (b: bool)
    ensures b <==> IsPayload(p)
  {
    |p| > 0 && forall i :: 0 <= i < |p| ==> !IsLineTerminator(p[i])
  }

  /** The header parse of `saveImage`: the format and the text after the
      comma when the whole string matches; `png` and the whole string
      otherwise. */
  function ParseDataUrl(s: string): (r: Header)
    ensures forall ext, payload :: IsDataUrl(s, ext, payload) ==> r == Header(ext, payload)
    ensures (forall ext, payload :: !IsDataUrl(s, ext, payload)) ==> r == Header(FallbackExt, s)
  {
    var start := |DataUrlPrefix|;
    if !(DataUrlPrefix <= s) then
      NoMatchWithoutPrefix(s);
      Header(FallbackExt, s)
    else
      var n := Run(s, start, LowerLetter);
      var after := start + n;
      if n > 0 && OccursAt(s, Base64Marker, after) && PayloadOk(s[after + |Base64Marker|..]) then
        AllInIff(s, start, after, LowerLetter);
        MatchIsUnique(s, s[start..after], s[after + |Base64Marker|..]);
        Header(s[start..after], s[after + |Base64Marker|..])
      else
        NoMatchWhenScanFails(s);
        Header(FallbackExt, s)
  }

  lemma {:induction false} NoMatchWithoutPrefix(s: string)
    requires !(DataUrlPrefix <= s)
    ensures forall ext, payload :: !IsDataUrl(s, ext, payload)
  {
  }

  /** A matching string determines both groups. */
  lemma {:induction false} MatchIsUnique(s: string, ext: string, payload: string)
    requires IsDataUrl(s, ext, payload)
    ensures forall e, p :: IsDataUrl(s, e, p) ==> e == ext && p == payload
  {
    forall e, p | IsDataUrl(s, e, p) ensures e == ext && p == payload {
      ExtensionIsLetterRun(s, e, p);
      ExtensionIsLetterRun(s, ext, payload);
    }
  }

  /** In a match, the format is exactly the run of letters after the prefix. */
  lemma {:induction false} ExtensionIsLetterRun(s: string, ext: string, payload: string)
    requires IsDataUrl(s, ext, payload)
    ensures Run(s, |DataUrlPrefix|, LowerLetter) == |ext|
    ensures ext == s[|DataUrlPrefix|..|DataUrlPrefix| + |ext|]
    ensures payload == s[|DataUrlPrefix| + |ext| + |Base64Marker|..]
  {
    var head := DataUrlPrefix + ext + Base64Marker;
    assert s == DataUrlPrefix + ext + (Base64Marker + payload);
    LettersThenStop(DataUrlPrefix, ext, Base64Marker + payload);
    assert s == head + payload;
    assert s[|head|..] == payload;
  }

  /** A run of lower-case letters followed by a non-letter is exactly the
      letter run at that position. */
  lemma {:induction false} LettersThenStop(before: string, ext: string, after: string)
    requires IsExtension(ext)
    requires after != [] && !InClass(after[0], LowerLetter)
    ensures Run(before + ext + after, |before|, LowerLetter) == |ext|
    ensures (before + ext + after)[|before|..|before| + |ext|] == ext
  {
    var s := before + ext + after;
    var start := |before|;
    forall k | 0 <= k < |ext| ensures s[start + k] == ext[k] {
      assert (before + ext)[start + k] == ext[k];
    }
    assert s[start + |ext|] == after[0];
    AllInIff(s, start, start + |ext|, LowerLetter);
    RunIsUnique(s, start, LowerLetter, |ext|);
  }

  lemma {:induction false} NoMatchWhenScanFails(s: string)
    requires DataUrlPrefix <= s
    requires var n := Run(s, |DataUrlPrefix|, LowerLetter);
             !(n > 0 && OccursAt(s, Base64Marker, |DataUrlPrefix| + n)
               && IsPayload(s[|DataUrlPrefix| + n + |Base64Marker|..]))
    ensures forall ext, payload :: !IsDataUrl(s, ext, payload)
  {
    forall ext, payload | IsDataUrl(s, ext, payload) ensures false {
      ExtensionIsLetterRun(s, ext, payload);
      var at := |DataUrlPrefix| + |ext|;
      assert s == (DataUrlPrefix + ext) + Base64Marker + payload;
      assert s[at..at + |Base64Marker|] == Base64Marker;
      OccursAtIff(s, Base64Marker, at);
    }
  }

  /** A data URL with nothing after the comma is not matched: the payload
      group needs at least one character. */
  lemma {:induction false} EmptyPayloadNotMatched(ext: string)
    requires IsExtension(ext)
    ensures forall e, p :: !IsDataUrl(DataUrlPrefix + ext + Base64Marker, e, p)
  {
    var s := DataUrlPrefix + ext + Base64Marker;
    LettersThenStop(DataUrlPrefix, ext, Base64Marker);
    forall e, p | IsDataUrl(s, e, p) ensures false {
      ExtensionIsLetterRun(s, e, p);
    }
  }

  /** `img_<timestamp>_<suffix>.<ext>`, where the suffix is
      `Math.random().toString(36).slice(2, 8)`. The text after the name's
      last dot is the format, whatever the suffix. */
  function ImageFileName(now: nat, suffix: string, ext: string): (r: string)
    ensures StartsWith(r, "img_")
    ensures '.' !in ext ==> AfterLast(r, '.') == ext
  {
    var stem := "img_" + NatToString(now) + "_" + suffix;
    if '.' !in ext then AfterLastOfSuffix(stem, '.', ext); stem + "." + ext else stem + "." + ext
  }

  /** The storage directory: file name to stored payload. */
  type Disk = map<string, string>

  /** The settled `saveImage` promise: the file name, or a rejection when
      the write fails. */
  datatype SaveResult = Saved(fileName: string) | WriteFailed

  /** `saveImage(base64Data)`: writes the payload under a fresh name and
      returns only that name. */
  function SaveImage(disk: Disk, data: string, now: nat, suffix: string, writeOk: bool): (r: (Disk, SaveResult))
    requires forall i :: 0 <= i < |suffix| ==> IsBase36Char(suffix[i])
    ensures !writeOk ==> r == (disk, WriteFailed)
    ensures writeOk ==> r.1.Saved?
    ensures writeOk ==>
              var name := r.1.fileName;
              && StartsWith(name, "img_")
              && AfterLast(name, '.') == ParseDataUrl(data).ext
              && r.0 == disk[name := ParseDataUrl(data).rawData]
  {
    var h := ParseDataUrl(data);
    var name := ImageFileName(now, suffix, h.ext);
    assert '.' !in h.ext by {
      if h.ext != FallbackExt {
        assert IsExtension(h.ext);
      }
    }
    if writeOk then (disk[name := h.rawData], Saved(name)) else (disk, WriteFailed)
  }

  /** `deleteImage(fileName)`: removes the file when the delete succeeds;
      a missing file or a failed delete is swallowed and changes nothing. */
  function DeleteImage(disk: Disk, fileName: string, deleteOk: bool): (r: Disk)
    ensures deleteOk ==> fileName !in r
    ensures !deleteOk || fileName !in disk ==> r == disk
    ensures r.Keys == disk.Keys - {fileName} || r == disk
    ensures forall f :: f in r ==> f in disk && r[f] == disk[f]
  {
    if deleteOk then disk - {fileName} else disk
  }
}

=== FILE: lists.dfy ===
/** The JavaScript array operations the source builds its lists with:
    `map`, `filter`, and `sort`, which is stable. The model lists are sorted in
    plain string order, the prompt list by a numeric order key. */
module Lists {

  /** `s.map(f)`: `f` applied to each element, in order. */
  function Map<A, B>(s: seq<A>, f: A --> B): (r: seq<B>)
    requires forall k :: 0 <= k < |s| ==> f.requires(s[k])
    ensures |r| == |s|
    ensures forall k :: 0 <= k < |s| ==> r[k] == f(s[k])
  {
    if s == [] then [] else [f(s[0])] + Map(s[1..], f)
  }

  /** `s.filter(p)`: the elements satisfying `p`, in their original order,
      each as many times as it occurs in `s`. */
  function Filter<T(!new)>(s: seq<T>, p: T -> bool): (r: seq<T>)
    ensures |r| <= |s|
  {
    if s == [] then []
    else (if p(s[0]) then [s[0]] else []) + Filter(s[1..], p)
  }

  /** `filter` keeps exactly the elements that satisfy `p`. */
  lemma {:induction false} FilterMembers<T(!new)>(s: seq<T>, p: T -> bool)
    ensures forall x :: x in Filter(s, p) <==> x in s && p(x)
  {
    if s != [] {
      FilterMembers(s[1..], p);
      assert s == [s[0]] + s[1..];
    }
  }

  /** `filter` keeps each element it keeps as many times as it occurs. */
  lemma {:induction false} FilterCounts<T(!new)>(s: seq<T>, p: T -> bool)
    ensures forall x :: multiset(Filter(s, p))[x] == if p(x) then multiset(s)[x] else 0
  {
    if s != [] {
      FilterCounts(s[1..], p);
      assert s == [s[0]] + s[1..];
    }
  }

  /** Nothing is kept when no element satisfies `p`. */
  lemma {:induction false} FilterNone<T(!new)>(s: seq<T>, p: T -> bool)
    requires forall x :: x in s ==> !p(x)
    ensures Filter(s, p) == []
  {
    if s != [] {
      assert s[0] in s;
      FilterNone(s[1..], p);
    }
  }

  /** The order the default `sort()` puts strings in: character by
      character, a proper prefix first. */
  predicate StrLe(a: string, b: string) {
    a == [] || (b != [] && (a[0] < b[0] || (a[0] == b[0] && StrLe(a[1..], b[1..]))))
  }

  lemma {:induction false} StrLeTotal(a: string, b: string)
    ensures StrLe(a, b) || StrLe(b, a)
  {
    if a != [] && b != [] && a[0] == b[0] {
      StrLeTotal(a[1..], b[1..]);
    }
  }

  lemma {:induction false} StrLeTransitive(a: string, b: string, c: string)
    requires StrLe(a, b) && StrLe(b, c)
    ensures StrLe(a, c)
  {
    if a != [] && b != [] && c != [] && a[0] == b[0] && b[0] == c[0] {
      StrLeTransitive(a[1..], b[1..], c[1..]);
    }
  }

  /** Only equal strings are ordered both ways, so sorting strings has a
      single possible result. */
  lemma {:induction false} StrLeAntisymmetric(a: string, b: string)
    requires StrLe(a, b) && StrLe(b, a)
    ensures a == b
  {
    if a != [] && b != [] {
      StrLeAntisymmetric(a[1..], b[1..]);
      assert a == [a[0]] + a[1..] && b == [b[0]] + b[1..];
    }
  }

  lemma {:induction false} StrLeIsTotalPreorder()
    ensures TotalPreorder(StrLe)
  {
    forall a, b ensures StrLe(a, b) || StrLe(b, a) {
      StrLeTotal(a, b);
    }
    forall a, b, c | StrLe(a, b) && StrLe(b, c) ensures StrLe(a, c) {
      StrLeTransitive(a, b, c);
    }
  }

  /** Two string orderings of the same elements start with the same
      element. */
  lemma {:induction false} SortedHeadsAgree(a: seq<string>, b: seq<string>)
    requires a != [] && b != []
    requires Sorted(a, StrLe) && Sorted(b, StrLe)
    requires multiset(a) == multiset(b)
    ensures a[0] == b[0]
  {
    assert a[0] in multiset(b) && b[0] in multiset(a);
    var i :| 0 <= i < |b| && b[i] == a[0];
    var j :| 0 <= j < |a| && a[j] == b[0];
    if j > 0 { assert StrLe(a[0], a[j]); } else { StrLeTotal(a[0], a[0]); }
    if i > 0 { assert StrLe(b[0], b[i]); } else { StrLeTotal(b[0], b[0]); }
    StrLeAntisymmetric(a[0], b[0]);
  }

  /** Two string orderings of the same elements are the same list: sorting
      strings has a single possible result. */
  lemma {:induction false} SortedStringsAreUnique(a: seq<string>, b: seq<string>)
    requires Sorted(a, StrLe) && Sorted(b, StrLe)
    requires multiset(a) == multiset(b)
    ensures a == b
    decreases |a|
  {
    if a == [] {
      assert |multiset(b)| == 0;
    } else {
      assert |multiset(b)| == |multiset(a)| > 0;
      SortedHeadsAgree(a, b);
      assert a == [a[0]] + a[1..] && b == [b[0]] + b[1..];
      assert multiset(a) == multiset{a[0]} + multiset(a[1..]);
      assert multiset(b) == multiset{b[0]} + multiset(b[1..]);
      assert multiset(a[1..]) == multiset(a) - multiset{a[0]};
      assert multiset(b[1..]) == multiset(b) - multiset{b[0]};
      SortedStringsAreUnique(a[1..], b[1..]);
    }
  }

  /** `ids.sort()`. */
  function SortStrings(ids: seq<string>): (r: seq<string>)
    ensures multiset(r) == multiset(ids)
    ensures Sorted(r, StrLe)
  {
    StrLeIsTotalPreorder();
    SortBy(ids, StrLe)
  }

  /** `le` is total and transitive, so it orders every pair of elements. */
  ghost predicate TotalPreorder<T(!new)>(le: (T, T) -> bool) {
    && (forall a, b :: le(a, b) || le(b, a))
    && (forall a, b, c :: le(a, b) && le(b, c) ==> le(a, c))
  }

  predicate Sorted<T>(s: seq<T>, le: (T, T) -> bool) {
    forall i, j :: 0 <= i < j < |s| ==> le(s[i], s[j])
  }

  /** Places `x` in front of the first element it is `le` to. Elements
      before it are strictly smaller, so `x` goes before the elements equal
      to it, which keeps the sort stable. */
  function Insert<T>(x: T, s: seq<T>, le: (T, T) -> bool): seq<T> {
    if s == [] || le(x, s[0]) then [x] + s else [s[0]] + Insert(x, s[1..], le)
  }

  lemma {:induction false} InsertCounts<T>(x: T, s: seq<T>, le: (T, T) -> bool)
    ensures multiset(Insert(x, s, le)) == multiset(s) + multiset{x}
  {
    if s == [] || le(x, s[0]) {
      assert Insert(x, s, le) == [x] + s;
    } else {
      var rest := Insert(x, s[1..], le);
      InsertCounts(x, s[1..], le);
      assert s == [s[0]] + s[1..];
      assert Insert(x, s, le) == [s[0]] + rest;
      calc {
        multiset(Insert(x, s, le));
        multiset([s[0]]) + multiset(rest);
        multiset([s[0]]) + multiset(s[1..]) + multiset{x};
        multiset(s) + multiset{x};
      }
    }
  }

  /** Inserting into a sorted list keeps it sorted. */
  lemma {:induction false} InsertSorted<T(!new)>(x: T, s: seq<T>, le: (T, T) -> bool)
    requires TotalPreorder(le)
    requires Sorted(s, le)
    ensures Sorted(Insert(x, s, le), le)
  {
    if s != [] && !le(x, s[0]) {
      var t := Insert(x, s[1..], le);
      InsertSorted(x, s[1..], le);
      InsertCounts(x, s[1..], le);
      assert s == [s[0]] + s[1..];
      forall k | 0 <= k < |t| ensures le(s[0], t[k]) {
        assert t[k] in multiset(t);
        if t[k] in multiset(s[1..]) {
          var m :| 0 <= m < |s[1..]| && s[1..][m] == t[k];
          assert s[m + 1] == t[k];
        }
      }
      assert Insert(x, s, le) == [s[0]] + t;
    }
  }

  /** The elements of `s`, rearranged into `le` order. */
  function SortBy<T(!new)>(s: seq<T>, le: (T, T) -> bool): (r: seq<T>)
    requires TotalPreorder(le)
    ensures multiset(r) == multiset(s)
    ensures |r| == |s|
    ensures Sorted(r, le)
  {
    if s == [] then []
    else
      var rest := SortBy(s[1..], le);
      InsertCounts(s[0], rest, le);
      InsertSorted(s[0], rest, le);
      assert s == [s[0]] + s[1..];
      var r := Insert(s[0], rest, le);
      assert |r| == |multiset(r)| == |multiset(s)| == |s|;
      r
  }

  /** Sorting a list that is already in order changes nothing. */
  lemma {:induction false} SortSortedIsIdentity<T(!new)>(s: seq<T>, le: (T, T) -> bool)
    requires TotalPreorder(le)
    requires Sorted(s, le)
    ensures SortBy(s, le) == s
  {
    if s != [] {
      SortSortedIsIdentity(s[1..], le);
      assert SortBy(s[1..], le) == s[1..];
      if |s| > 1 {
        assert le(s[0], s[1]);
      }
    }
  }

  /** Comparison by an integer key, as `(a, b) => key(a) - key(b)`. */
  function KeyLe<T>(key: T -> int): (T, T) -> bool {
    (a, b) => key(a) <= key(b)
  }

  lemma {:induction false} KeyLeMeans<T>(key: T -> int, a: T, b: T)
    ensures KeyLe(key)(a, b) <==> key(a) <= key(b)
  {
  }

  lemma {:induction false} KeyLeIsTotalPreorder<T(!new)>(key: T -> int)
    ensures TotalPreorder(KeyLe(key))
  {
  }

  /** The elements whose key is `k`. */
  function HasKey<T>(key: T -> int, k: int): T -> bool {
    x => key(x) == k
  }

  lemma {:induction false} FilterAppend<T(!new)>(a: seq<T>, b: seq<T>, p: T -> bool)
    ensures Filter(a + b, p) == Filter(a, p) + Filter(b, p)
  {
    if a != [] {
      var head := if p(a[0]) then [a[0]] else [];
      assert (a + b)[0] == a[0] && (a + b)[1..] == a[1..] + b;
      assert Filter(a + b, p) == head + Filter(a[1..] + b, p);
      FilterAppend(a[1..], b, p);
      assert Filter(a, p) == head + Filter(a[1..], p);
      var x, y := Filter(a[1..], p), Filter(b, p);
      assert head + (x + y) == (head + x) + y;
    } else {
      assert a + b == b;
    }
  }

  lemma {:induction false} FilterSingle<T(!new)>(x: T, p: T -> bool)
    ensures Filter([x], p) == if p(x) then [x] else []
  {
    assert [x][1..] == [];
  }

  /** Inserting `x` puts it in front of every element with its key. */
  lemma {:induction false} FilterInsert<T(!new)>(x: T, t: seq<T>, key: T -> int, k: int)
    requires TotalPreorder(KeyLe(key))
    requires Sorted(t, KeyLe(key))
    ensures Filter(Insert(x, t, KeyLe(key)), HasKey(key, k))
            == (if key(x) == k then [x] else []) + Filter(t, HasKey(key, k))
  {
    if t == [] || KeyLe(key)(x, t[0]) {
      FilterInsertFront(x, t, key, k);
    } else {
      FilterInsert(x, t[1..], key, k);
      FilterInsertBehind(x, t, key, k);
    }
  }

  lemma {:induction false} FilterInsertFront<T(!new)>(x: T, t: seq<T>, key: T -> int, k: int)
    requires TotalPreorder(KeyLe(key))
    requires Sorted(t, KeyLe(key))
    requires t == [] || KeyLe(key)(x, t[0])
    ensures Filter(Insert(x, t, KeyLe(key)), HasKey(key, k))
            == (if key(x) == k then [x] else []) + Filter(t, HasKey(key, k))
  {
    assert Insert(x, t, KeyLe(key)) == [x] + t;
    FilterAppend([x], t, HasKey(key, k));
    FilterSingle(x, HasKey(key, k));
  }

  /** `x` goes behind `t[0]`, whose key is smaller, so `t[0]` is not in the
      filtered list when `x` is. */
  lemma {:induction false} FilterInsertBehind<T(!new)>(x: T, t: seq<T>, key: T -> int, k: int)
    requires TotalPreorder(KeyLe(key))
    requires Sorted(t, KeyLe(key))
    requires t != [] && !KeyLe(key)(x, t[0])
    requires Filter(Insert(x, t[1..], KeyLe(key)), HasKey(key, k))
             == (if key(x) == k then [x] else []) + Filter(t[1..], HasKey(key, k))
    ensures Filter(Insert(x, t, KeyLe(key)), HasKey(key, k))
            == (if key(x) == k then [x] else []) + Filter(t, HasKey(key, k))
  {
    assert Insert(x, t, KeyLe(key)) == [t[0]] + Insert(x, t[1..], KeyLe(key));
    assert t == [t[0]] + t[1..];
    FilterBehind(t[0], Insert(x, t[1..], KeyLe(key)), t[1..], HasKey(key, k), if key(x) == k then [x] else []);
  }

  /** Putting an element the filter drops, or any element when nothing is
      put in front, at the head of two lists keeps their filters related. */
  lemma {:induction false} FilterBehind<T(!new)>(y: T, u: seq<T>, v: seq<T>, p: T -> bool, h: seq<T>)
    requires Filter(u, p) == h + Filter(v, p)
    requires !p(y) || h == []
    ensures Filter([y] + u, p) == h + Filter([y] + v, p)
  {
    FilterAppend([y], u, p);
    FilterAppend([y], v, p);
    FilterSingle(y, p);
  }

  /** Sorting by a key is stable: the elements sharing any one key come
      out in the order they went in. */
  lemma {:induction false} SortIsStable<T(!new)>(s: seq<T>, key: T -> int, k: int)
    requires TotalPreorder(KeyLe(key))
    ensures Filter(SortBy(s, KeyLe(key)), HasKey(key, k)) == Filter(s, HasKey(key, k))
  {
    if s != [] {
      SortIsStable(s[1..], key, k);
      FilterInsert(s[0], SortBy(s[1..], KeyLe(key)), key, k);
      FilterAppend([s[0]], s[1..], HasKey(key, k));
      assert s == [s[0]] + s[1..];
    }
  }
}

=== FILE: settings_manager.dfy ===
/** `SettingsManager` (src/services/settings-manager.ts): the settings record
    kept in the extension's global state, read back overlaid on the
    defaults. The global-state slot is an `Option`: `None` when nothing is
    stored. Stored records may lack any field, so their fields are
    `Option`s; temperatures are carried as numbers and never computed on. */
module SettingsManager {
  import opened Text

  /** One step of a prompt chain as edited in the settings view. */
  datatype PromptDef = PromptDef(id: string, name: string, content: string, isActive: bool, order: int)

  /** Per-provider connection settings. The settings view can store an entry
      with only some fields set, so each field may be absent. */
  datatype ProviderEntry = ProviderEntry(
    apiKey: Option<string>, baseUrl: Option<string>, textModel: Option<string>, imageModel: Option<string>)

  datatype General = General(temperature: real, maxContextMessages: int, systemPrompt: string)

  datatype Models = Models(
    textModel: string, imageModel: string, baseUrl: string, apiKey: string, provider: string,
    providerSettings: map<string, ProviderEntry>)

  datatype AppSettings = AppSettings(general: General, models: Models, prompts: seq<PromptDef>)

  /** Sections as they may sit in storage: any field can be missing. */
  datatype StoredGeneral = StoredGeneral(
    temperature: Option<real>, maxContextMessages: Option<int>, systemPrompt: Option<string>)

  datatype StoredModels = StoredModels(
    textModel: Option<string>, imageModel: Option<string>, baseUrl: Option<string>, apiKey: Option<string>,
    provider: Option<string>, providerSettings: Option<map<string, ProviderEntry>>)

  /** The stored record, or an update: any top-level section can be missing. */
  datatype StoredSettings = StoredSettings(
    general: Option<StoredGeneral>, models: Option<StoredModels>, prompts: Option<seq<PromptDef>>)

  function Entry(apiKey: string, baseUrl: string, textModel: string, imageModel: string): ProviderEntry {
    ProviderEntry(Some(apiKey), Some(baseUrl), Some(textModel), Some(imageModel))
  }

  const DefaultProviderSettings: map<string, ProviderEntry> := map[
    "OpenAI" := Entry("", "https://api.openai.com/v1", "gpt-4o", "gpt-4o"),
    "Gemini" := Entry("", "https://generativelanguage.googleapis.com/v1beta", "gemini-1.5-pro", "gemini-1.5-flash")
  ]

  const Defaults: AppSettings := AppSettings(
    General(0.7, 10, "You are an expert code assistant. Answer coding relevant topics only."),
    Models("gpt-4o", "gpt-4o", "", "", "OpenAI", DefaultProviderSettings),
    [])

  /** The value of a spread field: the stored one when present. */
  function Pick<T>(stored: Option<T>, default: T): (r: T)
    ensures stored.Some? ==> r == stored.value
    ensures stored.None? ==> r == default
  {
    if stored.Some? then stored.value else default
  }

  /** `{ ...DEFAULT_SETTINGS.general, ...stored.general }`. */
  function MergeGeneral(d: General, s: Option<StoredGeneral>): (r: General)
    ensures s.None? ==> r == d
    ensures s.Some? ==>
              && r.temperature == Pick(s.value.temperature, d.temperature)
              && r.maxContextMessages == Pick(s.value.maxContextMessages, d.maxContextMessages)
              && r.systemPrompt == Pick(s.value.systemPrompt, d.systemPrompt)
  {
    match s
    case None => d
    case Some(g) =>
      General(Pick(g.temperature, d.temperature), Pick(g.maxContextMessages, d.maxContextMessages),
              Pick(g.systemPrompt, d.systemPrompt))
  }

  /** `{ ...DEFAULT_SETTINGS.models, ...stored.models }` followed by the
      provider-settings deep merge: default entries first, stored entries
      replacing them whole. */
  function MergeModels(d: Models, s: Option<StoredModels>): (r: Models)
    ensures s.None? ==> r == d
    ensures s.Some? ==>
              && r.textModel == Pick(s.value.textModel, d.textModel)
              && r.imageModel == Pick(s.value.imageModel, d.imageModel)
              && r.baseUrl == Pick(s.value.baseUrl, d.baseUrl)
              && r.apiKey == Pick(s.value.apiKey, d.apiKey)
              && r.provider == Pick(s.value.provider, d.provider)
    ensures r.providerSettings.Keys == d.providerSettings.Keys + StoredProviderKeys(s)
    ensures forall p :: p in r.providerSettings && p !in StoredProviderKeys(s) ==>
              r.providerSettings[p] == d.providerSettings[p]
    ensures forall p :: p in StoredProviderKeys(s) ==>
              r.providerSettings[p] == s.value.providerSettings.value[p]
  {
    var spread := match s
      case None => d
      case Some(m) =>
        Models(Pick(m.textModel, d.textModel), Pick(m.imageModel, d.imageModel), Pick(m.baseUrl, d.baseUrl),
               Pick(m.apiKey, d.apiKey), Pick(m.provider, d.provider),
               Pick(m.providerSettings, d.providerSettings));
    spread.(providerSettings := d.providerSettings + spread.providerSettings)
  }

  /** The provider names a stored models section carries entries for. */
  function StoredProviderKeys(s: Option<StoredModels>): set<string> {
    if s.Some? && s.value.providerSettings.Some? then s.value.providerSettings.value.Keys else {}
  }

  /** `getSettings()`. */
  function GetSettings(state: Option<StoredSettings>): (r: AppSettings)
    ensures state.None? ==> r == Defaults
    ensures state.Some? ==>
              && r.general == MergeGeneral(Defaults.general, state.value.general)
              && r.models == MergeModels(Defaults.models, state.value.models)
              && r.prompts == Pick(state.value.prompts, [])
    ensures "OpenAI" in r.models.providerSettings && "Gemini" in r.models.providerSettings
  {
    match state
    case None => Defaults
    case Some(s) =>
      AppSettings(MergeGeneral(Defaults.general, s.general), MergeModels(Defaults.models, s.models),
                  Pick(s.prompts, []))
  }

  /** A complete settings record written back as a stored one. */
  function Store(a: AppSettings): StoredSettings {
    StoredSettings(
      Some(StoredGeneral(Some(a.general.temperature), Some(a.general.maxContextMessages), Some(a.general.systemPrompt))),
      Some(StoredModels(Some(a.models.textModel), Some(a.models.imageModel), Some(a.models.baseUrl),
                        Some(a.models.apiKey), Some(a.models.provider), Some(a.models.providerSettings))),
      Some(a.prompts))
  }

  /** `updateSettings(newSettings)`: the current merged settings with the
      supplied top-level sections laid over them whole. */
  function UpdateSettings(state: Option<StoredSettings>, update: StoredSettings): (r: Option<StoredSettings>)
    ensures r.Some?
    ensures update.general.Some? ==> r.value.general == update.general
    ensures update.models.Some? ==> r.value.models == update.models
    ensures update.prompts.Some? ==> r.value.prompts == update.prompts
    ensures update.general.None? ==> r.value.general == Store(GetSettings(state)).general
    ensures update.models.None? ==> r.value.models == Store(GetSettings(state)).models
    ensures update.prompts.None? ==> r.value.prompts == Some(GetSettings(state).prompts)
  {
    var current := Store(GetSettings(state));
    Some(StoredSettings(
      if update.general.Some? then update.general else current.general,
      if update.models.Some? then update.models else current.models,
      if update.prompts.Some? then update.prompts else current.prompts))
  }

  /** `resetSettings()`: the stored record is removed. */
  function ResetSettings(state: Option<StoredSettings>): (r: Option<StoredSettings>)
    ensures GetSettings(r) == Defaults
  {
    None
  }

  /** Reading the settings back after writing a merged result gives that
      result again: `getSettings` is a fixed point on its own output. */
  lemma {:induction false} GetSettingsIdempotent(state: Option<StoredSettings>)
    ensures GetSettings(Some(Store(GetSettings(state)))) == GetSettings(state)
  {
    var a := GetSettings(state);
    assert Defaults.models.providerSettings + a.models.providerSettings == a.models.providerSettings;
  }

  /** An update that supplies no section leaves the observed settings as
      they were. */
  lemma {:induction false} EmptyUpdateKeepsSettings(state: Option<StoredSettings>)
    ensures GetSettings(UpdateSettings(state, StoredSettings(None, None, None))) == GetSettings(state)
  {
    GetSettingsIdempotent(state);
  }

  /** After an update, each supplied section is read back merged with the
      defaults, and each section not supplied is read back unchanged. */
  lemma {:induction false} UpdateThenGet(state: Option<StoredSettings>, update: StoredSettings)
    ensures var before := GetSettings(state);
            var after := GetSettings(UpdateSettings(state, update));
            && after.general == (if update.general.Some? then MergeGeneral(Defaults.general, update.general) else before.general)
            && after.models == (if update.models.Some? then MergeModels(Defaults.models, update.models) else before.models)
            && after.prompts == (if update.prompts.Some? then update.prompts.value else before.prompts)
  {
    var before := GetSettings(state);
    assert Defaults.models.providerSettings + before.models.providerSettings == before.models.providerSettings;
  }
}

=== FILE: settings_view.dfy ===
/** The model-list request of the settings panel (src/settings/settings-view.ts,
    `handleFetchModels`) and the nonce generator. The HTTP request is a
    function parameter from the request URL to its outcome; the random
    numbers are parameters too. */
module SettingsView {
  import opened Text
  import opened Lists

  const OpenAiEndpoint: string := "https://api.openai.com/v1"
  const GeminiEndpoint: string := "https://generativelanguage.googleapis.com/v1beta"

  predicate AllSlashes(s: string) {
    forall i :: 0 <= i < |s| ==> s[i] == '/'
  }

  /** `s.replace(/\/+$/, '')`: every trailing slash removed. */
  function StripTrailingSlashes(s: string): (r: string)
    ensures r == [] || r[|r| - 1] != '/'
    ensures StartsWith(s, r) && AllSlashes(s[|r|..])
    decreases |s|
  {
    if s != [] && s[|s| - 1] == '/' then StripTrailingSlashes(s[..|s| - 1]) else s
  }

  /** The stripped string is the only way of writing `s` as a string that
      does not end in a slash followed by slashes only. */
  lemma {:induction false} StripIsUnique(t: string, slashes: string)
    requires t == [] || t[|t| - 1] != '/'
    requires AllSlashes(slashes)
    ensures StripTrailingSlashes(t + slashes) == t
    decreases |slashes|
  {
    if slashes != [] {
      var s := t + slashes;
      assert s[|s| - 1] == '/';
      assert s[..|s| - 1] == t + slashes[..|slashes| - 1];
      StripIsUnique(t, slashes[..|slashes| - 1]);
    } else {
      assert t + slashes == t;
    }
  }

  lemma {:induction false} StripIdempotent(s: string)
    ensures StripTrailingSlashes(StripTrailingSlashes(s)) == StripTrailingSlashes(s)
  {
    StripIsUnique(StripTrailingSlashes(s), []);
  }

  /** `(baseUrl || default).replace(/\/+$/, '')`. */
  function Endpoint(baseUrl: string, default: string): (r: string)
    ensures r == [] || r[|r| - 1] != '/'
    ensures baseUrl != [] ==> StartsWith(baseUrl, r)
    ensures baseUrl == [] ==> StartsWith(default, r)
  {
    StripTrailingSlashes(if baseUrl != [] then baseUrl else default)
  }

  /** The URL the model list is requested from; `None` for a provider the
      panel does not know, which is never asked. */
  function ModelsUrl(provider: string, apiKey: string, baseUrl: string): (r: Option<string>)
    ensures r.Some? <==> provider == "OpenAI" || provider == "Gemini"
    ensures provider == "OpenAI" ==> r == Some(Endpoint(baseUrl, OpenAiEndpoint) + "/models")
    ensures provider == "Gemini" ==> r == Some(Endpoint(baseUrl, GeminiEndpoint) + "/models?key=" + apiKey)
  {
    if provider == "OpenAI" then Some(Endpoint(baseUrl, OpenAiEndpoint) + "/models")
    else if provider == "Gemini" then Some(Endpoint(baseUrl, GeminiEndpoint) + "/models?key=" + apiKey)
    else None
  }

  /** A request URL never holds a doubled slash before `models`, whatever
      number of slashes the base URL ends in. */
  lemma {:induction false} UrlIgnoresTrailingSlashes(provider: string, apiKey: string, baseUrl: string, slashes: string)
    requires provider == "OpenAI" || provider == "Gemini"
    requires baseUrl != [] && baseUrl[|baseUrl| - 1] != '/'
    requires AllSlashes(slashes)
    ensures ModelsUrl(provider, apiKey, baseUrl + slashes) == ModelsUrl(provider, apiKey, baseUrl)
  {
    StripIsUnique(baseUrl, slashes);
    StripIsUnique(baseUrl, []);
    assert baseUrl + [] == baseUrl;
  }

  /** A Gemini model name with its first `models/` removed. */
  function GeminiId(name: string): (r: string)
    ensures !Contains(name, "models/") ==> r == name
    ensures Contains(name, "models/") ==> |r| + 7 == |name|
  {
    ReplaceFirst(name, "models/", "")
  }

  lemma {:induction false} GeminiIdOfPrefixed(id: string)
    requires !Contains(id, "models/")
    ensures GeminiId("models/" + id) == id
  {
    var s := "models/" + id;
    assert OccursAt(s, "models/", 0);
  }

  predicate HasAllowedPrefix(id: string) {
    StartsWith(id, "gpt-3.5") || StartsWith(id, "gpt-4") || StartsWith(id, "gpt-5")
  }

  predicate OpenAiImageModel(id: string) {
    && HasAllowedPrefix(id)
    && (Contains(id, "gpt-4o") || Contains(id, "gpt-4-turbo") || Contains(id, "vision") || Contains(id, "gpt-5"))
  }

  predicate OpenAiTextModel(id: string) {
    HasAllowedPrefix(id) && !Contains(id, "vision") && !Contains(id, "audio")
  }

  /** `id.toLowerCase().includes('embedding')`. */
  predicate GeminiExcluded(id: string) {
    Contains(ToLowerAscii(id), "embedding")
  }

  predicate GeminiImageModel(id: string) {
    !GeminiExcluded(id) && Contains(id, "gemini") && (Contains(id, "1.5") || Contains(id, "vision"))
  }

  predicate GeminiTextModel(id: string) {
    !GeminiExcluded(id) && Contains(id, "gemini")
  }

  /** The two lists posted to the panel. */
  datatype ModelLists = ModelLists(text: seq<string>, image: seq<string>)

  /** Whether a fetched id goes in the text list of `provider`. */
  predicate KeepText(provider: string, id: string) {
    if provider == "OpenAI" then OpenAiTextModel(id)
    else if provider == "Gemini" then GeminiTextModel(id)
    else true
  }

  /** Whether a fetched id goes in the image list of `provider`. */
  predicate KeepImage(provider: string, id: string) {
    if provider == "OpenAI" then OpenAiImageModel(id)
    else if provider == "Gemini" then GeminiImageModel(id)
    else true
  }

  /** The filter and sort step: each list holds exactly the fetched ids
      the provider's rule keeps, as often as they were fetched, in string
      order. An unknown provider keeps every id in both lists. */
  function FilterModels(provider: string, ids: seq<string>): (r: ModelLists)
    ensures Sorted(r.text, StrLe) && Sorted(r.image, StrLe)
    ensures forall id :: multiset(r.text)[id] == if KeepText(provider, id) then multiset(ids)[id] else 0
    ensures forall id :: multiset(r.image)[id] == if KeepImage(provider, id) then multiset(ids)[id] else 0
  {
    var keepText := id => KeepText(provider, id);
    var keepImage := id => KeepImage(provider, id);
    FilterCounts(ids, keepText);
    FilterCounts(ids, keepImage);
    ModelLists(SortStrings(Filter(ids, keepText)), SortStrings(Filter(ids, keepImage)))
  }

  /** Every listed id satisfies the rule of its list. */
  lemma {:induction false} ListedIdsAreKept(provider: string, ids: seq<string>)
    ensures var r := FilterModels(provider, ids);
            && (forall id :: id in r.text ==> KeepText(provider, id) && id in ids)
            && (forall id :: id in r.image ==> KeepImage(provider, id) && id in ids)
  {
    var r := FilterModels(provider, ids);
    forall id | id in r.text ensures KeepText(provider, id) && id in ids {
      assert multiset(r.text)[id] > 0;
    }
    forall id | id in r.image ensures KeepImage(provider, id) && id in ids {
      assert multiset(r.image)[id] > 0;
    }
  }

  /** For OpenAI, text models have an allowed prefix and mention neither
      vision nor audio; image models have an allowed prefix and a vision
      marker. */
  lemma {:induction false} OpenAiRules(ids: seq<string>)
    ensures var r := FilterModels("OpenAI", ids);
            && (forall id :: id in r.text ==>
                  HasAllowedPrefix(id) && !Contains(id, "vision") && !Contains(id, "audio"))
            && (forall id :: id in r.image ==>
                  && HasAllowedPrefix(id)
                  && (Contains(id, "gpt-4o") || Contains(id, "gpt-4-turbo") || Contains(id, "vision")
                      || Contains(id, "gpt-5")))
  {
    ListedIdsAreKept("OpenAI", ids);
  }

  /** For Gemini, no listed id mentions embeddings in any letter case, and
      every image model is also a text model. */
  lemma {:induction false} GeminiRules(ids: seq<string>)
    ensures var r := FilterModels("Gemini", ids);
            && (forall id :: id in r.text + r.image ==> !Contains(ToLowerAscii(id), "embedding"))
            && multiset(r.image) <= multiset(r.text)
  {
    ListedIdsAreKept("Gemini", ids);
    var r := FilterModels("Gemini", ids);
    assert forall id :: multiset(r.image)[id] <= multiset(r.text)[id];
  }

  /** Any other provider gets every fetched id, sorted, in both lists. */
  lemma {:induction false} UnknownProviderKeepsAll(provider: string, ids: seq<string>)
    requires provider != "OpenAI" && provider != "Gemini"
    ensures var r := FilterModels(provider, ids);
            && multiset(r.text) == multiset(ids)
            && r.text == r.image
  {
    var r := FilterModels(provider, ids);
    assert multiset(r.text) == multiset(ids);
    assert multiset(r.image) == multiset(ids);
    SortedStringsAreUnique(r.text, r.image);
  }

  /** What the HTTP request gives: a failure (the request throws, the
      status is not OK, or the body is not JSON), or the body's list of
      model entries (`None` when the body has no such array). */
  datatype Response = RequestFailed | Listed(names: Option<seq<string>>)

  /** What the panel is told: the two lists, a "no models" warning, or a
      "failed to fetch" error. */
  datatype FetchOutcome = Posted(lists: ModelLists) | NoModels | FetchFailed

  /** The ids read from a successful response: OpenAI ids as given, Gemini
      names without their `models/` prefix. */
  function FetchedIds(provider: string, names: seq<string>): (r: seq<string>)
    ensures |r| == |names|
    ensures provider != "Gemini" ==> r == names
    ensures provider == "Gemini" ==> forall k :: 0 <= k < |r| ==> r[k] == GeminiId(names[k])
  {
    if provider == "Gemini" then seq(|names|, k requires 0 <= k < |names| => GeminiId(names[k])) else names
  }

  /** `handleFetchModels`: only OpenAI and Gemini are asked; for any other
      provider the id list stays empty and only the warning is shown. */
  function HandleFetchModels(provider: string, apiKey: string, baseUrl: string, fetch: string -> Response)
    : (r: FetchOutcome)
    ensures ModelsUrl(provider, apiKey, baseUrl).None? ==> r == NoModels
    ensures ModelsUrl(provider, apiKey, baseUrl).Some? ==>
              var url := ModelsUrl(provider, apiKey, baseUrl).value;
              match fetch(url)
              case RequestFailed => r == FetchFailed
              case Listed(None) => r == NoModels
              case Listed(Some(names)) =>
                && (names == [] ==> r == NoModels)
                && (names != [] ==> r == Posted(FilterModels(provider, FetchedIds(provider, names))))
    ensures r.Posted? ==> provider == "OpenAI" || provider == "Gemini"
  {
    match ModelsUrl(provider, apiKey, baseUrl)
    case None => NoModels
    case Some(url) =>
      match fetch(url)
      case RequestFailed => FetchFailed
      case Listed(None) => NoModels
      case Listed(Some(names)) =>
        var ids := FetchedIds(provider, names);
        if ids == [] then NoModels else Posted(FilterModels(provider, ids))
  }

  /** The `k`-th character of `possible`: `A`-`Z`, then `a`-`z`, then
      `0`-`9`. */
  function AlphabetChar(k: int): (c: char)
    requires 0 <= k < 62
    ensures IsAsciiAlphanumeric(c)
  {
    if k < 26 then ('A' as int + k) as char
    else if k < 52 then ('a' as int + k - 26) as char
    else ('0' as int + k - 52) as char
  }

  const NonceAlphabet: string := seq(62, AlphabetChar)

  const NonceLength: nat := 32

  predicate IsAsciiAlphanumeric(c: char) {
    ('A' <= c <= 'Z') || ('a' <= c <= 'z') || IsDigit(c)
  }

  /** `Math.floor(draw * possible.length)` for a draw in `[0, 1)`. */
  function DrawIndex(draw: real): (k: int)
    requires 0.0 <= draw < 1.0
    ensures 0 <= k < 62
    ensures k as real <= draw * 62.0 < k as real + 1.0
  {
    (draw * 62.0).Floor
  }

  /** `possible.charAt(Math.floor(Math.random() * possible.length))`. */
  function NonceChar(draw: real): (c: char)
    requires 0.0 <= draw < 1.0
    ensures IsAsciiAlphanumeric(c)
  {
    AlphabetChar(DrawIndex(draw))
  }

  lemma {:induction false} NonceCharIsAlphabetChar(draw: real)
    requires 0.0 <= draw < 1.0
    ensures NonceChar(draw) == NonceAlphabet[DrawIndex(draw)]
  {
  }

  /** `getNonce()`: 32 characters of `possible`, one per random draw. */
  method GetNonce(draws: seq<real>) returns (text: string)
    requires |draws| == NonceLength
    requires forall i :: 0 <= i < |draws| ==> 0.0 <= draws[i] < 1.0
    ensures |text| == NonceLength
    ensures forall i :: 0 <= i < |text| ==> IsAsciiAlphanumeric(text[i])
    ensures forall i :: 0 <= i < |text| ==> text[i] == NonceAlphabet[DrawIndex(draws[i])]
  {
    text := "";
    var i := 0;
    while i < NonceLength
      invariant 0 <= i <= NonceLength
      invariant |text| == i
      invariant forall k :: 0 <= k < i ==> IsAsciiAlphanumeric(text[k])
      invariant forall k :: 0 <= k < i ==> text[k] == NonceAlphabet[DrawIndex(draws[k])]
    {
      NonceCharIsAlphabetChar(draws[i]);
      text := text + [NonceChar(draws[i])];
      i := i + 1;
    }
  }

  /** `possible` holds exactly the ASCII letters and digits. */
  lemma {:induction false} NonceAlphabetIsAlphanumeric()
    ensures forall c :: c in NonceAlphabet <==> IsAsciiAlphanumeric(c)
  {
    forall c | IsAsciiAlphanumeric(c) ensures c in NonceAlphabet {
      var k := if 'A' <= c <= 'Z' then c as int - 'A' as int
               else if 'a' <= c <= 'z' then c as int - 'a' as int + 26
               else c as int - '0' as int + 52;
      assert NonceAlphabet[k] == c;
    }
  }

  /** Every character of the alphabet can occur: draw `k / 62` picks the
      `k`-th one. */
  lemma {:induction false} NonceCharReachesAll(k: nat)
    requires k < 62
    ensures NonceChar(k as real / 62.0) == NonceAlphabet[k]
  {
    assert DrawIndex(k as real / 62.0) == k;
  }
}

=== FILE: settings_webview.dfy ===
/** The settings panel's own script (webview/settings/settings.js): the
    prompt-chain list the user edits, the model dropdowns, and the
    provider switch that reloads a provider's saved connection settings.
    The DOM is reduced to the values the script reads and writes: the
    input fields' texts, the dropdowns' option lists, and the rows the
    prompt list renders. */
module SettingsWebview {
  import opened Text
  import opened SettingsManager
  import Lists
  import Html

  /* ---------------------------------------------------------------
     The prompt list
     --------------------------------------------------------------- */

  const NewPromptName: string := "New Agent"
  const NewPromptContent: string := "You are a helpful assistant."

  /** The order keys are 1, 2, ..., n in list position. */
  predicate Numbered(ps: seq<PromptDef>) {
    forall i :: 0 <= i < |ps| ==> ps[i].order == i + 1
  }

  /** `a` and `b` are the same prompt, whatever their order keys. */
  predicate SamePrompt(a: PromptDef, b: PromptDef) {
    a.id == b.id && a.name == b.name && a.content == b.content && a.isActive == b.isActive
  }

  /** The prompts with their order keys blanked out. */
  function Unordered(ps: seq<PromptDef>): (r: seq<PromptDef>)
    ensures |r| == |ps|
    ensures forall i :: 0 <= i < |ps| ==> r[i].order == 0 && SamePrompt(r[i], ps[i])
  {
    seq(|ps|, i requires 0 <= i < |ps| => ps[i].(order := 0))
  }

  /** `prompts.forEach((p, i) => p.order = i + 1)`. */
  function Renumber(ps: seq<PromptDef>): (r: seq<PromptDef>)
    ensures Numbered(r)
    ensures Unordered(r) == Unordered(ps)
  {
    seq(|ps|, i requires 0 <= i < |ps| => ps[i].(order := i + 1))
  }

  /** The add-prompt button: one new active prompt at the end, its id the
      decimal form of the current time in milliseconds, its order key one
      past the list's length. */
  function AddPrompt(ps: seq<PromptDef>, now: nat): (r: seq<PromptDef>)
    ensures |r| == |ps| + 1 && r[..|ps|] == ps
    ensures var p := r[|ps|];
            && p.id == NatToString(now) && p.name == NewPromptName && p.content == NewPromptContent
            && p.isActive && p.order == |ps| + 1
  {
    ps + [PromptDef(NatToString(now), NewPromptName, NewPromptContent, true, |ps| + 1)]
  }

  /** Exchanges the elements at `i` and `j`. */
  function Swap<T>(s: seq<T>, i: nat, j: nat): (r: seq<T>)
    requires i < |s| && j < |s|
    ensures |r| == |s| && r[i] == s[j] && r[j] == s[i]
    ensures forall k :: 0 <= k < |s| && k != i && k != j ==> r[k] == s[k]
    ensures multiset(r) == multiset(s)
  {
    s[i := s[j]][j := s[i]]
  }

  /** The move-up button of the row at `index` (a row of the list as last
      rendered, so `index` is in range). At the top it does nothing;
      elsewhere the prompt changes places with the one above and the whole
      list is renumbered. */
  function MoveUp(ps: seq<PromptDef>, index: nat): (r: seq<PromptDef>)
    requires index < |ps|
    ensures index == 0 ==> r == ps
    ensures index > 0 ==>
              && Numbered(r)
              && |r| == |ps|
              && SamePrompt(r[index - 1], ps[index]) && SamePrompt(r[index], ps[index - 1])
              && (forall k :: 0 <= k < |ps| && k != index - 1 && k != index ==> SamePrompt(r[k], ps[k]))
  {
    if index > 0 then Renumber(Swap(ps, index - 1, index)) else ps
  }

  /** The move-down button: the mirror image of `MoveUp`. */
  function MoveDown(ps: seq<PromptDef>, index: nat): (r: seq<PromptDef>)
    requires index < |ps|
    ensures index == |ps| - 1 ==> r == ps
    ensures index < |ps| - 1 ==>
              && Numbered(r)
              && |r| == |ps|
              && SamePrompt(r[index + 1], ps[index]) && SamePrompt(r[index], ps[index + 1])
              && (forall k :: 0 <= k < |ps| && k != index && k != index + 1 ==> SamePrompt(r[k], ps[k]))
  {
    if index < |ps| - 1 then Renumber(Swap(ps, index, index + 1)) else ps
  }

  /** A move keeps the same prompts, only rearranged. */
  lemma {:induction false} MoveIsPermutation(ps: seq<PromptDef>, index: nat)
    requires index < |ps|
    ensures multiset(Unordered(MoveUp(ps, index))) == multiset(Unordered(ps))
    ensures multiset(Unordered(MoveDown(ps, index))) == multiset(Unordered(ps))
  {
    if index > 0 {
      UnorderedSwap(ps, index - 1, index);
    }
    if index < |ps| - 1 {
      UnorderedSwap(ps, index, index + 1);
    }
  }

  lemma {:induction false} UnorderedSwap(ps: seq<PromptDef>, i: nat, j: nat)
    requires i < |ps| && j < |ps|
    ensures Unordered(Swap(ps, i, j)) == Swap(Unordered(ps), i, j)
  {
  }

  /** Moving a prompt down and then up again from its new row puts every
      prompt back where it was. */
  lemma {:induction false} MoveDownThenUp(ps: seq<PromptDef>, index: nat)
    requires index + 1 < |ps|
    ensures MoveUp(MoveDown(ps, index), index + 1) == Renumber(ps)
  {
    var d := MoveDown(ps, index);
    var u := MoveUp(d, index + 1);
    assert forall k :: 0 <= k < |ps| ==> SamePrompt(u[k], ps[k]);
    assert forall k :: 0 <= k < |ps| ==> u[k] == Renumber(ps)[k];
  }

  /** The prompt whose id is not `id`. */
  function KeepOthers(id: string): PromptDef -> bool {
    (p: PromptDef) => p.id != id
  }

  /** The delete button of a prompt: every prompt with that id goes, the
      rest keep their relative order and are renumbered. */
  function DeletePrompt(ps: seq<PromptDef>, id: string): (r: seq<PromptDef>)
    ensures Numbered(r)
    ensures Unordered(r) == Lists.Filter(Unordered(ps), KeepOthers(id))
    ensures forall k :: 0 <= k < |r| ==> r[k].id != id
  {
    var kept := Lists.Filter(ps, KeepOthers(id));
    UnorderedFilter(ps, id);
    var r := Renumber(kept);
    Lists.FilterMembers(Unordered(ps), KeepOthers(id));
    forall k | 0 <= k < |r| ensures r[k].id != id {
      assert Unordered(r)[k] in Unordered(ps) && KeepOthers(id)(Unordered(r)[k]);
    }
    r
  }

  /** Blanking the order keys does not change which prompts an id filter
      keeps. */
  lemma {:induction false} UnorderedFilter(ps: seq<PromptDef>, id: string)
    ensures Unordered(Lists.Filter(ps, KeepOthers(id))) == Lists.Filter(Unordered(ps), KeepOthers(id))
  {
    var p := KeepOthers(id);
    if ps != [] {
      UnorderedFilter(ps[1..], id);
      assert Unordered(ps)[1..] == Unordered(ps[1..]);
      var head := if p(ps[0]) then [ps[0]] else [];
      assert Lists.Filter(ps, p) == head + Lists.Filter(ps[1..], p);
      UnorderedAppend(head, Lists.Filter(ps[1..], p));
    }
  }

  lemma {:induction false} UnorderedAppend(a: seq<PromptDef>, b: seq<PromptDef>)
    ensures Unordered(a + b) == Unordered(a) + Unordered(b)
  {
  }

  /** Deleting the prompt just added, when no other prompt shares its id,
      leaves the list as it was, renumbered. */
  lemma {:induction false} DeleteUndoesAdd(ps: seq<PromptDef>, now: nat)
    requires forall k :: 0 <= k < |ps| ==> ps[k].id != NatToString(now)
    ensures DeletePrompt(AddPrompt(ps, now), NatToString(now)) == Renumber(ps)
  {
    var added := AddPrompt(ps, now);
    var p := KeepOthers(NatToString(now));
    assert added == ps + [added[|ps|]];
    Lists.FilterAppend(ps, [added[|ps|]], p);
    Lists.FilterSingle(added[|ps|], p);
    FilterKeepsAll(ps, p);
    assert Lists.Filter(added, p) == ps;
  }

  lemma {:induction false} FilterKeepsAll(ps: seq<PromptDef>, p: PromptDef -> bool)
    requires forall k :: 0 <= k < |ps| ==> p(ps[k])
    ensures Lists.Filter(ps, p) == ps
  {
    if ps != [] {
      FilterKeepsAll(ps[1..], p);
      assert ps == [ps[0]] + ps[1..];
    }
  }

  /** The order key, the sort key of the rendered list. */
  function OrderOf(p: PromptDef): int {
    p.order
  }

  /** `prompts.sort((a, b) => a.order - b.order)`: the same prompts in
      ascending order of key, those with equal keys in their old order. */
  function SortByOrder(ps: seq<PromptDef>): (r: seq<PromptDef>)
    ensures multiset(r) == multiset(ps)
    ensures forall i, j :: 0 <= i < j < |r| ==> r[i].order <= r[j].order
    ensures forall k :: Lists.Filter(r, Lists.HasKey(OrderOf, k)) == Lists.Filter(ps, Lists.HasKey(OrderOf, k))
  {
    Lists.KeyLeIsTotalPreorder(OrderOf);
    var r := Lists.SortBy(ps, Lists.KeyLe(OrderOf));
    forall k ensures Lists.Filter(r, Lists.HasKey(OrderOf, k)) == Lists.Filter(ps, Lists.HasKey(OrderOf, k)) {
      Lists.SortIsStable(ps, OrderOf, k);
    }
    forall i, j | 0 <= i < j < |r| ensures r[i].order <= r[j].order {
      Lists.KeyLeMeans(OrderOf, r[i], r[j]);
    }
    r
  }

  /** A renumbered list is already in order, so rendering it does not
      move any prompt. */
  lemma {:induction false} SortKeepsNumberedList(ps: seq<PromptDef>)
    requires Numbered(ps)
    ensures SortByOrder(ps) == ps
  {
    Lists.KeyLeIsTotalPreorder(OrderOf);
    forall i, j | 0 <= i < j < |ps| ensures Lists.KeyLe(OrderOf)(ps[i], ps[j]) {
      Lists.KeyLeMeans(OrderOf, ps[i], ps[j]);
    }
    Lists.SortSortedIsIdentity(ps, Lists.KeyLe(OrderOf));
  }

  /** Each edit leaves a numbered list numbered, so the render after it
      shows the prompts in exactly the order the edit produced. */
  lemma {:induction false} EditsKeepRenderOrder(ps: seq<PromptDef>, index: nat, id: string, now: nat)
    requires Numbered(ps) && index < |ps|
    ensures SortByOrder(AddPrompt(ps, now)) == AddPrompt(ps, now)
    ensures SortByOrder(MoveUp(ps, index)) == MoveUp(ps, index)
    ensures SortByOrder(MoveDown(ps, index)) == MoveDown(ps, index)
    ensures SortByOrder(DeletePrompt(ps, id)) == DeletePrompt(ps, id)
  {
    SortKeepsNumberedList(AddPrompt(ps, now));
    SortKeepsNumberedList(MoveUp(ps, index));
    SortKeepsNumberedList(MoveDown(ps, index));
    SortKeepsNumberedList(DeletePrompt(ps, id));
  }

  /** One rendered prompt row: its 1-based position, the escaped name and
      content, whether its move buttons are disabled, and whether its
      active box is checked. */
  datatype PromptRow = PromptRow(
    position: nat, nameHtml: string, contentHtml: string, upDisabled: bool, downDisabled: bool, checked: bool)

  /** What `renderPrompts` shows: a placeholder, or one row per prompt. */
  datatype PromptView = EmptyState | Rows(rows: seq<PromptRow>)

  /** `renderPrompts()`: the list is sorted in place first (except when it
      is empty), then rendered; the sorted list becomes the state. */
  function RenderPrompts(ps: seq<PromptDef>): (r: (seq<PromptDef>, PromptView))
    ensures ps == [] <==> r.1.EmptyState?
    ensures multiset(r.0) == multiset(ps)
    ensures forall i, j :: 0 <= i < j < |r.0| ==> r.0[i].order <= r.0[j].order
    // the sort is stable: prompts with equal keys keep their relative order
    ensures forall k :: Lists.Filter(r.0, Lists.HasKey(OrderOf, k)) == Lists.Filter(ps, Lists.HasKey(OrderOf, k))
    ensures r.1.Rows? ==>
              && |r.1.rows| == |r.0|
              && forall i :: 0 <= i < |r.0| ==>
                   var row := r.1.rows[i];
                   && row.position == i + 1
                   && '<' !in row.nameHtml && '>' !in row.nameHtml
                   && '<' !in row.contentHtml && '>' !in row.contentHtml
                   && Html.Unescape(row.nameHtml) == r.0[i].name
                   && Html.Unescape(row.contentHtml) == r.0[i].content
                   && (row.upDisabled <==> i == 0)
                   && (row.downDisabled <==> i == |r.0| - 1)
                   && (row.checked <==> r.0[i].isActive)
  {
    if ps == [] then (ps, EmptyState)
    else
      var sorted := SortByOrder(ps);
      var rows := seq(|sorted|, i requires 0 <= i < |sorted| =>
        PromptRow(i + 1, Html.EscapeHtmlBasic(sorted[i].name), Html.EscapeHtmlBasic(sorted[i].content),
                  i == 0, i == |sorted| - 1, sorted[i].isActive));
      forall i | 0 <= i < |sorted|
        ensures '<' !in rows[i].nameHtml && '>' !in rows[i].nameHtml
        ensures '<' !in rows[i].contentHtml && '>' !in rows[i].contentHtml
        ensures Html.Unescape(rows[i].nameHtml) == sorted[i].name
        ensures Html.Unescape(rows[i].contentHtml) == sorted[i].content
      {
        Html.EscapeHtmlBasicFacts(sorted[i].name);
        Html.EscapeHtmlBasicFacts(sorted[i].content);
      }
      (sorted, Rows(rows))
  }

  /* ---------------------------------------------------------------
     The model dropdowns
     --------------------------------------------------------------- */

  /** A JavaScript value that is a string or `undefined`, read as a
      condition: only a present, non-empty string is truthy. */
  predicate Truthy(v: Option<string>) {
    v.Some? && v.value != ""
  }

  /** `v || fallback`. */
  function Or(v: Option<string>, fallback: string): (r: string)
    ensures Truthy(v) ==> r == v.value
    ensures !Truthy(v) ==> r == fallback
  {
    if Truthy(v) then v.value else fallback
  }

  /** The option lists of the two model dropdowns. */
  datatype Dropdowns = Dropdowns(text: seq<string>, image: seq<string>)

  /** `DEFAULT_MODELS[provider] || DEFAULT_MODELS['OpenAI']`. */
  function DefaultModels(provider: string): (r: Dropdowns)
    ensures r.text != [] && r.image != []
    ensures Unique(r.text) && Unique(r.image)
  {
    if provider == "Gemini" then
      Dropdowns(["gemini-1.5-pro", "gemini-1.5-flash", "gemini-1.0-pro"], ["gemini-1.5-flash", "gemini-1.5-pro"])
    else
      Dropdowns(["gpt-4o", "gpt-4-turbo", "gpt-3.5-turbo"], ["gpt-4o-mini", "gpt-4o", "gpt-4-turbo"])
  }

  /** A selected model is appended to the list when it is truthy and not
      already offered. */
  function Offer(list: seq<string>, selected: Option<string>): (r: seq<string>)
    ensures |list| <= |r| <= |list| + 1
    ensures r[..|list|] == list
    ensures Truthy(selected) ==> selected.value in r
    ensures forall m :: m in r ==> m in list || (Truthy(selected) && m == selected.value)
    ensures !Truthy(selected) || selected.value in list ==> r == list
    ensures Unique(list) ==> Unique(r)
  {
    if Truthy(selected) && selected.value !in list then list + [selected.value] else list
  }

  predicate Unique(s: seq<string>) {
    forall i, j :: 0 <= i < j < |s| ==> s[i] != s[j]
  }

  /** Offering a model twice is offering it once. */
  lemma {:induction false} OfferIsIdempotent(list: seq<string>, selected: Option<string>)
    ensures Offer(Offer(list, selected), selected) == Offer(list, selected)
  {
  }

  /** `populateModelDropdowns(provider, selectedText, selectedImage)`:
      the provider's default lists (OpenAI's for any provider without its
      own), each followed by its selected model if that is missing. */
  function PopulateModelDropdowns(provider: string, selectedText: Option<string>, selectedImage: Option<string>)
    : (r: Dropdowns)
    ensures var d := if provider == "Gemini" then DefaultModels("Gemini") else DefaultModels("OpenAI");
            && |d.text| <= |r.text| <= |d.text| + 1 && |d.image| <= |r.image| <= |d.image| + 1
            && r.text[..|d.text|] == d.text && r.image[..|d.image|] == d.image
    ensures Truthy(selectedText) ==> selectedText.value in r.text
    ensures Truthy(selectedImage) ==> selectedImage.value in r.image
    ensures var d := if provider == "Gemini" then DefaultModels("Gemini") else DefaultModels("OpenAI");
            && (forall m :: m in r.text ==> m in d.text || (Truthy(selectedText) && m == selectedText.value))
            && (forall m :: m in r.image ==> m in d.image || (Truthy(selectedImage) && m == selectedImage.value))
            && (!Truthy(selectedText) || selectedText.value in d.text ==> r.text == d.text)
            && (!Truthy(selectedImage) || selectedImage.value in d.image ==> r.image == d.image)
    ensures Unique(r.text) && Unique(r.image)
  {
    var d := DefaultModels(provider);
    Dropdowns(Offer(d.text, selectedText), Offer(d.image, selectedImage))
  }

  /** The option list of a dropdown replaced by `updateModelList`, and the
      value it then shows: the previous one when still offered, otherwise
      the browser's choice of the first option ("" when there is none). */
  function Reselect(options: seq<string>, current: string): (v: string)
    ensures current in options ==> v == current
    ensures options != [] ==> v in options
    ensures options == [] ==> v == ""
  {
    if current in options then current else if options != [] then options[0] else ""
  }

  /* ---------------------------------------------------------------
     The model fields and the provider switch
     --------------------------------------------------------------- */

  /** `currentSettings.models` as the panel keeps it. The top-level key
      and URL are copied from a provider entry and may be `undefined`. */
  datatype PanelModels = PanelModels(
    provider: string, apiKey: Option<string>, baseUrl: Option<string>, textModel: string, imageModel: string,
    providerSettings: map<string, ProviderEntry>)

  /** The four inputs of the models tab and the two dropdowns' options;
      the model inputs are the dropdowns' selected values. */
  datatype Form = Form(apiKey: string, baseUrl: string, textModel: string, imageModel: string, lists: Dropdowns)

  const OpenAiBaseUrl: string := "https://api.openai.com/v1"
  const GeminiBaseUrl: string := "https://generativelanguage.googleapis.com/v1beta"

  /** The entry shown for a provider that has none saved. */
  const BlankEntry: ProviderEntry := ProviderEntry(Some(""), Some(""), Some(""), Some(""))

  /** The fallback models for a provider whose entry names none. */
  function FallbackText(provider: string): string {
    if provider == "Gemini" then "gemini-1.5-pro" else "gpt-4o"
  }

  function FallbackImage(provider: string): string {
    if provider == "Gemini" then "gemini-1.5-flash-8b" else "dall-e-3"
  }

  /** The base URL preset: only for an entry with neither a URL nor a key,
      and only for the two known providers. */
  function Preset(e: ProviderEntry, provider: string): (r: ProviderEntry)
    ensures Truthy(e.baseUrl) || Truthy(e.apiKey) ==> r == e
    ensures !Truthy(e.baseUrl) && !Truthy(e.apiKey) && provider == "OpenAI" ==> r == e.(baseUrl := Some(OpenAiBaseUrl))
    ensures !Truthy(e.baseUrl) && !Truthy(e.apiKey) && provider == "Gemini" ==> r == e.(baseUrl := Some(GeminiBaseUrl))
    ensures provider != "OpenAI" && provider != "Gemini" ==> r == e
  {
    if !Truthy(e.baseUrl) && !Truthy(e.apiKey) then
      if provider == "OpenAI" then e.(baseUrl := Some(OpenAiBaseUrl))
      else if provider == "Gemini" then e.(baseUrl := Some(GeminiBaseUrl))
      else e
    else e
  }

  /** The provider dropdown's change handler. The entry it works on is the
      saved one itself when there is one, so the preset is written back
      into `providerSettings`; a blank entry is not stored. */
  function SwitchProvider(m: PanelModels, newProvider: string): (r: (PanelModels, Form))
    ensures var saved := newProvider in m.providerSettings;
            var e := if saved then m.providerSettings[newProvider] else BlankEntry;
            var shown := Preset(e, newProvider);
            && r.0.provider == newProvider
            && r.0.apiKey == e.apiKey
            && r.0.baseUrl == shown.baseUrl
            && r.0.textModel == Or(e.textModel, FallbackText(newProvider))
            && r.0.imageModel == Or(e.imageModel, FallbackImage(newProvider))
            && r.0.providerSettings == (if saved then m.providerSettings[newProvider := shown] else m.providerSettings)
            && r.1.apiKey == Or(e.apiKey, "")
            && r.1.baseUrl == Or(shown.baseUrl, "")
    // the models chosen are among the options, so the dropdowns show them
    ensures r.1.textModel == r.0.textModel && r.0.textModel in r.1.lists.text && r.0.textModel != ""
    ensures r.1.imageModel == r.0.imageModel && r.0.imageModel in r.1.lists.image && r.0.imageModel != ""
    ensures r.1.lists == PopulateModelDropdowns(newProvider, Some(r.0.textModel), Some(r.0.imageModel))
  {
    var saved := newProvider in m.providerSettings;
    var e := Preset(if saved then m.providerSettings[newProvider] else BlankEntry, newProvider);
    var targetText := Or(e.textModel, FallbackText(newProvider));
    var targetImage := Or(e.imageModel, FallbackImage(newProvider));
    var lists := PopulateModelDropdowns(newProvider, Some(targetText), Some(targetImage));
    var form := Form(Or(e.apiKey, ""), Or(e.baseUrl, ""), targetText, targetImage, lists);
    var settings := if saved then m.providerSettings[newProvider := e] else m.providerSettings;
    (PanelModels(newProvider, e.apiKey, e.baseUrl, targetText, targetImage, settings), form)
  }

  /** Switching to the provider already shown a second time changes
      nothing: the preset, once written, is not applied again. */
  lemma {:induction false} SwitchTwiceIsSwitchOnce(m: PanelModels, p: string)
    ensures SwitchProvider(SwitchProvider(m, p).0, p) == SwitchProvider(m, p)
  {
    var saved := p in m.providerSettings;
    var e := if saved then m.providerSettings[p] else BlankEntry;
    var shown := Preset(e, p);
    var r1 := SwitchProvider(m, p);
    var m1 := r1.0;
    assert (p in m1.providerSettings) == saved;
    var e1 := if saved then m1.providerSettings[p] else BlankEntry;
    assert e1 == (if saved then shown else e);
    PresetIsIdempotent(e, p);
    assert Preset(e1, p) == shown;
    if saved {
      assert m1.providerSettings[p := shown] == m1.providerSettings;
    }
    var r2 := SwitchProvider(m1, p);
    assert r2.0.textModel == r1.0.textModel && r2.0.imageModel == r1.0.imageModel;
    assert r2.0 == r1.0;
    assert r2.1.lists == r1.1.lists;
    assert r2.1 == r1.1;
  }

  lemma {:induction false} PresetIsIdempotent(e: ProviderEntry, provider: string)
    ensures Preset(Preset(e, provider), provider) == Preset(e, provider)
  {
  }

  /** Only the entry of the provider switched to can change. */
  lemma {:induction false} SwitchKeepsOtherProviders(m: PanelModels, newProvider: string, other: string)
    requires other != newProvider && other in m.providerSettings
    ensures var r := SwitchProvider(m, newProvider).0;
            other in r.providerSettings && r.providerSettings[other] == m.providerSettings[other]
  {
  }

  /** The four model inputs. */
  datatype Field = ApiKeyField | BaseUrlField | TextModelField | ImageModelField

  function SetField(e: ProviderEntry, f: Field, value: string): ProviderEntry {
    match f
    case ApiKeyField => e.(apiKey := Some(value))
    case BaseUrlField => e.(baseUrl := Some(value))
    case TextModelField => e.(textModel := Some(value))
    case ImageModelField => e.(imageModel := Some(value))
  }

  /** The `input` handler of a model field: the value is written into the
      current provider's entry (created empty when missing) and into the
      matching top-level field. */
  function EditField(m: PanelModels, f: Field, value: string): (r: PanelModels)
    ensures r.provider == m.provider
    ensures r.providerSettings.Keys == m.providerSettings.Keys + {m.provider}
    ensures forall p :: p in m.providerSettings && p != m.provider ==> r.providerSettings[p] == m.providerSettings[p]
    ensures var e := r.providerSettings[m.provider];
            match f
            case ApiKeyField => e.apiKey == Some(value) && r.apiKey == Some(value)
            case BaseUrlField => e.baseUrl == Some(value) && r.baseUrl == Some(value)
            case TextModelField => e.textModel == Some(value) && r.textModel == value
            case ImageModelField => e.imageModel == Some(value) && r.imageModel == value
  {
    var prior := if m.provider in m.providerSettings then m.providerSettings[m.provider]
               else ProviderEntry(None, None, None, None);
    var settings := m.providerSettings[m.provider := SetField(prior, f, value)];
    match f
    case ApiKeyField => m.(providerSettings := settings, apiKey := Some(value))
    case BaseUrlField => m.(providerSettings := settings, baseUrl := Some(value))
    case TextModelField => m.(providerSettings := settings, textModel := value)
    case ImageModelField => m.(providerSettings := settings, imageModel := value)
  }

  /** A model typed for a provider comes back when the user switches away
      and back again. */
  lemma {:induction false} EditedModelSurvivesSwitch(m: PanelModels, value: string, other: string)
    requires value != "" && other != m.provider
    ensures var edited := EditField(m, TextModelField, value);
            SwitchProvider(SwitchProvider(edited, other).0, m.provider).0.textModel == value
  {
  }

  /** A key typed for a provider comes back too, and stops the base URL
      preset from overwriting the URL saved with it. */
  lemma {:induction false} EditedKeySurvivesSwitch(m: PanelModels, value: string, other: string)
    requires value != "" && other != m.provider
    ensures var edited := EditField(m, ApiKeyField, value);
            var back := SwitchProvider(SwitchProvider(edited, other).0, m.provider);
            && back.0.apiKey == Some(value)
            && back.1.apiKey == value
            && back.0.baseUrl == edited.providerSettings[m.provider].baseUrl
  {
  }
}

=== FILE: text.dfy ===
/** String helpers shared by every module of the model. Strings are
    `seq<char>`; each helper mirrors one JavaScript string operation the
    source relies on (`includes`, `startsWith`, `trim`, `split`,
    `replace`, `toLowerCase`, number-to-string). */
module Text {

  datatype Option<+T> = None | Some(value: T)

  /** JavaScript `s.startsWith(p)`. */
  predicate StartsWith(s: string, p: string) {
    p <= s
  }

  /** JavaScript `s.endsWith(p)`. */
  predicate EndsWith(s: string, p: string) {
    |p| <= |s| && s[|s| - |p|..] == p
  }

  /** `pat` occurs in `s` starting at index `i`. */
  predicate OccursAt(s: string, pat: string, i: int) {
    0 <= i && i + |pat| <= |s| && AgreesFrom(s, pat, i, 0)
  }

  /** `s` agrees with `pat` at the positions `i + k` onwards. */
  predicate AgreesFrom(s: string, pat: string, i: nat, k: nat)
    requires i + |pat| <= |s| && k <= |pat|
    decreases |pat| - k
  {
    k == |pat| || (s[i + k] == pat[k] && AgreesFrom(s, pat, i, k + 1))
  }

  lemma {:induction false} AgreesFromIff(s: string, pat: string, i: nat, k: nat)
    requires i + |pat| <= |s| && k <= |pat|
    ensures AgreesFrom(s, pat, i, k) <==> s[i + k..i + |pat|] == pat[k..]
    decreases |pat| - k
  {
    if k < |pat| {
      AgreesFromIff(s, pat, i, k + 1);
      assert s[i + k..i + |pat|] == [s[i + k]] + s[i + k + 1..i + |pat|];
      assert pat[k..] == [pat[k]] + pat[k + 1..];
    }
  }

  /** The same, stated with a slice. */
  lemma OccursAtIff(s: string, pat: string, i: int)
    ensures OccursAt(s, pat, i) <==> 0 <= i && i + |pat| <= |s| && s[i..i + |pat|] == pat
  {
    if 0 <= i && i + |pat| <= |s| {
      AgreesFromIff(s, pat, i, 0);
    }
  }

  lemma {:induction false} OccursSlice(s: string, a: nat, b: nat)
    requires a <= b <= |s|
    ensures OccursAt(s, s[a..b], a)
  {
    OccursAtIff(s, s[a..b], a);
  }

  lemma {:induction false} SliceConcat(s: string, a: nat, b: nat, c: nat)
    requires a <= b <= c <= |s|
    ensures s[a..c] == s[a..b] + s[b..c]
  {
  }

  /** Inside an occurrence of `t`, `pat` occurs in `s` where it occurs in `t`. */
  lemma {:induction false} OccursWithin(s: string, t: string, p: int, pat: string, i: int)
    requires OccursAt(s, t, p)
    requires 0 <= i && i + |pat| <= |t|
    ensures OccursAt(s, pat, p + i) <==> OccursAt(t, pat, i)
  {
    OccursAtIff(s, t, p);
    OccursAtIff(s, pat, p + i);
    OccursAtIff(t, pat, i);
    var a := s[p + i..p + i + |pat|];
    var b := t[i..i + |pat|];
    forall m | 0 <= m < |pat| ensures a[m] == b[m] {
      assert t[i + m] == s[p..p + |t|][i + m] == s[p + i + m];
    }
    assert a == b;
  }

  lemma {:induction false} OccursSplit(s: string, x: string, y: string, p: int)
    requires OccursAt(s, x + y, p)
    ensures OccursAt(s, x, p) && OccursAt(s, y, p + |x|)
  {
    OccursWithin(s, x + y, p, x, 0);
    OccursWithin(s, x + y, p, y, |x|);
    assert (x + y)[0..|x|] == x;
    assert (x + y)[|x|..|x| + |y|] == y;
    OccursAtIff(x + y, x, 0);
    OccursAtIff(x + y, y, |x|);
  }

  lemma {:induction false} OccursJoin(s: string, x: string, y: string, p: int)
    requires OccursAt(s, x, p) && OccursAt(s, y, p + |x|)
    ensures OccursAt(s, x + y, p)
  {
    OccursAtIff(s, x, p);
    OccursAtIff(s, y, p + |x|);
    OccursAtIff(s, x + y, p);
    assert s[p..p + |x| + |y|] == s[p..p + |x|] + s[p + |x|..p + |x| + |y|];
  }

  /** JavaScript `s.indexOf(pat, from)`: the first occurrence at or after `from`. */
  function IndexOf(s: string, pat: string, from: nat): (r: Option<nat>)
    decreases |s| - from
    ensures r.Some? ==> from <= r.value && OccursAt(s, pat, r.value)
  {
    if from + |pat| > |s| then None
    else if OccursAt(s, pat, from) then Some(from)
    else IndexOf(s, pat, from + 1)
  }

  /** `IndexOf` skips no occurrence: none starts between `from` and what it
      finds, and none at all at or after `from` when it finds nothing. */
  lemma {:induction false} IndexOfIsFirst(s: string, pat: string, from: nat)
    ensures var r := IndexOf(s, pat, from);
            && (r.Some? ==> forall j :: from <= j < r.value ==> !OccursAt(s, pat, j))
            && (r.None? ==> forall j :: from <= j ==> !OccursAt(s, pat, j))
    decreases |s| - from
  {
    if from + |pat| <= |s| && !OccursAt(s, pat, from) {
      IndexOfIsFirst(s, pat, from + 1);
    }
  }

  /** The first occurrence at or after `from` is what `IndexOf` finds. */
  lemma {:induction false} IndexOfFirst(s: string, pat: string, from: nat, e: nat)
    requires from <= e && OccursAt(s, pat, e)
    requires forall j :: from <= j < e ==> !OccursAt(s, pat, j)
    ensures IndexOf(s, pat, from) == Some(e)
  {
    var r := IndexOf(s, pat, from);
    IndexOfIsFirst(s, pat, from);
    assert r.Some?;
    assert !(r.value < e);
    assert !(r.value > e);
  }

  /** JavaScript `s.includes(pat)`. */
  predicate Contains(s: string, pat: string) {
    IndexOf(s, pat, 0).Some?
  }

  lemma {:induction false} ContainsIff(s: string, pat: string)
    ensures Contains(s, pat) <==> exists i :: OccursAt(s, pat, i)
  {
    IndexOfIsFirst(s, pat, 0);
    var r := IndexOf(s, pat, 0);
    if r.Some? {
      var w: int := r.value;
      assert OccursAt(s, pat, w);
      assert exists i :: OccursAt(s, pat, i);
      assert Contains(s, pat);
    }
  }

  /** Characters a JavaScript regular expression `.` refuses to match. */
  predicate IsLineTerminator(c: char) {
    c == '\n' || c == '\r' || c == '\U{2028}' || c == '\U{2029}'
  }

  /** The characters matched by `\s` and removed by `String.prototype.trim`
      (ECMAScript WhiteSpace and LineTerminator). */
  predicate IsWhitespace(c: char) {
    || IsLineTerminator(c)
    || c == ' ' || c == '\t' || c == '\U{000B}' || c == '\U{000C}'
    || c == '\U{00A0}' || c == '\U{1680}' || ('\U{2000}' <= c <= '\U{200A}')
    || c == '\U{202F}' || c == '\U{205F}' || c == '\U{3000}' || c == '\U{FEFF}'
  }

  /** The characters matched by `\w`. */
  predicate IsWordChar(c: char) {
    ('a' <= c <= 'z') || ('A' <= c <= 'Z') || ('0' <= c <= '9') || c == '_'
  }

  predicate AllWhitespace(s: string) {
    forall i :: 0 <= i < |s| ==> IsWhitespace(s[i])
  }

  /** The character classes the source's regular expressions scan with:
      `\s`, `\w`, `.` (anything but a line terminator) and `[a-z]`. */
  datatype CharClass = Space | Word | NonTerminator | LowerLetter

  predicate InClass(c: char, k: CharClass) {
    match k
    case Space => IsWhitespace(c)
    case Word => IsWordChar(c)
    case NonTerminator => !IsLineTerminator(c)
    case LowerLetter => 'a' <= c <= 'z'
  }

  /** Every character of `s[lo..hi]` is in class `k`, stated one character
      at a time so that a fact about it unfolds only as far as a proof asks. */
  predicate AllIn(s: string, lo: nat, hi: nat, k: CharClass)
    requires lo <= hi <= |s|
    decreases hi - lo
  {
    lo == hi || (InClass(s[lo], k) && AllIn(s, lo + 1, hi, k))
  }

  lemma {:induction false} AllInIff(s: string, lo: nat, hi: nat, k: CharClass)
    requires lo <= hi <= |s|
    ensures AllIn(s, lo, hi, k) <==> forall i :: lo <= i < hi ==> InClass(s[i], k)
    decreases hi - lo
  {
    if lo < hi {
      AllInIff(s, lo + 1, hi, k);
    }
  }

  /** A stretch inside one whose characters are all of class `k`. */
  lemma {:induction false} AllInPrefix(s: string, lo: nat, m: nat, hi: nat, k: CharClass)
    requires lo <= m <= hi <= |s|
    requires AllIn(s, lo, hi, k)
    ensures AllIn(s, lo, m, k)
    decreases m - lo
  {
    if lo < m {
      AllInPrefix(s, lo + 1, m, hi, k);
    }
  }

  /** Length of the longest run of characters of class `k` from index `i`. */
  function Run(s: string, i: nat, k: CharClass): (n: nat)
    requires i <= |s|
    ensures i + n <= |s|
    ensures AllIn(s, i, i + n, k)
    ensures i + n < |s| ==> !InClass(s[i + n], k)
    decreases |s| - i
  {
    if i < |s| && InClass(s[i], k) then 1 + Run(s, i + 1, k) else 0
  }

  /** A stretch of characters of class `k` lies inside the run from its start. */
  lemma {:induction false} RunCovers(s: string, i: nat, k: CharClass, n: nat)
    requires i + n <= |s|
    requires AllIn(s, i, i + n, k)
    ensures n <= Run(s, i, k)
    decreases n
  {
    if n > 0 {
      RunCovers(s, i + 1, k, n - 1);
    }
  }

  /** A stretch of characters of class `k` followed by the end of `s`
      or by one that does not is the run. */
  lemma {:induction false} RunIsUnique(s: string, i: nat, k: CharClass, n: nat)
    requires i + n <= |s|
    requires AllIn(s, i, i + n, k)
    requires i + n == |s| || !InClass(s[i + n], k)
    ensures Run(s, i, k) == n
    decreases n
  {
    if n > 0 {
      RunIsUnique(s, i + 1, k, n - 1);
    }
  }

  /** Number of leading whitespace characters of `s`. */
  function LeadingSpace(s: string): (n: nat)
    ensures n <= |s|
    ensures forall k :: 0 <= k < n ==> IsWhitespace(s[k])
    ensures n < |s| ==> !IsWhitespace(s[n])
  {
    if s != [] && IsWhitespace(s[0]) then 1 + LeadingSpace(s[1..]) else 0
  }

  /** The end of `s[lo..j]` once its trailing whitespace is dropped. */
  function ContentEnd(s: string, lo: nat, j: nat): (r: nat)
    requires lo <= j <= |s|
    ensures lo <= r <= j
    ensures forall k :: r <= k < j ==> IsWhitespace(s[k])
    ensures r > lo ==> !IsWhitespace(s[r - 1])
    decreases j
  {
    if j > lo && IsWhitespace(s[j - 1]) then ContentEnd(s, lo, j - 1) else j
  }

  /** JavaScript `s.trim()`: the text between the leading and the trailing
      whitespace. */
  function Trim(s: string): (r: string)
    ensures |r| <= |s|
    ensures r != [] ==> !IsWhitespace(r[0]) && !IsWhitespace(r[|r| - 1])
  {
    var i := LeadingSpace(s);
    var j := ContentEnd(s, i, |s|);
    assert i < j ==> s[i..j][0] == s[i];
    s[i..j]
  }

  /** What `Trim` keeps: a slice of `s` with only whitespace around it,
      itself neither starting nor ending with whitespace, and empty exactly
      when `s` is all whitespace. */
  lemma {:induction false} TrimFacts(s: string)
    ensures var r := Trim(s);
            && (exists i, j :: 0 <= i <= j <= |s| && r == s[i..j]
                  && (forall k :: 0 <= k < i ==> IsWhitespace(s[k]))
                  && (forall k :: j <= k < |s| ==> IsWhitespace(s[k])))
            && (r != [] ==> !IsWhitespace(r[0]) && !IsWhitespace(r[|r| - 1]))
            && (r == [] <==> AllWhitespace(s))
  {
    var i := LeadingSpace(s);
    var j := ContentEnd(s, i, |s|);
    assert Trim(s) == s[i..j];
    assert i < j ==> s[i..j][0] == s[i];
  }

  /** JavaScript `s.split(sep)` for a one-character separator: always at least
      one piece; the pieces never contain `sep`, and joining them with `sep`
      gives back `s`. */
  function Split(s: string, sep: char): (r: seq<string>)
    ensures |r| >= 1
    ensures forall k :: 0 <= k < |r| ==> sep !in r[k]
  {
    if s == [] then [[]]
    else
      var rest := Split(s[1..], sep);
      if s[0] == sep then [[]] + rest
      else [[s[0]] + rest[0]] + rest[1..]
  }

  /** Joining the pieces with the separator gives the string back. */
  lemma {:induction false} SplitJoin(s: string, sep: char)
    ensures Join(Split(s, sep), sep) == s
  {
    if s != [] {
      SplitJoin(s[1..], sep);
      var rest := Split(s[1..], sep);
      if s[0] == sep {
        assert Join([[]] + rest, sep) == [sep] + Join(rest, sep);
      } else {
        var r := [[s[0]] + rest[0]] + rest[1..];
        assert Split(s, sep) == r;
        assert s == [s[0]] + s[1..];
        if |rest| > 1 {
          assert Join(rest, sep) == rest[0] + [sep] + Join(rest[1..], sep);
          assert r[1..] == rest[1..];
          assert Join(r, sep) == [s[0]] + rest[0] + [sep] + Join(rest[1..], sep);
        }
      }
    }
  }

  /** The inverse of `Split`: JavaScript `parts.join(sep)`. */
  function Join(parts: seq<string>, sep: char): string {
    if |parts| == 0 then []
    else if |parts| == 1 then parts[0]
    else parts[0] + [sep] + Join(parts[1..], sep)
  }

  /** Number of occurrences of `c` in `s`. */
  function CountChar(s: string, c: char): nat {
    if s == [] then 0 else (if s[0] == c then 1 else 0) + CountChar(s[1..], c)
  }

  /** `s.split('\n').length` is the number of newlines plus one. */
  lemma {:induction false} SplitLength(s: string, sep: char)
    ensures |Split(s, sep)| == CountChar(s, sep) + 1
  {
    if s != [] {
      SplitLength(s[1..], sep);
    }
  }

  /** JavaScript `s.split(sep).pop()`: the text after the last `sep`, or
      the whole string when `sep` does not occur. */
  function AfterLast(s: string, sep: char): (r: string)
    ensures sep !in r
    ensures EndsWith(s, r)
    ensures forall i :: |s| - |r| <= i < |s| ==> s[i] != sep
    ensures |r| < |s| ==> s[|s| - |r| - 1] == sep
  {
    var parts := Split(s, sep);
    LastPieceIsSuffix(s, sep);
    parts[|parts| - 1]
  }

  lemma {:induction false} LastPieceIsSuffix(s: string, sep: char)
    ensures var p := Split(s, sep)[|Split(s, sep)| - 1];
            |p| <= |s| && s[|s| - |p|..] == p && (|p| < |s| ==> s[|s| - |p| - 1] == sep)
  {
    if s != [] {
      LastPieceIsSuffix(s[1..], sep);
      var rest := Split(s[1..], sep);
      var last := rest[|rest| - 1];
      LastPieceStep(s, sep);
      if s[0] != sep && |rest| == 1 {
        SplitJoin(s[1..], sep);
        assert last == Join(rest, sep);
        assert s == [s[0]] + last;
      } else {
        if |rest| > 1 {
          SplitJoin(s[1..], sep);
          JoinLongerThanLast(rest, sep);
        }
        assert s[1..][|s| - 1 - |last|..] == s[|s| - |last|..];
      }
    }
  }

  /** With two or more pieces, the joined text has a separator besides the
      last piece. */
  lemma {:induction false} JoinLongerThanLast(parts: seq<string>, sep: char)
    requires |parts| > 1
    ensures |Join(parts, sep)| > |parts[|parts| - 1]|
  {
    if |parts| > 2 {
      JoinLongerThanLast(parts[1..], sep);
    }
  }

  /** How the last piece of a split grows by one character at the front. */
  lemma {:induction false} LastPieceStep(s: string, sep: char)
    requires s != []
    ensures var rest := Split(s[1..], sep);
            var r := Split(s, sep);
            r[|r| - 1] == if s[0] != sep && |rest| == 1 then [s[0]] + rest[0] else rest[|rest| - 1]
  {
    var rest := Split(s[1..], sep);
    if s[0] == sep {
      assert Split(s, sep) == [[]] + rest;
    } else {
      var r := [[s[0]] + rest[0]] + rest[1..];
      assert Split(s, sep) == r;
      assert |rest| > 1 ==> r[|r| - 1] == rest[1..][|rest| - 2];
    }
  }

  /** The text after the last separator is exactly what follows it. */
  lemma {:induction false} AfterLastOfSuffix(a: string, sep: char, b: string)
    requires sep !in b
    ensures AfterLast(a + [sep] + b, sep) == b
  {
    var s := a + [sep] + b;
    var r := AfterLast(s, sep);
    assert s[|a|] == sep;
    forall j | |a| < j < |s| ensures s[j] != sep {
      assert s[j] == b[j - |a| - 1];
    }
    assert s[|s| - |b|..] == b;
  }

  /** JavaScript `s.replace(/c/g, rep)` for a single character `c`. */
  function ReplaceAll(s: string, c: char, rep: string): string {
    if s == [] then []
    else (if s[0] == c then rep else [s[0]]) + ReplaceAll(s[1..], c, rep)
  }

  /** After the replacement no `c` is left unless `rep` brings one, and a
      character in neither `s` nor `rep` is not in the result. */
  lemma {:induction false} ReplaceAllLeavesOut(s: string, c: char, rep: string, d: char)
    requires d == c || d !in s
    requires d !in rep
    ensures d !in ReplaceAll(s, c, rep)
  {
    if s != [] {
      ReplaceAllLeavesOut(s[1..], c, rep, d);
    }
  }

  /** JavaScript `s.replace(pat, rep)` with a string pattern: only the first
      occurrence is replaced. */
  function ReplaceFirst(s: string, pat: string, rep: string): (r: string)
    ensures IndexOf(s, pat, 0).None? ==> r == s
    ensures IndexOf(s, pat, 0).Some? ==>
      var i := IndexOf(s, pat, 0).value; r == s[..i] + rep + s[i + |pat|..]
  {
    match IndexOf(s, pat, 0)
    case None => s
    case Some(i) => s[..i] + rep + s[i + |pat|..]
  }

  /** JavaScript `toLowerCase`, restricted to ASCII letters. */
  function ToLowerAscii(s: string): (r: string)
    ensures |r| == |s|
    ensures forall i :: 0 <= i < |s| ==> r[i] == LowerChar(s[i])
  {
    if s == [] then [] else [LowerChar(s[0])] + ToLowerAscii(s[1..])
  }

  function LowerChar(c: char): char {
    if 'A' <= c <= 'Z' then (c as int - 'A' as int + 'a' as int) as char else c
  }

  predicate IsDigit(c: char) {
    '0' <= c <= '9'
  }

  /** The digits `Number.prototype.toString(36)` writes. */
  predicate IsBase36Char(c: char) {
    IsDigit(c) || ('a' <= c <= 'z')
  }

  /** Decimal rendering of a non-negative integer, as `String(n)` gives it. */
  function NatToString(n: nat): (r: string)
    ensures |r| >= 1
    ensures forall i :: 0 <= i < |r| ==> IsDigit(r[i])
    ensures |r| > 1 ==> r[0] != '0'
    decreases n
  {
    if n < 10 then [('0' as int + n) as char]
    else NatToString(n / 10) + [('0' as int + n % 10) as char]
  }

  /** Reads a string of decimal digits back as a number. */
  function DigitsValue(s: string): nat
    requires forall i :: 0 <= i < |s| ==> IsDigit(s[i])
  {
    if s == [] then 0
    else
      assert IsDigit(s[|s| - 1]);
      10 * DigitsValue(s[..|s| - 1]) + (s[|s| - 1] as int - '0' as int)
  }

  lemma {:induction false} NatToStringRoundTrip(n: nat)
    ensures DigitsValue(NatToString(n)) == n
    decreases n
  {
    if n >= 10 {
      NatToStringRoundTrip(n / 10);
      var r := NatToString(n);
      assert r[..|r| - 1] == NatToString(n / 10);
    }
  }
}
